=== FILE: README.md ===
# Orgzly notebook sync engine, in Dafny

This project models the notebook sync engine of Orgzly (revived). It is a
model of the engine's logic, not a runnable port: every part is a pure
function or a short method over immutable data, and the interesting
properties are proved.

What the engine does:

- **Book names** (`BookName`). It decides which repository files are
  notebooks. It maps a book name to `name.org` and parses a path back into a
  name. The two Java regular expressions are encoded as `java.util.regex`
  runs them: a greedy group with backtracking, a `.` that does not match line
  terminators, and `$` before a final line terminator.
- **The Git pass** (`GitSync`). One `syncRepo` run does the following:
  - it classifies the local books;
  - it decides whether to commit, push, fetch and rebase;
  - it reclassifies books from the rebase diff;
  - it merges in the repository listing after the sync;
  - it checks the final invariant;
  - it maps each status to the update written back to the database.

  JGit's results (push, fetch, rebase success, head equality, the diff, the
  listing) are inputs.
- **The generic dispatcher** (`SyncDispatch`). It groups local and remote
  notebooks by name. It turns each status into exactly one of five outcomes:
  nothing, unlink, load, save (linking first) or error.
- **The Git working copy** (`GitWorkingCopy`). The work tree, the index and
  HEAD are three maps. Beside them are the directories on disk and the commit
  log. Every failing JGit or file-system call is a `Faults` flag.
- **Small stores:**
  - `RookDao`: the rooks table, with `getOrInsert`.
  - `MockRepoStore`: the database-backed mock repository, a map keyed by URL.
- **The worker** (`SyncWorker`). It covers:
  - the precondition checks, in priority order;
  - the order of the sync phases;
  - the per-notebook loop, with error isolation and cancellation;
  - the failure summary;
  - the final result.
- **The WebDAV helpers** (`Webdav`). They cover:
  - the URL scheme rewrite and the relative path of a URL;
  - the directory-hierarchy, store and rename request sequences;
  - the listing filter.

Shared value types are in `SyncTypes`. Option, Result and the string helpers
are in `Common`.

Android's `Uri`, the ignore rules (`RepoIgnoreNode`), clocks and
`BookNamesake.getAll`/`updateStatus` are not modelled. Each one becomes a
function parameter or an input value.

## Model

| member | source | states |
|---|---|---|
| BookName.PatternMatchesIff | app/src/main/java/com/orgzly/android/BookName.java:26 | `PATTERN.matches()` accepts exactly the terminator-free paths ending in `.org` or `.org.txt`, including the bare extension |
| BookName.SkipMatchesIff | app/src/main/java/com/orgzly/android/BookName.java:27 | on a terminator-free path, the skip pattern holds iff the whole path starts with `.#` |
| BookName.IsSupportedFormatFileName | app/src/main/java/com/orgzly/android/BookName.java:135-137 | supported iff there is no line terminator, it ends in `.org`/`.org.txt`, and the whole path does not start with `.#` |
| BookName.SkipIsAnchoredAtPathStart | app/src/main/java/com/orgzly/android/BookName.java:135-137 | `dir/.#x.org` is supported, while `.#x.org` and a path ending in a newline are not |
| BookName.RepoRelativePathFromName | app/src/main/java/com/orgzly/android/BookName.java:139-141 | the path is the name followed by exactly `.org` |
| BookName.FromRepoRelativePath | app/src/main/java/com/orgzly/android/BookName.java:151-164 | it throws IllegalArgumentException iff no position ends `\.org(\.txt)?$`; otherwise it keeps the path, the format is ORG and the name is terminator-free |
| BookName.RoundTrip | app/src/main/java/com/orgzly/android/BookName.java:139-164 | parsing `n + ".org"` gives back the name `n` for every terminator-free `n` |
| BookName.TxtSuffixParses | app/src/main/java/com/orgzly/android/BookName.java:151-164 | `p.org.txt` parses to name `p`, format ORG, keeping the input as its path |
| BookName.SupportedParses | app/src/main/java/com/orgzly/android/BookName.java:135-164 | every supported file name parses, and its name plus `.org` (plus `.txt` if present) is the path |
| BookName.DevNullIsNotABook | app/src/main/java/com/orgzly/android/BookName.java:151-164 | `/dev/null` has no `.org` anywhere, so parsing it throws |
| BookName.OtherExtensionsAreSkipped | shared-test/src/main/java/com/orgzly/android/repos/SyncRepoTest.kt:115-126 | `file one.txt` and `file two.o` are not notebooks |
| BookName.OrgFileIsListedByName | shared-test/src/main/java/com/orgzly/android/repos/SyncRepoTest.kt:115-126 | `file three.org` is a notebook named `file three` |
| BookName.LastPathSegment | app/src/main/java/com/orgzly/android/BookName.java:143-149 | for ORG, the last URI segment plus `.org`, and exactly `null.org` when the URI has no segment; any other format throws IllegalArgumentException |
| BookName.LastPathSegmentParsesBack | app/src/main/java/com/orgzly/android/BookName.java:143-164 | the file name made for a book parses back to the segment it was made from, or to `null` when there is none |
| BookName.Scheme | app/src/main/java/com/orgzly/android/BookName.java:90 | the scheme is the colon-free text before the first `:`, and none exists iff there is no `:` |
| BookName.RemoveAllAbsent | app/src/main/java/com/orgzly/android/BookName.java:112 | `String.replace(t, "")` leaves a string without `t` unchanged |
| BookName.RepoRelativePathFromFileUri | app/src/main/java/com/orgzly/android/BookName.java:88-115 | a `content:` repository gives the document-tree outcome; any other scheme never fails |
| BookName.FileUriUnderRepoUri | app/src/main/java/com/orgzly/android/BookName.java:108-114 | a file URI made of the repository URI and a rest gives that rest minus one leading `/` |
| BookName.RepoRelativePathFromRookOrName | app/src/main/java/com/orgzly/android/BookName.java:117-133 | a stored rook path wins, then a path derived from the URIs; `name.org` is used only with no synced rook |
| GitSync.ClassifyBook | app/src/main/java/com/orgzly/android/repos/GitRepo.java:363-396 | the status the first loop leaves: out of sync, then previous error, then never synced, then the link/repo-count statuses; LOCAL_MODIFIED or ONLY_BOOK_WITH_LINK iff the book is staged |
| GitSync.ClassifyAllNamesakes | app/src/main/java/com/orgzly/android/repos/GitRepo.java:363-396 | a name has a namesake iff some book taken by this repository has it; the last such book decides it |
| GitSync.ClassifyAllStaged | app/src/main/java/com/orgzly/android/repos/GitRepo.java:384-393 | the staged paths are exactly `name.org` of the books that stage |
| GitSync.ClassifyAllLinked | app/src/main/java/com/orgzly/android/repos/GitRepo.java:366-376 | exactly the unlinked, non-error books get linked, and only with at most one repository |
| GitSync.PushNeededIffSomeBookStaged | app/src/main/java/com/orgzly/android/repos/GitRepo.java:384-393 | pushNeeded holds iff at least one book was staged |
| GitSync.OtherRepoBookIsIgnored | app/src/main/java/com/orgzly/android/repos/GitRepo.java:377-380 | adding a book linked to another repository changes nothing in the first pass |
| GitSync.FirstLoopOnOneBook | app/src/main/java/com/orgzly/android/repos/GitRepo.java:363-396 | one taken book yields one namesake and at most its own path staged |
| GitSync.PlanNetwork | app/src/main/java/com/orgzly/android/repos/GitRepo.java:397-433 | commit and push iff pushNeeded; fetch iff nothing to push or the push failed; rebase only when HEAD differs; second push only after a successful rebase with pushNeeded; conflict handling iff the rebase failed |
| GitSync.ConflictBranchIffRebaseAborted | app/src/main/java/com/orgzly/android/repos/GitRepo.java:405-430 | the conflict branch is taken iff a rebase was tried and `tryRebaseOnFetchHead` aborted it; the diff is handled iff the rebase was kept |
| GitSync.NameEntry | app/src/main/java/com/orgzly/android/repos/GitRepo.java:477 | a diff entry's name comes from its OLD path, and fails with IllegalArgumentException exactly when that path is not a notebook |
| GitSync.EntryOfBookFile | app/src/main/java/com/orgzly/android/repos/GitRepo.java:477 | an entry whose old path is `n.org` names book `n` |
| GitSync.StatusAfterChange | app/src/main/java/com/orgzly/android/repos/GitRepo.java:482-499 | MODIFY on LOCAL_MODIFIED gives CONFLICT_BOTH, any other MODIFY gives ROOK_MODIFIED, DELETE gives ROOK_NO_LONGER_EXISTS, ADD keeps the status |
| GitSync.ApplyEntry | app/src/main/java/com/orgzly/android/repos/GitRepo.java:475-503 | one entry throws iff its path does not parse, or it renames/copies a known book; otherwise only the named book's status changes |
| GitSync.HandleRemoteChanges | app/src/main/java/com/orgzly/android/repos/GitRepo.java:471-505 | only statuses change, and a book no entry names is untouched |
| GitSync.HandleRemoteChangesFailsIff | app/src/main/java/com/orgzly/android/repos/GitRepo.java:471-505 | the pass throws iff some entry throws |
| GitSync.KnownBookEntry | app/src/main/java/com/orgzly/android/repos/GitRepo.java:482-499 | a single MODIFY/ADD/DELETE on a known book sets exactly its status |
| GitSync.RenameOfKnownBookThrows | app/src/main/java/com/orgzly/android/repos/GitRepo.java:500-502 | RENAME or COPY of a known book throws IOException |
| GitSync.UnknownNamesAreSkipped | app/src/main/java/com/orgzly/android/repos/GitRepo.java:478-479 | entries naming unknown books leave the map unchanged |
| GitSync.RemoteAdditionThrows | app/src/main/java/com/orgzly/android/repos/GitRepo.java:477-494 | any ADD entry (old path `/dev/null`) makes the pass throw before the ADD case is reached |
| GitSync.RemoteAdditionExample | app/src/main/java/com/orgzly/android/repos/GitRepo.java:477 | adding `Tasks.org` remotely throws IllegalArgumentException |
| GitSync.ApplyEntryCorrected | app/src/main/java/com/orgzly/android/repos/GitRepo.java:491-494 | in the corrected loop, ADD changes nothing and every other kind behaves as written |
| GitSync.HandleRemoteChangesCorrected | app/src/main/java/com/orgzly/android/repos/GitRepo.java:471-505 | corrected loop: only statuses change, and unnamed books are untouched |
| GitSync.CorrectedFailsIff | app/src/main/java/com/orgzly/android/repos/GitRepo.java:471-505 | the corrected loop throws iff some non-ADD entry throws |
| GitSync.CorrectedIgnoresAdditions | app/src/main/java/com/orgzly/android/repos/GitRepo.java:491-494 | a diff made only of additions leaves the map unchanged |
| GitSync.CorrectedAgreesWithoutAdditions | app/src/main/java/com/orgzly/android/repos/GitRepo.java:471-505 | without additions, the corrected loop equals the code as written |
| GitSync.MarkConflicts | app/src/main/java/com/orgzly/android/repos/GitRepo.java:420-423 | after a failed rebase, exactly the modified books become CONFLICT_PUSHED and the others keep their status |
| GitSync.RookName | app/src/main/java/com/orgzly/android/repos/GitRepo.java:437 | a listed rook has a name iff its path parses |
| GitSync.NameRooks | app/src/main/java/com/orgzly/android/repos/GitRepo.java:436-437 | each listed rook is paired with its parsed name, in order |
| GitSync.AttachRook | app/src/main/java/com/orgzly/android/repos/GitRepo.java:436-452 | an unseen name becomes NO_BOOK_ONE_ROOK and is loaded; a known one is reloaded only if ROOK_MODIFIED/CONFLICT_BOTH; either way the rook becomes its latestLinkedRook |
| GitSync.MergeListing | app/src/main/java/com/orgzly/android/repos/GitRepo.java:436-452 | no name is lost, no status changes, and only listed rooks are loaded |
| GitSync.MergeListingFailsIff | app/src/main/java/com/orgzly/android/repos/GitRepo.java:436-437 | merging throws iff some listed rook has no book name |
| GitSync.MergeListingAttachesRooks | app/src/main/java/com/orgzly/android/repos/GitRepo.java:451 | every listed rook ends up as its namesake's latestLinkedRook |
| GitSync.MergeListingNewNamesLoaded | app/src/main/java/com/orgzly/android/repos/GitRepo.java:439-443 | every new name is NO_BOOK_ONE_ROOK and loaded from a rook that was loaded |
| GitSync.MergeListingUnlistedUnchanged | app/src/main/java/com/orgzly/android/repos/GitRepo.java:436-452 | an unlisted namesake is unchanged, and no new name appears without a listing |
| GitSync.MergeListingReloadsChanged | app/src/main/java/com/orgzly/android/repos/GitRepo.java:445-449 | a listed ROOK_MODIFIED or CONFLICT_BOTH book is reloaded from its rook |
| GitSync.Persist | app/src/main/java/com/orgzly/android/repos/GitRepo.java:507-532 | ERROR exactly for MULTIPLE_REPOS, ROOK_NO_LONGER_EXISTS, PREVIOUS_ERROR and CONFLICT_PUSHED; link and sync updated exactly for the six statuses; isModified always cleared; unlink only for a vanished rook |
| GitSync.PersistAll | app/src/main/java/com/orgzly/android/repos/GitRepo.java:453-467 | it throws RuntimeException iff some namesake has no latestLinkedRook and is neither ROOK_NO_LONGER_EXISTS nor PREVIOUS_ERROR; otherwise every namesake gets its update |
| GitSync.AfterNetwork | app/src/main/java/com/orgzly/android/repos/GitRepo.java:397-433 | a failed fetch throws; a failed rebase marks conflicts; a successful rebase applies the diff; otherwise the map is unchanged |
| GitSync.SyncRepo | app/src/main/java/com/orgzly/android/repos/GitRepo.java:359-469 | the network plan follows the staged books; with a book staged, a failing `writeFileAndAddToIndex` throws IOException and a failing `commitCurrentIndex` a GitAPIException, before any network step; FINISHED_WITH_CONFLICTS iff the conflict branch ran; every written book has isModified cleared |
| GitSync.UnstagedPassIgnoresCommitFaults | app/src/main/java/com/orgzly/android/repos/GitRepo.java:384-402 | a pass that stages nothing gives the same result whether or not staging and committing would fail |
| GitSync.SyncRepoUpdatesEveryBook | app/src/main/java/com/orgzly/android/repos/GitRepo.java:453-467 | every book this repository takes, and every listed rook's name, receives an update |
| GitSync.SyncRepoFailsOnRemoteAddition | app/src/main/java/com/orgzly/android/repos/GitRepo.java:403-414 | a whole pass whose rebase brought in an added file throws |
| GitSync.LocalAndRemoteEdit | app/src/main/java/com/orgzly/android/repos/GitRepo.java:359-505 | a book edited on both sides is pushed again, reloaded, and reported CONFLICT_BOTH as INFO |
| GitSync.RemoteDeletion | app/src/main/java/com/orgzly/android/repos/GitRepo.java:453-463 | a remotely deleted book is unlinked and reported as an ERROR |
| GitSync.FailedRebaseMarksConflict | app/src/main/java/com/orgzly/android/repos/GitRepo.java:415-430 | a failed rebase ends FINISHED_WITH_CONFLICTS and a modified book gets CONFLICT_PUSHED with its rook linked |
| GitSync.CorrectedPassLoadsRemoteAddition | app/src/main/java/com/orgzly/android/repos/GitRepo.java:436-452 | with additions skipped, a remotely added notebook is loaded as NO_BOOK_ONE_ROOK |
| GitSync.ListBooks | app/src/main/java/com/orgzly/android/repos/GitRepo.java:235-274 | a file is listed iff it and all its directories pass the ignore rules, folders are allowed when it is nested, and the name is a notebook; every listed path parses |
| Common.AncestorDirsComplete | app/src/main/java/com/orgzly/android/repos/GitRepo.java:247-256 | every `/` of a path yields a directory the tree walk visits |
| Common.NoAncestorsIffNoSlash | app/src/main/java/com/orgzly/android/repos/GitRepo.java:255-256 | a path has no enclosing directory iff it has no `/` |
| SyncDispatch.LocalBooksToGroup | app/src/main/java/com/orgzly/android/sync/SyncUtils.kt:56-62 | exactly the books not linked to a GIT repository are grouped |
| SyncDispatch.LocalBooksToGroupDistributes | app/src/main/java/com/orgzly/android/sync/SyncUtils.kt:56-62 | the filter keeps the books in order |
| SyncDispatch.RegularRooks | app/src/main/java/com/orgzly/android/sync/SyncUtils.kt:25-36 | the collected rooks are exactly those of the regular repositories |
| SyncDispatch.GroupNotebooksByName | app/src/main/java/com/orgzly/android/sync/SyncUtils.kt:48-79 | the names are those of the grouping, and every namesake has a book and a status |
| SyncDispatch.GroupingKeepsOrCreatesBook | app/src/main/java/com/orgzly/android/sync/SyncUtils.kt:70-76 | a namesake keeps its local book, or gets a dummy, and keeps its rooks |
| SyncDispatch.SyncNamesake | app/src/main/java/com/orgzly/android/sync/SyncUtils.kt:88-168 | a null status throws; a status without a branch gives a null action; every action's kind and effects follow the status class |
| SyncDispatch.NoChangeIsInfoOnly | app/src/main/java/com/orgzly/android/sync/SyncUtils.kt:95-96 | NO_CHANGE is INFO with no effect |
| SyncDispatch.ReportedErrorsTouchNothing | app/src/main/java/com/orgzly/android/sync/SyncUtils.kt:100-112 | each of the twelve error statuses is ERROR with no effect |
| SyncDispatch.VanishedRookUnlinks | app/src/main/java/com/orgzly/android/sync/SyncUtils.kt:114-120 | ROOK_NO_LONGER_EXISTS unlinks, removes synced-to, and reports ERROR |
| SyncDispatch.LoadsReadTheRightRook | app/src/main/java/com/orgzly/android/sync/SyncUtils.kt:124-136 | the two load classes read `rooks[0]` and the latest linked rook respectively |
| SyncDispatch.OneRepoLinksBeforeSaving | app/src/main/java/com/orgzly/android/sync/SyncUtils.kt:140-148 | ONE_REPO links to the first repository before saving `name.org` there |
| SyncDispatch.LocalModifiedSavesToSyncedPath | app/src/main/java/com/orgzly/android/sync/SyncUtils.kt:150-156 | LOCAL_MODIFIED saves to the path derived from the synced-to URI |
| SyncDispatch.SaveWithoutLinkThrows | app/src/main/java/com/orgzly/android/sync/SyncUtils.kt:150-164 | a save status on an unlinked book throws |
| SyncDispatch.ConflictBothIsErrorHereInfoInGit | app/src/main/java/com/orgzly/android/sync/SyncUtils.kt:100-112 | CONFLICT_BOTH is ERROR here but INFO in the Git pass |
| SyncDispatch.ConflictPushedHasNoAction | app/src/main/java/com/orgzly/android/sync/SyncUtils.kt:94-165 | CONFLICT_PUSHED has no branch, so the action is null |
| GitWorkingCopy.GitRepoIsClean | app/src/main/java/com/orgzly/android/git/GitFileSynchronizer.java:305-311 | clean iff the status query works, the index equals HEAD and the work tree matches the index |
| GitWorkingCopy.EnsureRepoIsClean | app/src/main/java/com/orgzly/android/git/GitFileSynchronizer.java:313-317 | throws IOException iff there are uncommitted changes or the status query fails |
| GitWorkingCopy.ResetHard | app/src/main/java/com/orgzly/android/git/GitFileSynchronizer.java:199-203 | the index and the tracked files return to HEAD, and untracked files stay |
| GitWorkingCopy.ResetHardIsClean | app/src/main/java/com/orgzly/android/git/GitFileSynchronizer.java:199-203 | after a hard reset the repository is clean |
| GitWorkingCopy.CommitCurrentIndex | app/src/main/java/com/orgzly/android/git/GitFileSynchronizer.java:228-232 | a no-op on a clean tree; otherwise HEAD becomes the index with one new commit |
| GitWorkingCopy.CommitCurrentIndexCleansStaging | app/src/main/java/com/orgzly/android/git/GitFileSynchronizer.java:228-232 | after it, the index equals HEAD |
| GitWorkingCopy.WriteFileAndAddToIndex | app/src/main/java/com/orgzly/android/git/GitFileSynchronizer.java:214-226 | fails with IOException iff an absent file cannot be created (createNewFile fails, or its directory is missing, since no directories are made) or staging fails; never commits; a created file stays on disk even when staging then throws, and the index changes only on success |
| GitWorkingCopy.StagingChangedContentDirties | app/src/main/java/com/orgzly/android/git/GitFileSynchronizer.java:214-232 | on a clean repository, staging content that differs from HEAD succeeds iff the file can be created, and then makes the repository dirty, with the following commit moving HEAD to it |
| GitWorkingCopy.NestedNewFileNeedsItsDirectory | app/src/main/java/com/orgzly/android/git/GitFileSynchronizer.java:217-219 | a new file `sub/x.org` whose directory `sub` does not exist cannot be created, so staging it throws and nothing changes |
| GitWorkingCopy.StagingSameContentKeepsClean | app/src/main/java/com/orgzly/android/git/GitFileSynchronizer.java:214-232 | staging the content HEAD already holds changes nothing, and the following commit is a no-op |
| GitWorkingCopy.UpdateAndCommitFile | app/src/main/java/com/orgzly/android/git/GitFileSynchronizer.java:260-271 | the new content is always left in the work tree; it commits `Orgzly update: path` iff staging dirtied the repository; a throw leaves HEAD and the log untouched but keeps what was staged |
| GitWorkingCopy.IdenticalContentMakesNoCommit | app/src/main/java/com/orgzly/android/git/GitFileSynchronizer.java:264-267 | storing the content HEAD already has changes nothing |
| GitWorkingCopy.ChangedContentIsCommitted | app/src/main/java/com/orgzly/android/git/GitFileSynchronizer.java:260-271 | new content is committed, with HEAD holding it |
| GitWorkingCopy.FailedUpdateLeavesRepositoryDirty | app/src/main/java/com/orgzly/android/git/GitFileSynchronizer.java:205-271 | an update of a tracked file that throws leaves the repository dirty, so the next update of that file throws IOException |
| GitWorkingCopy.UpdateAndCommitExistingFile | app/src/main/java/com/orgzly/android/git/GitFileSynchronizer.java:205-212 | requires a clean tree; an absent file throws FileNotFoundException |
| GitWorkingCopy.EnsureDirectoryHierarchy | app/src/main/java/com/orgzly/android/git/GitFileSynchronizer.java:250-258 | nothing happens without a `/`; fails with IOException iff the parent is missing and mkdirs fails; creates only ancestor directories, the parent included on success |
| GitWorkingCopy.ParentDir | app/src/main/java/com/orgzly/android/git/GitFileSynchronizer.java:252 | the parent is the longest ancestor directory |
| GitWorkingCopy.AddAndCommitNewFile | app/src/main/java/com/orgzly/android/git/GitFileSynchronizer.java:240-248 | a dirty tree or an existing destination throws before anything is written; past the directories, the file is on disk with the new content whether or not staging and committing then succeed |
| GitWorkingCopy.NewFileIsCommitted | app/src/main/java/com/orgzly/android/git/GitFileSynchronizer.java:240-248 | without faults, a new file lands in HEAD with exactly one commit |
| GitWorkingCopy.FailedNewFileBlocksRetry | app/src/main/java/com/orgzly/android/git/GitFileSynchronizer.java:240-248 | a new file whose staging throws stays on disk untracked; the repository still counts as clean, and adding the file again throws |
| GitWorkingCopy.Push | app/src/main/java/com/orgzly/android/git/GitFileSynchronizer.java:147-161 | true iff the push did not throw and every remote ref update is OK |
| GitWorkingCopy.TryRebaseOnFetchHead | app/src/main/java/com/orgzly/android/git/GitFileSynchronizer.java:170-178 | an unsuccessful rebase is aborted, restoring the starting copy |
| GitWorkingCopy.RebaseStatusesThatAbort | app/src/main/java/com/orgzly/android/git/GitFileSynchronizer.java:170-178 | stash-apply conflicts, up-to-date and nothing-to-commit keep the rebased copy; conflicts, stopped, failed and uncommitted changes abort to the starting copy |
| GitWorkingCopy.AbortedRebaseKeepsCleanHead | app/src/main/java/com/orgzly/android/git/GitFileSynchronizer.java:170-178 | an aborted rebase keeps a clean repository clean with its own HEAD |
| GitWorkingCopy.DoMerge | app/src/main/java/com/orgzly/android/git/GitFileSynchronizer.java:134-141 | false iff conflicting, and then the copy is hard-reset and clean |
| GitWorkingCopy.Pull | app/src/main/java/com/orgzly/android/git/GitFileSynchronizer.java:122-132 | requires a clean tree; a failing fetch throws; otherwise the merge's answer |
| GitWorkingCopy.ConflictingPullRestoresFetchedCopy | app/src/main/java/com/orgzly/android/git/GitFileSynchronizer.java:122-141 | a conflicting pull returns false and leaves the fetched state |
| GitWorkingCopy.RenameFileInRepo | app/src/main/java/com/orgzly/android/git/GitFileSynchronizer.java:343-369 | a dirty tree or a failed fetch throws untouched; false after a conflicting pull; true only with the new path committed with the old content, the old path removed, and one rename commit; a later throw keeps the merged HEAD and log, with the copy already written |
| GitWorkingCopy.RenameRefusesExistingTarget | app/src/main/java/com/orgzly/android/git/GitFileSynchronizer.java:350-352 | an existing destination throws IOException |
| GitWorkingCopy.RenameOfPresentFileCommits | app/src/main/java/com/orgzly/android/git/GitFileSynchronizer.java:353-362 | without faults, renaming a present file to a fresh path commits and returns true |
| GitWorkingCopy.FailedRenameCommitLeavesRenameStaged | app/src/main/java/com/orgzly/android/git/GitFileSynchronizer.java:343-369 | a rename whose commit throws leaves the old path deleted and the new one staged but uncommitted, so the repository is dirty |
| RookDao.GetOrInsert | app/src/main/java/com/orgzly/android/db/dao/RookDao.kt:12-22 | a row with a path is returned untouched; a row without one gets the path under the same id; otherwise a row is inserted under the next id |
| RookDao.GetOrInsertKeepsRows | app/src/main/java/com/orgzly/android/db/dao/RookDao.kt:12-22 | there is never a second row for a pair, a non-null path is never overwritten, and other pairs are untouched |
| RookDao.GetOrInsertPreservesValid | app/src/main/java/com/orgzly/android/db/dao/RookDao.kt:12-22 | row ids stay distinct and below the counter |
| RookDao.GetOrInsertIdempotent | app/src/main/java/com/orgzly/android/db/dao/RookDao.kt:12-22 | a second identical call returns the same id and writes nothing |
| MockRepoStore.GetBooks | app/src/main/java/com/orgzly/android/data/DbRepoBookRepository.kt:19-24 | exactly one rook per stored row of the repository |
| MockRepoStore.GetBooksPaths | app/src/main/java/com/orgzly/android/data/DbRepoBookRepository.kt:19-24 | a listed path is the URI path minus at most one leading `/` |
| MockRepoStore.RetrieveBook | app/src/main/java/com/orgzly/android/data/DbRepoBookRepository.kt:26-33 | IOException iff no row at repoUri plus path; otherwise the stored content, revision and mtime |
| MockRepoStore.CreateBook | app/src/main/java/com/orgzly/android/data/DbRepoBookRepository.kt:35-56 | the row is stored under the rook's URL, and the rook comes back with its revision, mtime and path |
| MockRepoStore.CreateThenRetrieve | app/src/main/java/com/orgzly/android/data/DbRepoBookRepository.kt:26-56 | what is created is retrieved back unchanged |
| MockRepoStore.RenamedRevision | app/src/main/java/com/orgzly/android/data/DbRepoBookRepository.kt:64 | the revision starts with `MockedRenamedRevision-` |
| MockRepoStore.RenameBook | app/src/main/java/com/orgzly/android/data/DbRepoBookRepository.kt:58-77 | IOException iff the source is absent; a runtime failure, with nothing changed, when another row already has the destination URL; otherwise the row moves keeping content and repoUrl, its revision named after the first clock reading and its mtime the second, and every other row is untouched; the rook carries the raw URI path |
| MockRepoStore.RenameOntoStoredBookFails | app/src/main/java/com/orgzly/android/data/DbRepoBookRepository.kt:62-67 | the update of the moved row by its id cannot take over another notebook's URL, so that rename fails |
| MockRepoStore.RenamedRookPathKeepsSlash | app/src/main/java/com/orgzly/android/data/DbRepoBookRepository.kt:58-77 | after a rename, the returned path keeps the `/` that listing drops |
| MockRepoStore.DeleteBook | app/src/main/java/com/orgzly/android/data/DbRepoBookRepository.kt:79-87 | IOException iff absent; otherwise exactly that row is removed |
| MockRepoStore.OperationsPreserveValid | app/src/main/java/com/orgzly/android/data/DbRepoBookRepository.kt:35-87 | rows stay stored under their own URL |
| SyncWorker.ReposRequireStoragePermission | app/src/main/java/com/orgzly/android/sync/SyncWorker.kt:286-293 | true iff some repository URI has the directory scheme |
| SyncWorker.CheckConditions | app/src/main/java/com/orgzly/android/sync/SyncWorker.kt:141-200 | each failure state is returned iff its condition holds and no earlier check fired |
| SyncWorker.CheckConditionsPassesWhenAllowed | app/src/main/java/com/orgzly/android/sync/SyncWorker.kt:141-200 | all checks pass on a permitted configuration |
| SyncWorker.SyncIntegrallySyncedRepos | app/src/main/java/com/orgzly/android/sync/SyncWorker.kt:202-210 | null iff every repository returned null; otherwise the first non-null outcome |
| SyncWorker.TryDoWork | app/src/main/java/com/orgzly/android/sync/SyncWorker.kt:92-125 | a failed check is returned first; then the first non-null integral outcome (or its exception); then the namesakes' non-null state (or exception); FINISHED iff one of these is FINISHED or all are null |
| SyncWorker.TryDoWorkIsFirstState | app/src/main/java/com/orgzly/android/sync/SyncWorker.kt:92-125 | tryDoWork equals the first decided phase of the sequence checks, integral repositories, namesakes |
| SyncWorker.FirstStateAppend | app/src/main/java/com/orgzly/android/sync/SyncWorker.kt:202-210 | phases after an undecided prefix are read on; after a decided prefix they are never read |
| SyncWorker.IntegralStateShortCircuits | app/src/main/java/com/orgzly/android/sync/SyncWorker.kt:101-110 | once an integral repository reports a state, the namesake phase does not matter |
| SyncWorker.QuietSyncFinishes | app/src/main/java/com/orgzly/android/sync/SyncWorker.kt:92-125 | with nothing to report, the run finishes |
| SyncWorker.MarkOf | app/src/main/java/com/orgzly/android/sync/SyncWorker.kt:249-276 | canceled iff stopped by then; ERROR iff not stopped and the dispatcher threw |
| SyncWorker.SyncNamesakes | app/src/main/java/com/orgzly/android/sync/SyncWorker.kt:212-283 | null without non-integral repositories; FAILED_NO_BOOKS_FOUND for no namesakes; otherwise one mark per namesake, in order, where a cancellation marks every later book canceled and a book is marked ERROR iff it was not stopped and its own dispatch threw |
| SyncWorker.Trim | app/src/main/java/com/orgzly/android/sync/SyncWorker.kt:138 | empty iff all whitespace; otherwise it starts and ends with non-whitespace |
| SyncWorker.TrimKeepsInterior | app/src/main/java/com/orgzly/android/sync/SyncWorker.kt:138 | the result is a slice of the input, with only whitespace cut off either end |
| SyncWorker.FailureLines | app/src/main/java/com/orgzly/android/sync/SyncWorker.kt:130-136 | books without a last action contribute nothing |
| SyncWorker.FailureLinesAppend | app/src/main/java/com/orgzly/android/sync/SyncWorker.kt:130-136 | the lines of two lists of books are the lines of each, in order |
| SyncWorker.FailureLinesSplit | app/src/main/java/com/orgzly/android/sync/SyncWorker.kt:130-136 | each book's line sits between those of the books before and after it: `name: message` and a newline with a last action, nothing without |
| SyncWorker.MessageIfBooksFailed | app/src/main/java/com/orgzly/android/sync/SyncWorker.kt:127-139 | null iff the lines are all whitespace; otherwise exactly the trimmed lines, starting with non-whitespace |
| SyncWorker.SingleFailureMessage | app/src/main/java/com/orgzly/android/sync/SyncWorker.kt:127-139 | one failed book gives exactly `name: message`, its trailing newline trimmed |
| SyncWorker.MessageIffSomeAction | app/src/main/java/com/orgzly/android/sync/SyncWorker.kt:127-139 | there is a message iff some book has a last action |
| SyncWorker.ColonInLines | app/src/main/java/com/orgzly/android/sync/SyncWorker.kt:131-135 | the lines hold a `name: message` separator when some book has an action |
| SyncWorker.DoWork | app/src/main/java/com/orgzly/android/sync/SyncWorker.kt:44-62 | success iff the state is not a failure; cancellation marks books canceled; other exceptions become FAILED_EXCEPTION |
| Webdav.ToUrl | app/src/main/java/com/orgzly/android/repos/WebdavRepo.kt:282-284 | each DAV prefix maps to http or https with the rest kept; other strings are unchanged |
| Webdav.ToUrlIdempotent | app/src/main/java/com/orgzly/android/repos/WebdavRepo.kt:282-284 | the result has no DAV scheme, so a second rewrite changes nothing |
| Webdav.ToUrlKeepsRest | app/src/main/java/com/orgzly/android/repos/WebdavRepo.kt:282-284 | the part after the scheme is kept verbatim |
| Webdav.RelativePath | app/src/main/java/com/orgzly/android/repos/WebdavRepo.kt:273-280 | corrected: exactly one leading `repoUri/` is stripped; without it the URL is returned unchanged |
| Webdav.RelativePathOfChild | app/src/main/java/com/orgzly/android/repos/WebdavRepo.kt:273-280 | a child URL gives back its path |
| Webdav.RelativePathAsWritten | app/src/main/java/com/orgzly/android/repos/WebdavRepo.kt:273-280 | the URI is used as a regular expression: unbalanced parentheses throw; a match at the start is stripped, so when the URI with its parentheses dropped, plus `/`, matches there, the result is exactly the URL after that many characters |
| Webdav.DotMatchesOtherDirectory | app/src/main/java/com/orgzly/android/repos/WebdavRepo.kt:273-280 | a `.` in the repository URI strips a different directory |
| Webdav.GroupMissesOwnChild | app/src/main/java/com/orgzly/android/repos/WebdavRepo.kt:273-280 | parentheses in the repository URI stop its own children from being stripped |
| Webdav.AsWrittenAgreesWithoutMetacharacters | app/src/main/java/com/orgzly/android/repos/WebdavRepo.kt:273-280 | without metacharacters in the URI, the code and the corrected helper agree |
| Webdav.EnsureDirectoryHierarchy | app/src/main/java/com/orgzly/android/repos/WebdavRepo.kt:208-218 | creates each missing proper ancestor directory, in order, skipping existing ones and never the leaf |
| Webdav.StoreBook | app/src/main/java/com/orgzly/android/repos/WebdavRepo.kt:220-232 | directories only when the name has a `/`; the PUT comes last |
| Webdav.RenameBook | app/src/main/java/com/orgzly/android/repos/WebdavRepo.kt:234-251 | throws IOException iff the destination exists, before any request; when the new name has a `/`, every missing directory above the encoded path is created; only directories the server lacks are created; the MOVE comes last |
| Webdav.Keep | app/src/main/java/com/orgzly/android/repos/WebdavRepo.kt:171-184 | from Android O on, the relative path is computed first and throws iff the repository URI has unbalanced parentheses; otherwise the answer is whether the resource is kept |
| Webdav.ListedBooks | app/src/main/java/com/orgzly/android/repos/WebdavRepo.kt:168-186 | throws IllegalArgumentException iff from Android O on the listing is non-empty and the URI is not a valid regex; otherwise exactly the kept resources |
| Webdav.ListedBooksIsKeptBooks | app/src/main/java/com/orgzly/android/repos/WebdavRepo.kt:168-186 | when no path computation can throw, the listing succeeds and returns the kept resources in the order the server listed them |
| Webdav.ListedBooksDistributes | app/src/main/java/com/orgzly/android/repos/WebdavRepo.kt:168-186 | the books of a concatenated listing are the books of each part, in order |
| Webdav.ListedBooksOfOne | app/src/main/java/com/orgzly/android/repos/WebdavRepo.kt:170-185 | a single resource is listed exactly when it has a notebook name and, from Android O on, its relative path is not ignored |
| Webdav.GetBooks | app/src/main/java/com/orgzly/android/repos/WebdavRepo.kt:159-187 | the repository directory is created first iff the server lacks it; the listing throws IllegalArgumentException iff from Android O on it is non-empty and the URI has unbalanced parentheses; otherwise exactly the kept entries are listed, each a supported notebook file name |
| Webdav.UnbalancedUriBreaksListing | app/src/main/java/com/orgzly/android/repos/WebdavRepo.kt:159-187 | with repository `n(1` on Android O, getBooks creates the directory and then throws |
| Webdav.OldAndroidIgnoresNothing | app/src/main/java/com/orgzly/android/repos/WebdavRepo.kt:178-184 | before Android O, getBooks never throws and the ignore rules have no effect |

## Left out

- JGit itself is left out because its results are what the model takes as inputs. This covers:
  - transport;
  - fetch, clone and the conflict-branch force push;
  - `getCommitDiff`, the tree walk and commit-time lookup.
- Android's `Uri` parsing, encoding and `buildUpon` are function parameters, because their behaviour lives in the Android framework.
- `BookName.getFileName` needs an Android `Context` and `DocumentFile`.
- The `content:` branch of `getRepoRelativePathFromFileUri` is an input value, because it walks a document tree.
- `BookName.fromRook`, `BookName.repoRelativePath(name, format)` and `BookName.getRepoRelativePath(Uri, Uri)` are not part of this model.
  - The Git pass takes a rook's name from its repository-relative path.
  - The dispatcher uses `RepoRelativePathFromName` for `name.org`.
  - The Git pass stages a book at `RepoRelativePathFromName(name)`, where the code calls `repoRelativePath(bookName, ORG)`.
  - The relative path from a synced-to URI is a parameter.
- `BookNamesake.getAll`, `BookNamesake.updateStatus` and `createDummyBook` are not part of this model. They are parameters of `SyncDispatch.GroupNotebooksByName`.
- `RepoIgnoreNode` is a predicate parameter of `GitSync.ListBooks` and `Webdav.GetBooks`.
- `SyncState.isFailure` and `RepoUtils` are parameters or booleans, because neither is part of this model.
- GitSync.PersistAll: the code writes books in `HashMap` order and throws at the first bad namesake. The model checks every namesake first, so books written before the throw are not modelled.
- The status message texts, `currentBranch()`, notifications, progress reporting and alarms are left out. Permission and network APIs are booleans in `SyncWorker.Conditions`.
- Times (`System.currentTimeMillis`) are parameters.
- File contents are strings. Copying a file and writing a book to disk cannot fail except through a `Faults` flag.
- GitWorkingCopy.EnsureDirectoryHierarchy: a failing `mkdirs` is taken to have created nothing, although `File.mkdirs` may leave some of the directories it made.
- GitWorkingCopy.ParentDir: the parent is the text before the last `/`. The normalisation `java.io.File` applies to `a//b`, a trailing `/` or a leading `/` is not modelled.
- GitSync.SyncRepo: staging success is one flag for all books, and links set or files written before a staging or commit failure are not part of the result. The flag also stands for a new nested book whose directory is missing (see `GitWorkingCopy.NestedNewFileNeedsItsDirectory`).
- Webdav.GetBooks: the listing's resources, names and full URLs are inputs, and the repository URI is limited as for `Webdav.RelativePathAsWritten`. The returned resources stand for the rooks `toVersionedRook` makes.
- The WebDAV client (Sardine) is left out: requests are returned as a sequence, and what the server has is a set of URLs.
- WebDAV authentication, TLS and timeouts are configuration only.
- Webdav.RelativePathAsWritten: it models only repository URIs without regex metacharacters other than `.`, `(` and `)`. Other metacharacters in a URI are not modelled.
- GitWorkingCopy.TryRebaseOnFetchHead: the rebased state is an input. JGit's rebase itself is not modelled, only the abort of an unsuccessful one.
- GitWorkingCopy.Pull: the fetched and merged copies are inputs, for the same reason.
- `GitFileSynchronizer` operations outside the sync core are not modelled: clone, fetch, `deleteFileFromRepo`, `currentHead` and the conflict-branch push.
- MockRepoStore.RenameBook: the `DbRepoBook` entity and its DAO are not part of this model. The store is keyed by URL, as `createBook`'s REPLACE relies on. A rename onto another row's URL is therefore the update aborting on that key: Room's default for `@Update`, a `SQLiteConstraintException`, which is a runtime exception. A schema without a unique URL would instead keep two rows at the destination, which a store keyed by URL cannot represent.
- `DocumentRepo`, `MockRepo` and the repository interfaces are plumbing around the modelled stores.

## Findings

| source | as written | input that shows it | evidently intended | confidence | as-written member | corrected member |
|---|---|---|---|---|---|---|
| app/src/main/java/com/orgzly/android/repos/GitRepo.java:477-494 | The book name is taken from `getOldPath()` before the switch on the change type. JGit reports `/dev/null` as the old path of an added file, so `fromRepoRelativePath` throws for every ADD entry, and the whole sync fails. | A rebase that brings in a new remote file `Tasks.org` | ADD entries are skipped, as the comment at the ADD case says; the new file is loaded by the listing that follows | not executed | GitSync.RemoteAdditionThrows, GitSync.RemoteAdditionExample, GitSync.SyncRepoFailsOnRemoteAddition | GitSync.HandleRemoteChangesCorrected, GitSync.CorrectedFailsIff, GitSync.CorrectedIgnoresAdditions, GitSync.CorrectedAgreesWithoutAdditions, GitSync.CorrectedPassLoadsRemoteAddition |
| app/src/main/java/com/orgzly/android/repos/WebdavRepo.kt:273-280 | The repository URI is put into a regular expression without quoting. A `.` matches any character, and parentheses are a group. | Repository `a.b` with URL `aXb/c.org` gives `c.org`; repository `n(1)` with URL `n(1)/c.org` gives the URL unchanged | The literal prefix `repoUri/` is stripped | not executed | Webdav.RelativePathAsWritten, Webdav.DotMatchesOtherDirectory, Webdav.GroupMissesOwnChild | Webdav.RelativePath, Webdav.RelativePathOfChild, Webdav.AsWrittenAgreesWithoutMetacharacters |

=== FILE: book_name.dfy ===
/**
 * The path/identity mapper of BookName.java: which repository files are
 * notebooks, how a book name becomes a repository-relative path, and how a
 * path is parsed back into a name.
 *
 * The two regular expressions are encoded as the matcher runs them:
 *   PATTERN      = (.*)\.(org)(\.txt)?$     (greedy group, then backtracking)
 *   SKIP_PATTERN = ^\.#.*
 * where `.` matches any character except a Java line terminator, and `$`
 * (no MULTILINE flag) holds at the end of input or just before a final line
 * terminator. `matches()` additionally requires the match to reach the end
 * of input; `find()` tries every start position from left to right.
 */
module BookName {
  import opened Common

  /** Only ORG is a supported format; any other value stands for the rest of the enum. */
  datatype BookFormat = Org | OtherFormat

  /** A parsed notebook file name (the BookName class). */
  datatype Parsed = Parsed(repoRelativePath: string, name: string, format: BookFormat)

  const OrgExtension: string := ".org"

  // ---------------------------------------------------------------------
  // Regex primitives
  // ---------------------------------------------------------------------

  /** Characters Java's `.` refuses to match (no DOTALL, no UNIX_LINES). */
  predicate IsLineTerminator(c: char) {
    c == '\n' || c == '\r' || c == '\U{0085}' || c == '\U{2028}' || c == '\U{2029}'
  }

  predicate NoTerminators(s: string) {
    forall i :: 0 <= i < |s| ==> !IsLineTerminator(s[i])
  }

  /** How far a `.*` started at `i` can reach: the first line terminator at or after `i`. */
  function RunEnd(s: string, i: nat): (e: nat)
    requires i <= |s|
    ensures i <= e <= |s|
    ensures NoTerminators(s[i..e])
    ensures e < |s| ==> IsLineTerminator(s[e])
    decreases |s| - i
  {
    if i == |s| || IsLineTerminator(s[i]) then i else RunEnd(s, i + 1)
  }

  /** Java's `$` without MULTILINE at position k. */
  predicate Dollar(s: string, k: nat) {
    || k == |s|
    || (k + 1 == |s| && IsLineTerminator(s[k]) && !(s[k] == '\n' && k > 0 && s[k - 1] == '\r'))
    || (k + 2 == |s| && s[k] == '\r' && s[k + 1] == '\n')
  }

  /** `matches()` must consume the whole input; `find()` only needs `$` to hold. */
  datatype Mode = Whole | Search

  predicate EndOk(s: string, k: nat, mode: Mode) {
    if mode == Whole then k == |s| else Dollar(s, k)
  }

  predicate Lit(s: string, k: nat, lit: string) {
    k + |lit| <= |s| && s[k..k + |lit|] == lit
  }

  /** The part of PATTERN after the group, `\.(org)(\.txt)?$`, starting at position k. */
  predicate TailAt(s: string, k: nat, mode: Mode) {
    Lit(s, k, ".org") && ((Lit(s, k + 4, ".txt") && EndOk(s, k + 8, mode)) || EndOk(s, k + 4, mode))
  }

  /**
   * Backtracking of the greedy group `(.*)` started at i: the group end is
   * tried at hi, hi - 1, ..., i, and the first one after which the tail
   * matches is taken. The result is the LARGEST such end.
   */
  function Backtrack(s: string, i: nat, hi: nat, mode: Mode): (r: Option<nat>)
    requires i <= hi <= |s|
    ensures r.Some? ==> i <= r.value <= hi && TailAt(s, r.value, mode)
    ensures r.Some? ==> forall k :: r.value < k <= hi ==> !TailAt(s, k, mode)
    ensures r.None? ==> forall k :: i <= k <= hi ==> !TailAt(s, k, mode)
    decreases hi
  {
    if TailAt(s, hi, mode) then Some(hi)
    else if hi == i then None
    else Backtrack(s, i, hi - 1, mode)
  }

  /** PATTERN tried at start position i; yields the end of group 1. */
  function MatchAt(s: string, i: nat, mode: Mode): Option<nat>
    requires i <= |s|
  {
    Backtrack(s, i, RunEnd(s, i), mode)
  }

  /** `Matcher.find()` from start position i: (start, end of group 1) of the first match. */
  function FindFrom(s: string, i: nat): (r: Option<(nat, nat)>)
    requires i <= |s|
    ensures r.Some? ==> i <= r.value.0 <= r.value.1 <= |s|
    ensures r.Some? ==> NoTerminators(s[r.value.0..r.value.1]) && TailAt(s, r.value.1, Search)
    ensures r.None? ==> forall k :: i <= k <= |s| ==> !TailAt(s, k, Search)
    decreases |s| - i
  {
    match MatchAt(s, i, Search)
    case Some(j) =>
      assert NoTerminators(s[i..j]) by {
        var e := RunEnd(s, i);
        assert s[i..j] == s[i..e][..j - i];
      }
      Some((i, j))
    case None => if i == |s| then None else FindFrom(s, i + 1)
  }

  // ---------------------------------------------------------------------
  // BookName.java operations
  // ---------------------------------------------------------------------

  /** PATTERN.matcher(path).matches() */
  predicate PatternMatches(path: string) {
    MatchAt(path, 0, Whole).Some?
  }

  /** SKIP_PATTERN.matcher(path).matches(): `^\.#` and then `.*` up to the end. */
  predicate SkipMatches(path: string) {
    Lit(path, 0, ".#") && RunEnd(path, 2) == |path|
  }

  lemma PatternMatchesIff(path: string)
    ensures PatternMatches(path) <==>
      NoTerminators(path) && (EndsWith(path, ".org") || EndsWith(path, ".org.txt"))
  {
    if PatternMatches(path) {
      PatternMatchesSound(path);
    }
    if NoTerminators(path) && (EndsWith(path, ".org") || EndsWith(path, ".org.txt")) {
      PatternMatchesComplete(path);
    }
  }

  lemma PatternMatchesSound(path: string)
    requires PatternMatches(path)
    ensures NoTerminators(path)
    ensures EndsWith(path, ".org") || EndsWith(path, ".org.txt")
  {
    var j := WholeMatchSplit(path);
    var tail := path[j..];
    assert NoTerminators(tail) by {
      forall i | 0 <= i < |tail| ensures !IsLineTerminator(tail[i]) {
        assert tail[i] in ".org.txt";
      }
    }
    NoTerminatorsConcat(path[..j], tail);
    assert path[..j] + tail == path;
  }

  /** A whole-input match splits the path into terminator-free group 1 and the literal tail. */
  lemma WholeMatchSplit(path: string) returns (j: nat)
    requires PatternMatches(path)
    ensures j <= |path| && NoTerminators(path[..j])
    ensures path[j..] == ".org" || path[j..] == ".org.txt"
  {
    var e := RunEnd(path, 0);
    j := MatchAt(path, 0, Whole).value;
    assert j <= e && TailAt(path, j, Whole);
    assert path[..j] == path[0..e][..j];
    if j + 4 != |path| {
      assert path[j..] == path[j..j + 4] + path[j + 4..j + 8];
    }
  }

  lemma NoTerminatorsConcat(a: string, b: string)
    requires NoTerminators(a) && NoTerminators(b)
    ensures NoTerminators(a + b)
  {
    forall i | 0 <= i < |a + b| ensures !IsLineTerminator((a + b)[i]) {
      if i >= |a| {
        assert (a + b)[i] == b[i - |a|];
      }
    }
  }

  lemma PatternMatchesComplete(path: string)
    requires NoTerminators(path)
    requires EndsWith(path, ".org") || EndsWith(path, ".org.txt")
    ensures PatternMatches(path)
  {
    assert RunEnd(path, 0) == |path|;
    if EndsWith(path, ".org") {
      assert TailAt(path, |path| - 4, Whole);
    } else {
      assert path[|path| - 8..][..4] == ".org";
      assert TailAt(path, |path| - 8, Whole);
    }
  }

  /** Once PATTERN matched, the whole path is terminator-free, so SKIP reduces to its prefix. */
  lemma SkipMatchesIff(path: string)
    requires NoTerminators(path)
    ensures SkipMatches(path) <==> StartsWith(path, ".#")
  {
    if |path| >= 2 {
      var e := RunEnd(path, 2);
      assert e == |path|;
    }
  }

  /**
   * isSupportedFormatFileName: the whole path ends in `.org` or `.org.txt`
   * (any prefix, the empty one included), contains no line terminator, and
   * does not start with `.#` -- the skip check is anchored at the start of the
   * WHOLE path, not of its last segment.
   */
  function IsSupportedFormatFileName(path: string): (r: bool)
    ensures r <==> NoTerminators(path)
                   && (EndsWith(path, ".org") || EndsWith(path, ".org.txt"))
                   && !StartsWith(path, ".#")
  {
    PatternMatchesIff(path);
    if NoTerminators(path) then
      SkipMatchesIff(path);
      PatternMatches(path) && !SkipMatches(path)
    else
      PatternMatches(path) && !SkipMatches(path)
  }

  /** repoRelativePathFromName */
  function RepoRelativePathFromName(name: string): (r: string)
    ensures |r| == |name| + 4 && r[..|name|] == name && EndsWith(r, OrgExtension)
  {
    name + OrgExtension
  }

  /**
   * fromRepoRelativePath: `find()` PATTERN; group 1 is the name. A path with
   * no match throws IllegalArgumentException.
   */
  function FromRepoRelativePath(path: string): (r: Result<Parsed>)
    ensures r.Err? <==> forall k :: 0 <= k <= |path| ==> !TailAt(path, k, Search)
    ensures r.Err? ==> r.error == IllegalArgument
    ensures r.Ok? ==> r.value.repoRelativePath == path && r.value.format == Org
    ensures r.Ok? ==> NoTerminators(r.value.name)
  {
    match FindFrom(path, 0)
    case Some((i, j)) => Ok(Parsed(path, path[i..j], Org))
    case None =>
      assert !TailAt(path, 0, Search) ==> FindFrom(path, 0).None?;
      Err(IllegalArgument)
  }

  // ---------------------------------------------------------------------
  // Properties
  // ---------------------------------------------------------------------

  /** On a terminator-free path only the very end satisfies `$`. */
  lemma TailAtNoTerminators(s: string, k: nat)
    requires NoTerminators(s)
    ensures TailAt(s, k, Search) <==> TailAt(s, k, Whole)
  {
  }

  /** For a terminator-free path, find() starts at 0 and backtracks from the end. */
  lemma FindOnTerminatorFree(s: string)
    requires NoTerminators(s)
    ensures FindFrom(s, 0) == match MatchAt(s, 0, Search) case Some(j) => Some((0, j)) case None => None
  {
    assert RunEnd(s, 0) == |s|;
    if MatchAt(s, 0, Search).None? {
      var k: nat := |s|;
      assert !TailAt(s, k, Search);
    }
  }

  /** Round trip: the name of the path made from a name is that name. */
  lemma {:induction false} RoundTrip(name: string)
    requires NoTerminators(name)
    ensures FromRepoRelativePath(RepoRelativePathFromName(name))
         == Ok(Parsed(name + ".org", name, Org))
  {
    var s := RepoRelativePathFromName(name);
    assert NoTerminators(s) by {
      forall i | 0 <= i < |s| ensures !IsLineTerminator(s[i]) {
        if i < |name| { assert s[i] == name[i]; }
      }
    }
    assert RunEnd(s, 0) == |s|;
    assert TailAt(s, |name|, Search) by { assert s[|name|..|name| + 4] == ".org"; }
    FindOnTerminatorFree(s);
    var j := MatchAt(s, 0, Search).value;
    assert j == |name|;
    assert s[0..j] == name;
  }

  /** A legacy `.org.txt` file keeps its path and drops both extensions from its name. */
  lemma {:induction false} TxtSuffixParses(prefix: string)
    requires NoTerminators(prefix)
    ensures FromRepoRelativePath(prefix + ".org.txt")
         == Ok(Parsed(prefix + ".org.txt", prefix, Org))
  {
    var s := prefix + ".org.txt";
    var n := |prefix|;
    assert NoTerminators(s) by {
      forall i | 0 <= i < |s| ensures !IsLineTerminator(s[i]) {
        if i < n { assert s[i] == prefix[i]; }
      }
    }
    assert RunEnd(s, 0) == |s|;
    assert s[n..n + 4] == ".org" && s[n + 4..n + 8] == ".txt";
    assert TailAt(s, n, Search);
    FindOnTerminatorFree(s);
    var j := MatchAt(s, 0, Search).value;
    assert forall i :: 0 <= i < 8 ==> s[n + i] == ".org.txt"[i];
    forall k | n < k <= |s| ensures !TailAt(s, k, Search) {
      if k + 4 <= |s| {
        assert s[k..k + 4][0] == s[k];
        assert s[k..k + 4][1] == s[k + 1];
      }
    }
    assert j == n;
    assert s[0..j] == prefix;
  }

  /** Every supported file name parses, and the name re-creates the path (up to `.txt`). */
  lemma {:induction false} SupportedParses(path: string)
    requires IsSupportedFormatFileName(path)
    ensures FromRepoRelativePath(path).Ok?
    ensures var n := FromRepoRelativePath(path).value.name;
            path == RepoRelativePathFromName(n) || path == RepoRelativePathFromName(n) + ".txt"
  {
    if EndsWith(path, ".org.txt") {
      TxtPathParses(path);
      TxtPathRebuilt(path);
    } else {
      OrgPathParses(path);
      assert path == path[..|path| - 4] + ".org";
    }
  }

  lemma TxtPathRebuilt(path: string)
    requires EndsWith(path, ".org.txt")
    ensures path == RepoRelativePathFromName(path[..|path| - 8]) + ".txt"
  {
    assert path == path[..|path| - 8] + ".org" + ".txt";
  }

  lemma TxtPathParses(path: string)
    requires NoTerminators(path) && EndsWith(path, ".org.txt")
    ensures FromRepoRelativePath(path) == Ok(Parsed(path, path[..|path| - 8], Org))
  {
    var p := path[..|path| - 8];
    PrefixKeepsNoTerminators(path, |path| - 8);
    assert path == p + ".org.txt";
    TxtSuffixParses(p);
  }

  lemma OrgPathParses(path: string)
    requires NoTerminators(path) && EndsWith(path, ".org")
    ensures FromRepoRelativePath(path) == Ok(Parsed(path, path[..|path| - 4], Org))
  {
    var p := path[..|path| - 4];
    PrefixKeepsNoTerminators(path, |path| - 4);
    assert path == p + ".org";
    RoundTrip(p);
  }

  lemma PrefixKeepsNoTerminators(s: string, k: nat)
    requires NoTerminators(s) && k <= |s|
    ensures NoTerminators(s[..k])
  {
    forall i | 0 <= i < k ensures !IsLineTerminator(s[..k][i]) { assert s[..k][i] == s[i]; }
  }

  /** Membership tests decide terminator-freedom of a literal path. */
  lemma NoTerminatorsByMembership(s: string)
    requires '\n' !in s && '\r' !in s && '\U{0085}' !in s && '\U{2028}' !in s && '\U{2029}' !in s
    ensures NoTerminators(s)
  {
    forall i | 0 <= i < |s| ensures !IsLineTerminator(s[i]) {
      assert s[i] in s;
    }
  }

  /** The skip pattern is anchored at the start of the whole path. */
  lemma SkipIsAnchoredAtPathStart()
    ensures IsSupportedFormatFileName("dir/.#x.org")
    ensures !IsSupportedFormatFileName(".#x.org")
    ensures !IsSupportedFormatFileName("x.org\n")
  {
    NoTerminatorsByMembership("dir/.#x.org");
    assert "dir/.#x.org"[|"dir/.#x.org"| - 4..] == ".org";
    assert "dir/.#x.org"[..2] != ".#" by { assert "dir/.#x.org"[..2][0] == 'd'; }
    assert ".#x.org"[..2] == ".#";
    assert IsLineTerminator("x.org\n"[5]);
  }

  /** `file one.txt` and `file two.o` are not notebooks. */
  lemma OtherExtensionsAreSkipped()
    ensures !IsSupportedFormatFileName("file one.txt")
    ensures !IsSupportedFormatFileName("file two.o")
  {
    var one, two := "file one.txt", "file two.o";
    assert !EndsWith(one, ".org") by { assert |one| == 12; assert one[8..][3] == 't'; }
    assert !EndsWith(one, ".org.txt") by { assert one[4..][3] == 'e'; }
    assert !EndsWith(two, ".org") by { assert |two| == 10; assert two[6..][3] == 'o'; }
    assert !EndsWith(two, ".org.txt") by { assert two[2..][3] == 't'; }
  }

  /** `file three.org` is listed, as the book `file three`. */
  lemma OrgFileIsListedByName(name: string)
    requires name == "file three"
    ensures IsSupportedFormatFileName(name + ".org")
    ensures FromRepoRelativePath(name + ".org") == Ok(Parsed(name + ".org", name, Org))
  {
    var path := name + ".org";
    NoTerminatorsByMembership(name);
    NoTerminatorsByMembership(".org");
    NoTerminatorsConcat(name, ".org");
    assert path[|path| - 4..] == ".org";
    assert path[..2] != ".#" by { assert path[0] == 'f'; }
    RoundTrip(name);
  }

  /** A path with no `.org` tail anywhere cannot be parsed. */
  lemma DevNullIsNotABook()
    ensures FromRepoRelativePath("/dev/null") == Err(IllegalArgument)
  {
    var s := "/dev/null";
    assert '.' !in s;
    forall k | 0 <= k <= |s| ensures !Lit(s, k, ".org") {
      if k < |s| { assert s[k] in s; }
    }
  }

  // ---------------------------------------------------------------------
  // Remaining helpers of BookName.java
  // ---------------------------------------------------------------------

  /**
   * lastPathSegment: the last segment of `Uri.parse(name)` plus `.org` for
   * ORG, IllegalArgumentException for any other format. `pathSegments`
   * stands for Android's URI parser; Java renders a missing segment as "null".
   */
  function LastPathSegment(name: string, format: BookFormat, pathSegments: string -> seq<string>): (r: Result<string>)
    ensures format == Org <==> r.Ok?
    ensures r.Err? ==> r.error == IllegalArgument
    ensures r.Ok? ==> EndsWith(r.value, OrgExtension)
    ensures r.Ok? && |pathSegments(name)| > 0 ==>
              r.value == RepoRelativePathFromName(pathSegments(name)[|pathSegments(name)| - 1])
    ensures r.Ok? && |pathSegments(name)| == 0 ==> r.value == "null.org"
  {
    if format == Org then
      var segments := pathSegments(name);
      var last := if |segments| == 0 then "null" else segments[|segments| - 1];
      Ok(last + OrgExtension)
    else
      Err(IllegalArgument)
  }

  /**
   * The file name lastPathSegment makes parses back, as a book, to the
   * segment it was made from (to "null" when the URI has no segment).
   */
  lemma LastPathSegmentParsesBack(name: string, pathSegments: string -> seq<string>)
    requires forall k :: 0 <= k < |pathSegments(name)| ==> NoTerminators(pathSegments(name)[k])
    ensures var segments := pathSegments(name);
            var file := LastPathSegment(name, Org, pathSegments).value;
            && (|segments| > 0 ==> FromRepoRelativePath(file) == Ok(Parsed(file, segments[|segments| - 1], Org)))
            && (|segments| == 0 ==> FromRepoRelativePath(file) == Ok(Parsed("null.org", "null", Org)))
  {
    var segments := pathSegments(name);
    if |segments| > 0 {
      RoundTrip(segments[|segments| - 1]);
    } else {
      NoTerminatorsByMembership("null");
      RoundTrip("null");
    }
  }

  /** Android `Uri.getScheme()` of a string URI: everything before the first `:`. */
  function Scheme(uri: string): (r: Option<string>)
    ensures r.Some? ==> ':' !in r.value && StartsWith(uri, r.value + ":")
    ensures r.None? <==> ':' !in uri
  {
    match IndexOf(uri, ':')
    case None => None
    case Some(i) => assert uri[..i + 1] == uri[..i] + ":"; Some(uri[..i])
  }

  /** Java `String.replace(target, "")`: every non-overlapping occurrence, left to right, is removed. */
  function RemoveAll(s: string, target: string): (r: string)
    ensures |r| <= |s|
    ensures |target| == 0 ==> r == s
    decreases |s|
  {
    if |target| == 0 || |s| == 0 then s
    else if StartsWith(s, target) then RemoveAll(s[|target|..], target)
    else [s[0]] + RemoveAll(s[1..], target)
  }

  predicate OccursAt(s: string, target: string, i: int) {
    0 <= i <= |s| - |target| && s[i..i + |target|] == target
  }

  predicate Occurs(s: string, target: string) {
    exists i | 0 <= i <= |s| :: OccursAt(s, target, i)
  }

  lemma {:induction false} RemoveAllAbsent(s: string, target: string)
    requires |target| > 0 && !Occurs(s, target)
    ensures RemoveAll(s, target) == s
    decreases |s|
  {
    if |s| > 0 {
      if |target| <= |s| {
        assert !OccursAt(s, target, 0);
        assert s[0..|target|] == s[..|target|];
      }
      forall i | OccursAt(s[1..], target, i) ensures OccursAt(s, target, i + 1) {
        assert s[1..][i..i + |target|] == s[i + 1..i + 1 + |target|];
      }
      RemoveAllAbsent(s[1..], target);
    }
  }

  /** The synced-to record of a book: where it was last stored. */
  datatype SyncedTo = SyncedTo(repoUri: string, uri: string, repoRelativePath: Option<string>)

  /**
   * getRepoRelativePathFromFileUri. A `content:` repository needs a walk of
   * the document tree, whose outcome is the `documentTreePath` input; for
   * every other scheme the repository URI is removed from the file URI, the
   * rest is URI-decoded (`decode`) and one leading `/` is dropped.
   */
  function RepoRelativePathFromFileUri(repoUri: string, fileUri: string, decode: string -> string,
                                       documentTreePath: Result<string>): (r: Result<string>)
    ensures Scheme(repoUri) == Some("content") ==> r == documentTreePath
    ensures Scheme(repoUri) != Some("content") ==> r.Ok?
  {
    if Scheme(repoUri) == Some("content") then documentTreePath
    else Ok(DropLeadingSlash(decode(RemoveAll(fileUri, repoUri))))
  }

  /**
   * repoRelativePathFromRookOrName: the stored repo-relative path of the
   * synced-to rook if there is one, else a path derived from its URIs, and
   * `name.org` only when the book has never been synced.
   */
  function RepoRelativePathFromRookOrName(bookName: string, syncedTo: Option<SyncedTo>,
                                          decode: string -> string,
                                          documentTreePath: Result<string>): (r: Result<string>)
    ensures syncedTo.None? ==> r == Ok(RepoRelativePathFromName(bookName))
    ensures syncedTo.Some? && syncedTo.value.repoRelativePath.Some? ==>
              r == Ok(syncedTo.value.repoRelativePath.value)
    ensures syncedTo.Some? && syncedTo.value.repoRelativePath.None? ==>
              r == RepoRelativePathFromFileUri(syncedTo.value.repoUri, syncedTo.value.uri, decode, documentTreePath)
  {
    match syncedTo
    case None => Ok(RepoRelativePathFromName(bookName))
    case Some(st) =>
      match st.repoRelativePath
      case Some(p) => Ok(p)
      case None => RepoRelativePathFromFileUri(st.repoUri, st.uri, decode, documentTreePath)
  }

  /** A file URI that is the repository URI followed by a path yields that path, minus one `/`. */
  lemma {:induction false} FileUriUnderRepoUri(repoUri: string, rest: string)
    requires |repoUri| > 0 && !Occurs(rest, repoUri)
    requires Scheme(repoUri) != Some("content")
    ensures RepoRelativePathFromFileUri(repoUri, repoUri + rest, s => s, Err(IO)) == Ok(DropLeadingSlash(rest))
  {
    var s := repoUri + rest;
    assert StartsWith(s, repoUri);
    assert s[|repoUri|..] == rest;
    RemoveAllAbsent(rest, repoUri);
  }
}

=== FILE: common.dfy ===
/**
 * Shared vocabulary of the sync-engine model: optional values, results that
 * carry the exception kind the source would throw, and a few string helpers.
 */
module Common {

  datatype Option<+T> = None | Some(value: T)

  /** The exception classes the modelled code throws or lets escape. */
  datatype ErrorKind =
    | IllegalArgument   // java.lang.IllegalArgumentException
    | IO                // java.io.IOException
    | FileNotFound      // java.io.FileNotFoundException
    | Runtime           // java.lang.RuntimeException
    | NullPointer       // a `!!` or an unboxed null in Kotlin
    | NoSuchElement     // an index or iterator past the end
    | GitApi            // org.eclipse.jgit.api.errors.GitAPIException

  datatype Result<+T> = Ok(value: T) | Err(error: ErrorKind) {
    predicate IsFailure() { Err? }

    function PropagateFailure<U>(): Result<U>
      requires Err?
    {
      Err(error)
    }

    function Extract(): T
      requires Ok?
    {
      value
    }
  }

  predicate StartsWith(s: string, prefix: string) {
    |prefix| <= |s| && s[..|prefix|] == prefix
  }

  predicate EndsWith(s: string, suffix: string) {
    |suffix| <= |s| && s[|s| - |suffix|..] == suffix
  }

  /** Kotlin's `String.replaceFirst("^/", "")`: drop one leading slash. */
  function DropLeadingSlash(s: string): (r: string)
    ensures StartsWith(s, "/") ==> "/" + r == s
    ensures !StartsWith(s, "/") ==> r == s
  {
    if |s| > 0 && s[0] == '/' then s[1..] else s
  }

  /** Position of the first occurrence of `c` in `s`, if any. */
  function IndexOf(s: string, c: char): (r: Option<nat>)
    ensures r.None? <==> c !in s
    ensures r.Some? ==> r.value < |s| && s[r.value] == c && c !in s[..r.value]
  {
    if |s| == 0 then None
    else if s[0] == c then Some(0)
    else match IndexOf(s[1..], c)
      case None => None
      case Some(i) => assert s[1..][..i] == s[1..i + 1]; Some(i + 1)
  }

  /** Decimal rendering of a natural number, as `Long.toString` writes it. */
  function NatToString(n: nat): (r: string)
    ensures |r| > 0
    ensures forall i :: 0 <= i < |r| ==> '0' <= r[i] <= '9'
    decreases n
  {
    var d := [('0' as int + n % 10) as char];
    if n < 10 then d else NatToString(n / 10) + d
  }

  /**
   * Proper ancestor directories of a slash-separated relative path, outermost
   * first: the prefix before each '/', so "a/b/c.org" gives ["a", "a/b"].
   */
  function AncestorDirs(path: string): (r: seq<string>)
    ensures forall d :: d in r ==> |d| < |path| && path[..|d|] == d && path[|d|] == '/'
    decreases |path|
  {
    if |path| == 0 then []
    else
      var init := path[..|path| - 1];
      var prev := AncestorDirs(init);
      assert forall d :: d in prev ==> path[..|d|] == init[..|d|] && path[|d|] == init[|d|];
      if path[|path| - 1] == '/' then prev + [init] else prev
  }

  /** Every '/' of the path contributes its prefix. */
  lemma {:induction false} AncestorDirsComplete(path: string, k: nat)
    requires k < |path| && path[k] == '/'
    ensures path[..k] in AncestorDirs(path)
    decreases |path|
  {
    var init := path[..|path| - 1];
    if k < |path| - 1 {
      assert init[k] == '/';
      AncestorDirsComplete(init, k);
      assert init[..k] == path[..k];
    }
  }

  /** The ancestors come outermost first, each strictly longer than the one before. */
  lemma {:induction false} AncestorDirsOrdered(path: string, i: nat, j: nat)
    requires i < j < |AncestorDirs(path)|
    ensures |AncestorDirs(path)[i]| < |AncestorDirs(path)[j]|
    decreases |path|
  {
    var init := path[..|path| - 1];
    var prev := AncestorDirs(init);
    if j < |prev| {
      AncestorDirsOrdered(init, i, j);
    } else {
      assert AncestorDirs(path)[j] == init;
      assert AncestorDirs(path)[i] == prev[i] && prev[i] in prev;
    }
  }

  /** A path has ancestors exactly when it contains a '/'. */
  lemma NoAncestorsIffNoSlash(path: string)
    ensures |AncestorDirs(path)| == 0 <==> '/' !in path
  {
    if '/' in path {
      var k :| 0 <= k < |path| && path[k] == '/';
      AncestorDirsComplete(path, k);
    }
  }
}

=== FILE: git_sync.dfy ===
/**
 * One sync pass of a Git repository (GitRepo.syncRepo, handleRemoteChanges,
 * updateDataRepository and the getBooks listing filter).
 *
 * JGit, the database and the exporter are replaced by inputs: the local
 * books as the pass reads them, the outcomes of push, fetch, the head
 * comparison and the rebase, the diff of the rebase, and the listing of the
 * repository after the network phase. The pass returns what it would do:
 * the files it stages, the links it sets, the books it loads, and the final
 * per-book update it persists.
 */
module GitSync {
  import opened Common
  import opened SyncTypes
  import BookName
  import GitWorkingCopy

  // ---------------------------------------------------------------------
  // Inputs and per-pass state
  // ---------------------------------------------------------------------

  /** What the pass reads of one local book (a BookView). */
  datatype LocalBook = LocalBook(
    id: int,
    name: string,
    linkRepoId: Option<int>,
    lastAction: Option<ActionType>,
    isOutOfSync: bool,
    hasSync: bool,
    isModified: bool)

  /** The book bound to a namesake: a local one, or one loaded from the repository. */
  datatype BookRef = Local(book: LocalBook) | LoadedFromRepo(rook: VersionedRook)

  /** BookNamesake, as far as the pass uses it. */
  datatype Namesake = Namesake(
    name: string,
    book: BookRef,
    status: BookSyncStatus,
    latestLinkedRook: Option<VersionedRook>)

  type Namesakes = map<string, Namesake>

  predicate IsModified(b: BookRef) {
    b.Local? && b.book.isModified
  }

  // ---------------------------------------------------------------------
  // First loop: classification of local books (GitRepo.java:363-396)
  // ---------------------------------------------------------------------

  /** A book linked to another repository is ignored by this pass. */
  predicate Takes(b: LocalBook, repoId: int) {
    !(b.linkRepoId.Some? && b.linkRepoId.value != repoId)
  }

  predicate HasErrorAndNoLink(b: LocalBook) {
    b.linkRepoId.None? && b.lastAction == Some(Error)
  }

  /** The book is written to the work tree and staged. */
  predicate Stages(b: LocalBook, repoId: int) {
    Takes(b, repoId) && (b.isOutOfSync || (!b.hasSync && !HasErrorAndNoLink(b)))
  }

  /** The book gets a link to this repository during the first loop. */
  predicate LinksToThisRepo(b: LocalBook, repoId: int, repoCount: nat) {
    b.linkRepoId.None? && b.lastAction != Some(Error) && repoCount <= 1
  }

  /**
   * The status the first loop leaves on a book it takes. The code first picks
   * a link-related status (lines 366-376) and may then overwrite it (lines
   * 384-388); the result, stated as a precedence list:
   *   out of sync                            -> BOOK_WITH_LINK_LOCAL_MODIFIED
   *   unlinked with a previous error         -> BOOK_WITH_PREVIOUS_ERROR_AND_NO_LINK
   *   never synced                           -> ONLY_BOOK_WITH_LINK
   *   unlinked, several repositories         -> ONLY_BOOK_WITHOUT_LINK_AND_MULTIPLE_REPOS
   *   unlinked, at most one repository       -> ONLY_BOOK_WITHOUT_LINK_AND_ONE_REPO
   *   otherwise                              -> NO_CHANGE
   */
  function ClassifyBook(b: LocalBook, repoId: int, repoCount: nat): (status: BookSyncStatus)
    requires Takes(b, repoId)
    ensures b.isOutOfSync ==> status == BookWithLinkLocalModified
    ensures !b.isOutOfSync && HasErrorAndNoLink(b) ==> status == BookWithPreviousErrorAndNoLink
    ensures !b.isOutOfSync && !HasErrorAndNoLink(b) && !b.hasSync ==> status == OnlyBookWithLink
    ensures !b.isOutOfSync && b.hasSync && b.linkRepoId.None? && b.lastAction != Some(Error) ==>
              status == (if repoCount > 1 then OnlyBookWithoutLinkAndMultipleRepos else OnlyBookWithoutLinkAndOneRepo)
    ensures !b.isOutOfSync && b.hasSync && b.linkRepoId.Some? ==> status == NoChange
    ensures status == BookWithLinkLocalModified || status == OnlyBookWithLink <==> Stages(b, repoId)
  {
    var first :=
      if b.linkRepoId.None? then
        if b.lastAction.Some? && b.lastAction.value == Error then BookWithPreviousErrorAndNoLink
        else if repoCount > 1 then OnlyBookWithoutLinkAndMultipleRepos
        else OnlyBookWithoutLinkAndOneRepo
      else NoChange;
    if b.isOutOfSync || (!b.hasSync && first != BookWithPreviousErrorAndNoLink) then
      if b.isOutOfSync then BookWithLinkLocalModified
      else if !b.hasSync then OnlyBookWithLink
      else first
    else first
  }

  /** What the first loop produced. */
  datatype LocalPass = LocalPass(namesakes: Namesakes, staged: seq<string>, linked: seq<int>)

  /** Index of the last book named `n` that the pass takes: later books overwrite earlier ones in the map. */
  function LastTaken(books: seq<LocalBook>, n: string, repoId: int): (r: Option<nat>)
    ensures r.Some? ==> r.value < |books| && books[r.value].name == n && Takes(books[r.value], repoId)
    ensures r.Some? ==> forall j :: r.value < j < |books| ==> !(books[j].name == n && Takes(books[j], repoId))
    ensures r.None? ==> forall j :: 0 <= j < |books| ==> !(books[j].name == n && Takes(books[j], repoId))
  {
    if |books| == 0 then None
    else if books[|books| - 1].name == n && Takes(books[|books| - 1], repoId) then Some(|books| - 1)
    else LastTaken(books[..|books| - 1], n, repoId)
  }

  function InitialNamesake(b: LocalBook, repoId: int, repoCount: nat): Namesake
    requires Takes(b, repoId)
  {
    Namesake(b.name, Local(b), ClassifyBook(b, repoId, repoCount), None)
  }

  /** One iteration of the first loop. */
  function VisitBook(p: LocalPass, b: LocalBook, repoId: int, repoCount: nat): (q: LocalPass)
    ensures !Takes(b, repoId) ==> q == p
    ensures Takes(b, repoId) ==> q.namesakes == p.namesakes[b.name := InitialNamesake(b, repoId, repoCount)]
    ensures q.staged == p.staged + (if Stages(b, repoId) then [BookName.RepoRelativePathFromName(b.name)] else [])
    ensures q.linked == p.linked + (if LinksToThisRepo(b, repoId, repoCount) then [b.id] else [])
  {
    if !Takes(b, repoId) then p
    else
      LocalPass(p.namesakes[b.name := InitialNamesake(b, repoId, repoCount)],
                if Stages(b, repoId) then p.staged + [BookName.RepoRelativePathFromName(b.name)] else p.staged,
                if LinksToThisRepo(b, repoId, repoCount) then p.linked + [b.id] else p.linked)
  }

  /** The first loop over all local books, in order. */
  function ClassifyAll(books: seq<LocalBook>, repoId: int, repoCount: nat): (p: LocalPass)
    ensures |p.staged| <= |books| && |p.linked| <= |books|
  {
    if |books| == 0 then LocalPass(map[], [], [])
    else VisitBook(ClassifyAll(books[..|books| - 1], repoId, repoCount), books[|books| - 1], repoId, repoCount)
  }

  /**
   * Each name the pass takes becomes one namesake, built from the LAST local
   * book of that name (the map put overwrites earlier ones); books linked to
   * another repository get none.
   */
  lemma {:induction false} ClassifyAllNamesakes(books: seq<LocalBook>, repoId: int, repoCount: nat)
    ensures var p := ClassifyAll(books, repoId, repoCount);
            forall n :: (n in p.namesakes <==> LastTaken(books, n, repoId).Some?)
                        && (n in p.namesakes ==>
                              p.namesakes[n] == InitialNamesake(books[LastTaken(books, n, repoId).value], repoId, repoCount))
  {
    if |books| > 0 {
      var init := books[..|books| - 1];
      var b := books[|books| - 1];
      ClassifyAllNamesakes(init, repoId, repoCount);
      forall n ensures LastTaken(books, n, repoId) ==
                       (if n == b.name && Takes(b, repoId) then Some(|books| - 1) else LastTaken(init, n, repoId)) {
      }
      forall k | 0 <= k < |init| ensures books[k] == init[k] { }
    }
  }

  /** A book is staged, at `name.org`, exactly when it is out of sync or never synced (and not a previous error). */
  lemma {:induction false} ClassifyAllStaged(books: seq<LocalBook>, repoId: int, repoCount: nat)
    ensures forall path :: path in ClassifyAll(books, repoId, repoCount).staged <==>
              exists i :: 0 <= i < |books| && Stages(books[i], repoId)
                          && path == BookName.RepoRelativePathFromName(books[i].name)
  {
    if |books| > 0 {
      var init := books[..|books| - 1];
      var b := books[|books| - 1];
      var prev := ClassifyAll(init, repoId, repoCount);
      var p := ClassifyAll(books, repoId, repoCount);
      ClassifyAllStaged(init, repoId, repoCount);
      forall path ensures path in p.staged <==>
                  exists i :: 0 <= i < |books| && Stages(books[i], repoId)
                              && path == BookName.RepoRelativePathFromName(books[i].name) {
        if path in p.staged {
          if path in prev.staged {
            var i :| 0 <= i < |init| && Stages(init[i], repoId) && path == BookName.RepoRelativePathFromName(init[i].name);
            assert books[i] == init[i];
          } else {
            assert books[|books| - 1] == b;
          }
        }
        if exists i :: 0 <= i < |books| && Stages(books[i], repoId) && path == BookName.RepoRelativePathFromName(books[i].name) {
          var i :| 0 <= i < |books| && Stages(books[i], repoId) && path == BookName.RepoRelativePathFromName(books[i].name);
          if i < |init| {
            assert init[i] == books[i];
          }
        }
      }
    }
  }

  /** A book is linked to this repository exactly when it had no link, no previous error, and at most one repository exists. */
  lemma {:induction false} ClassifyAllLinked(books: seq<LocalBook>, repoId: int, repoCount: nat)
    ensures forall id :: id in ClassifyAll(books, repoId, repoCount).linked <==>
              exists i :: 0 <= i < |books| && LinksToThisRepo(books[i], repoId, repoCount) && books[i].id == id
  {
    if |books| > 0 {
      var init := books[..|books| - 1];
      var b := books[|books| - 1];
      var prev := ClassifyAll(init, repoId, repoCount);
      var p := ClassifyAll(books, repoId, repoCount);
      ClassifyAllLinked(init, repoId, repoCount);
      forall id ensures id in p.linked <==>
                exists i :: 0 <= i < |books| && LinksToThisRepo(books[i], repoId, repoCount) && books[i].id == id {
        if id in p.linked {
          if id in prev.linked {
            var i :| 0 <= i < |init| && LinksToThisRepo(init[i], repoId, repoCount) && init[i].id == id;
            assert books[i] == init[i];
          } else {
            assert books[|books| - 1] == b;
          }
        }
        if exists i :: 0 <= i < |books| && LinksToThisRepo(books[i], repoId, repoCount) && books[i].id == id {
          var i :| 0 <= i < |books| && LinksToThisRepo(books[i], repoId, repoCount) && books[i].id == id;
          if i < |init| {
            assert init[i] == books[i];
          }
        }
      }
    }
  }

  /** The pass needs a push exactly when at least one book was staged. */
  lemma PushNeededIffSomeBookStaged(books: seq<LocalBook>, repoId: int, repoCount: nat)
    ensures |ClassifyAll(books, repoId, repoCount).staged| > 0 <==> exists i :: 0 <= i < |books| && Stages(books[i], repoId)
  {
    ClassifyAllStaged(books, repoId, repoCount);
    var staged := ClassifyAll(books, repoId, repoCount).staged;
    if |staged| > 0 {
      assert staged[0] in staged;
    }
    if exists i :: 0 <= i < |books| && Stages(books[i], repoId) {
      var i :| 0 <= i < |books| && Stages(books[i], repoId);
      assert BookName.RepoRelativePathFromName(books[i].name) in staged;
    }
  }

  // ---------------------------------------------------------------------
  // Network phase (GitRepo.java:397-433)
  // ---------------------------------------------------------------------

  datatype ChangeType = Add | Modify | Delete | Rename | Copy

  /** A name-and-status-only diff entry. */
  datatype DiffEntry = DiffEntry(oldPath: string, newPath: string, changeType: ChangeType)

  /** JGit's DiffEntry.DEV_NULL, the path of the missing side of an addition or a deletion. */
  const DevNull: string := "/dev/null"

  predicate FollowsJGitConvention(e: DiffEntry) {
    (e.changeType == Add ==> e.oldPath == DevNull) && (e.changeType == Delete ==> e.newPath == DevNull)
  }

  /**
   * A diff entry as the loop sees it: the outcome of
   * `BookName.fromRepoRelativePath(getOldPath())` (a name, or the exception
   * it throws) and the change type.
   */
  datatype NamedEntry = NamedEntry(oldName: Result<string>, changeType: ChangeType)

  function NameEntry(e: DiffEntry): (r: NamedEntry)
    ensures r.changeType == e.changeType
    ensures r.oldName.Err? <==> BookName.FromRepoRelativePath(e.oldPath).Err?
    ensures r.oldName.Err? ==> r.oldName.error == IllegalArgument
    ensures r.oldName.Ok? ==> BookName.FromRepoRelativePath(e.oldPath) == Ok(BookName.Parsed(e.oldPath, r.oldName.value, BookName.Org))
  {
    match BookName.FromRepoRelativePath(e.oldPath)
    case Err(k) => NamedEntry(Err(k), e.changeType)
    case Ok(p) => NamedEntry(Ok(p.name), e.changeType)
  }

  function NameEntries(diff: seq<DiffEntry>): (r: seq<NamedEntry>)
    ensures |r| == |diff| && forall i :: 0 <= i < |diff| ==> r[i] == NameEntry(diff[i])
  {
    seq(|diff|, i requires 0 <= i < |diff| => NameEntry(diff[i]))
  }

  /** The entry JGit reports for the notebook file of name n names n again. */
  lemma EntryOfBookFile(n: string, newPath: string, kind: ChangeType)
    requires BookName.NoTerminators(n)
    ensures NameEntry(DiffEntry(BookName.RepoRelativePathFromName(n), newPath, kind)) == NamedEntry(Ok(n), kind)
  {
    BookName.RoundTrip(n);
  }

  /** Outcomes of the foreign staging, commit, network and history calls of one pass. */
  datatype RemoteOutcomes = RemoteOutcomes(
    stagingSucceeds: bool,   // every synchronizer.writeFileAndAddToIndex of the first loop returns
    commitSucceeds: bool,    // synchronizer.commitCurrentIndex() does not throw
    pushSucceeds: bool,      // synchronizer.push(...) after the commit
    fetchSucceeds: bool,     // synchronizer.fetch(...) did not throw
    headEqualsRemote: bool,  // HEAD and the remote-tracking head are the same commit
    rebaseSucceeds: bool,    // RebaseResult.getStatus().isSuccessful()
    diff: seq<NamedEntry>)   // diff between HEAD before and after the rebase, named (NameEntries)

  /** Which network and history steps the pass performs. */
  datatype NetworkSteps = NetworkSteps(
    commit: bool, push: bool, fetch: bool, rebase: bool,
    secondPush: bool, handleDiff: bool, conflictBranch: bool)

  function PlanNetwork(pushNeeded: bool, o: RemoteOutcomes): (s: NetworkSteps)
    ensures s.commit <==> pushNeeded
    ensures s.push <==> pushNeeded
    ensures s.fetch <==> !pushNeeded || !o.pushSucceeds
    ensures s.rebase <==> s.fetch && o.fetchSucceeds && !o.headEqualsRemote
    ensures s.secondPush <==> s.rebase && o.rebaseSucceeds && pushNeeded
    ensures s.handleDiff <==> s.rebase && o.rebaseSucceeds
    ensures s.conflictBranch <==> s.rebase && !o.rebaseSucceeds
  {
    var pushFailed := pushNeeded && !o.pushSucceeds;
    var fetch := !pushNeeded || pushFailed;
    var rebase := fetch && o.fetchSucceeds && !o.headEqualsRemote;
    NetworkSteps(pushNeeded, pushNeeded, fetch, rebase,
                 rebase && o.rebaseSucceeds && pushNeeded,
                 rebase && o.rebaseSucceeds,
                 rebase && !o.rebaseSucceeds)
  }

  /**
   * The pass's rebase flag is tryRebaseOnFetchHead's verdict: the conflict
   * branch is taken exactly when a rebase was tried and aborted, and the diff
   * is handled exactly when it was kept.
   */
  lemma ConflictBranchIffRebaseAborted(pushNeeded: bool, o: RemoteOutcomes, w: GitWorkingCopy.WorkingCopy,
                                       status: GitWorkingCopy.RebaseStatus, rebased: GitWorkingCopy.WorkingCopy)
    requires o.rebaseSucceeds == status.IsSuccessful()
    ensures PlanNetwork(pushNeeded, o).conflictBranch <==>
              PlanNetwork(pushNeeded, o).rebase && GitWorkingCopy.TryRebaseOnFetchHead(w, status, rebased).aborted
    ensures PlanNetwork(pushNeeded, o).handleDiff <==>
              PlanNetwork(pushNeeded, o).rebase && !GitWorkingCopy.TryRebaseOnFetchHead(w, status, rebased).aborted
  {
  }

  // ---------------------------------------------------------------------
  // handleRemoteChanges (GitRepo.java:471-505)
  // ---------------------------------------------------------------------

  /** The status a MODIFY or DELETE entry gives; ADD keeps it. */
  function StatusAfterChange(status: BookSyncStatus, kind: ChangeType): (s: BookSyncStatus)
    requires kind == Add || kind == Modify || kind == Delete
    ensures kind == Modify ==> s == (if status == BookWithLinkLocalModified then ConflictBothBookAndRookModified
                                     else BookWithLinkAndRookModified)
    ensures kind == Delete ==> s == RookNoLongerExists
    ensures kind == Add ==> s == status
  {
    match kind
    case Modify =>
      if status == BookWithLinkLocalModified then ConflictBothBookAndRookModified
      else BookWithLinkAndRookModified
    case Delete => RookNoLongerExists
    case Add => status
  }

  /**
   * An entry makes the loop throw: its old path is not a notebook path
   * (IllegalArgumentException, before the switch), or it names a known book
   * and is neither MODIFY, ADD nor DELETE (IOException).
   */
  predicate EntryThrows(ns: Namesakes, e: NamedEntry) {
    match e.oldName
    case Err(_) => true
    case Ok(n) => n in ns && (e.changeType == Rename || e.changeType == Copy)
  }

  /** The entry names book n (through its old path). */
  predicate EntryNames(e: NamedEntry, n: string) {
    e.oldName == Ok(n)
  }

  /** Two namesake maps differ at most in the statuses. */
  predicate SameButStatus(a: Namesakes, b: Namesakes) {
    a.Keys == b.Keys && forall n :: n in a ==> b[n] == a[n].(status := b[n].status)
  }

  /** One iteration of the loop over the diff. */
  function ApplyEntry(ns: Namesakes, e: NamedEntry): (r: Result<Namesakes>)
    ensures r.Err? <==> EntryThrows(ns, e)
    ensures r.Ok? ==> SameButStatus(ns, r.value)
    ensures r.Ok? ==> forall n :: n in ns && !EntryNames(e, n) ==> r.value[n] == ns[n]
    ensures r.Ok? ==> forall n :: n in ns && EntryNames(e, n) ==>
              r.value[n].status == StatusAfterChange(ns[n].status, e.changeType)
  {
    match e.oldName
    case Err(k) => Err(k)
    case Ok(n) =>
      if n !in ns then Ok(ns)
      else if e.changeType == Rename || e.changeType == Copy then Err(IO)
      else Ok(ns[n := ns[n].(status := StatusAfterChange(ns[n].status, e.changeType))])
  }

  /** The loop of handleRemoteChanges over the diff entries, in order. */
  function HandleRemoteChanges(ns: Namesakes, diff: seq<NamedEntry>): (r: Result<Namesakes>)
    ensures r.Ok? ==> SameButStatus(ns, r.value)
    ensures r.Ok? ==> forall n :: n in ns && (forall i :: 0 <= i < |diff| ==> !EntryNames(diff[i], n)) ==>
              r.value[n] == ns[n]
    decreases |diff|
  {
    if |diff| == 0 then Ok(ns)
    else
      assert forall i :: 0 < i < |diff| ==> diff[1..][i - 1] == diff[i];
      match ApplyEntry(ns, diff[0])
      case Err(k) => Err(k)
      case Ok(next) => HandleRemoteChanges(next, diff[1..])
  }

  /** Whether an entry throws depends only on the names present. */
  lemma ThrowsDependsOnNames(a: Namesakes, b: Namesakes, e: NamedEntry)
    requires a.Keys == b.Keys
    ensures EntryThrows(a, e) == EntryThrows(b, e)
  {
  }

  /** The loop throws exactly when some entry of the diff throws. */
  lemma {:induction false} HandleRemoteChangesFailsIff(ns: Namesakes, diff: seq<NamedEntry>)
    ensures HandleRemoteChanges(ns, diff).Err? <==> exists i :: 0 <= i < |diff| && EntryThrows(ns, diff[i])
    decreases |diff|
  {
    if |diff| > 0 {
      match ApplyEntry(ns, diff[0])
      case Err(_) =>
      case Ok(next) =>
        HandleRemoteChangesFailsIff(next, diff[1..]);
        forall i | 0 < i < |diff| ensures EntryThrows(next, diff[i]) == EntryThrows(ns, diff[i]) {
          assert diff[1..][i - 1] == diff[i];
          ThrowsDependsOnNames(next, ns, diff[i]);
        }
        if exists i :: 0 <= i < |diff| && EntryThrows(ns, diff[i]) {
          var i :| 0 <= i < |diff| && EntryThrows(ns, diff[i]);
          assert diff[1..][i - 1] == diff[i];
        }
        if HandleRemoteChanges(next, diff[1..]).Err? {
          var j :| 0 <= j < |diff[1..]| && EntryThrows(next, diff[1..][j]);
          assert diff[1..][j] == diff[j + 1];
        }
    }
  }

  /**
   * One entry about a known book: MODIFY and DELETE set the status the
   * switch gives (StatusAfterChange), ADD keeps it.
   */
  lemma KnownBookEntry(ns: Namesakes, n: string, kind: ChangeType)
    requires n in ns
    requires kind == Modify || kind == Add || kind == Delete
    ensures HandleRemoteChanges(ns, [NamedEntry(Ok(n), kind)]) ==
            Ok(ns[n := ns[n].(status := StatusAfterChange(ns[n].status, kind))])
  {
    assert [NamedEntry(Ok(n), kind)][1..] == [];
  }

  /** A known name under a rename or copy entry makes the loop throw IOException. */
  lemma RenameOfKnownBookThrows(ns: Namesakes, n: string, newPath: string, kind: ChangeType)
    requires n in ns && BookName.NoTerminators(n)
    requires kind == Rename || kind == Copy
    ensures HandleRemoteChanges(ns, NameEntries([DiffEntry(BookName.RepoRelativePathFromName(n), newPath, kind)])) == Err(IO)
  {
    EntryOfBookFile(n, newPath, kind);
  }

  /** Entries for names the pass does not know are skipped. */
  lemma {:induction false} UnknownNamesAreSkipped(ns: Namesakes, diff: seq<NamedEntry>)
    requires forall i :: 0 <= i < |diff| ==> diff[i].oldName.Ok? && diff[i].oldName.value !in ns
    ensures HandleRemoteChanges(ns, diff) == Ok(ns)
    decreases |diff|
  {
    if |diff| > 0 {
      assert forall i :: 0 < i < |diff| ==> diff[1..][i - 1] == diff[i];
      UnknownNamesAreSkipped(ns, diff[1..]);
    }
  }

  /**
   * As written, an ADD entry never reaches its no-op case: JGit reports
   * `/dev/null` as its old path, which is not a notebook path, so the pass
   * throws IllegalArgumentException for any remote addition.
   */
  lemma RemoteAdditionThrows(ns: Namesakes, diff: seq<DiffEntry>, i: nat)
    requires i < |diff| && diff[i].changeType == Add && FollowsJGitConvention(diff[i])
    ensures HandleRemoteChanges(ns, NameEntries(diff)).Err?
  {
    BookName.DevNullIsNotABook();
    assert EntryThrows(ns, NameEntries(diff)[i]);
    HandleRemoteChangesFailsIff(ns, NameEntries(diff));
  }

  /** The concrete case: one remote file `Tasks.org` was added. */
  lemma RemoteAdditionExample(ns: Namesakes)
    ensures HandleRemoteChanges(ns, NameEntries([DiffEntry(DevNull, "Tasks.org", Add)])) == Err(IllegalArgument)
  {
    BookName.DevNullIsNotABook();
    assert NameEntries([DiffEntry(DevNull, "Tasks.org", Add)])[1..] == [];
  }

  /**
   * The evidently intended iteration: an ADD entry is skipped before its path
   * is parsed (the added file is picked up by the listing that follows).
   */
  function ApplyEntryCorrected(ns: Namesakes, e: NamedEntry): (r: Result<Namesakes>)
    ensures e.changeType == Add ==> r == Ok(ns)
    ensures e.changeType != Add ==> r == ApplyEntry(ns, e)
  {
    if e.changeType == Add then Ok(ns) else ApplyEntry(ns, e)
  }

  function HandleRemoteChangesCorrected(ns: Namesakes, diff: seq<NamedEntry>): (r: Result<Namesakes>)
    ensures r.Ok? ==> SameButStatus(ns, r.value)
    ensures r.Ok? ==> forall n :: n in ns && (forall i :: 0 <= i < |diff| ==> !EntryNames(diff[i], n)) ==>
              r.value[n] == ns[n]
    decreases |diff|
  {
    if |diff| == 0 then Ok(ns)
    else
      assert forall i :: 0 < i < |diff| ==> diff[1..][i - 1] == diff[i];
      match ApplyEntryCorrected(ns, diff[0])
      case Err(k) => Err(k)
      case Ok(next) => HandleRemoteChangesCorrected(next, diff[1..])
  }

  /** With the correction the loop throws exactly when some entry other than an addition throws. */
  lemma {:induction false} CorrectedFailsIff(ns: Namesakes, diff: seq<NamedEntry>)
    ensures HandleRemoteChangesCorrected(ns, diff).Err? <==>
            exists i :: 0 <= i < |diff| && diff[i].changeType != Add && EntryThrows(ns, diff[i])
    decreases |diff|
  {
    if |diff| > 0 {
      match ApplyEntryCorrected(ns, diff[0])
      case Err(_) =>
      case Ok(next) =>
        CorrectedFailsIff(next, diff[1..]);
        forall i | 0 < i < |diff| ensures EntryThrows(next, diff[i]) == EntryThrows(ns, diff[i]) {
          assert diff[1..][i - 1] == diff[i];
          ThrowsDependsOnNames(next, ns, diff[i]);
        }
        if exists i :: 0 <= i < |diff| && diff[i].changeType != Add && EntryThrows(ns, diff[i]) {
          var i :| 0 <= i < |diff| && diff[i].changeType != Add && EntryThrows(ns, diff[i]);
          assert diff[1..][i - 1] == diff[i];
        }
        if HandleRemoteChangesCorrected(next, diff[1..]).Err? {
          var j :| 0 <= j < |diff[1..]| && diff[1..][j].changeType != Add && EntryThrows(next, diff[1..][j]);
          assert diff[1..][j] == diff[j + 1];
        }
    }
  }

  /** The corrected loop agrees with the code on every diff without additions. */
  lemma {:induction false} CorrectedAgreesWithoutAdditions(ns: Namesakes, diff: seq<NamedEntry>)
    requires forall i :: 0 <= i < |diff| ==> diff[i].changeType != Add
    ensures HandleRemoteChangesCorrected(ns, diff) == HandleRemoteChanges(ns, diff)
    decreases |diff|
  {
    if |diff| > 0 {
      assert forall i :: 0 < i < |diff| ==> diff[1..][i - 1] == diff[i];
      match ApplyEntry(ns, diff[0])
      case Err(_) =>
      case Ok(next) => CorrectedAgreesWithoutAdditions(next, diff[1..]);
    }
  }

  /** With the correction, remote additions alone never fail and change nothing. */
  lemma {:induction false} CorrectedIgnoresAdditions(ns: Namesakes, diff: seq<NamedEntry>)
    requires forall i :: 0 <= i < |diff| ==> diff[i].changeType == Add
    ensures HandleRemoteChangesCorrected(ns, diff) == Ok(ns)
    decreases |diff|
  {
    if |diff| > 0 {
      assert forall i :: 0 < i < |diff| ==> diff[1..][i - 1] == diff[i];
      CorrectedIgnoresAdditions(ns, diff[1..]);
    }
  }

  // ---------------------------------------------------------------------
  // Failed rebase (GitRepo.java:415-430)
  // ---------------------------------------------------------------------

  function MarkConflicts(ns: Namesakes): (r: Namesakes)
    ensures SameButStatus(ns, r)
    ensures forall n :: n in ns ==>
              r[n].status == (if IsModified(ns[n].book) then ConflictPushedToConflictBranch else ns[n].status)
  {
    map n | n in ns :: if IsModified(ns[n].book) then ns[n].(status := ConflictPushedToConflictBranch) else ns[n]
  }

  // ---------------------------------------------------------------------
  // Listing after the network phase (GitRepo.java:436-452)
  // ---------------------------------------------------------------------

  /** Statuses whose book is reloaded from the repository. */
  predicate ReloadsContent(s: BookSyncStatus) {
    s == BookWithLinkAndRookModified || s == ConflictBothBookAndRookModified
  }

  /** BookName.fromRook is not part of this model; the name is taken from the rook's repository-relative path. */
  function RookName(rook: VersionedRook): (r: Result<string>)
    ensures r.Ok? <==> BookName.FromRepoRelativePath(rook.repoRelativePath).Ok?
  {
    match BookName.FromRepoRelativePath(rook.repoRelativePath)
    case Ok(p) => Ok(p.name)
    case Err(k) => Err(k)
  }

  /** A listed rook together with the outcome of parsing its name. */
  datatype NamedRook = NamedRook(name: Result<string>, rook: VersionedRook)

  function NameRooks(listing: seq<VersionedRook>): (r: seq<NamedRook>)
    ensures |r| == |listing|
    ensures forall i :: 0 <= i < |r| ==> r[i].rook == listing[i] && r[i].name == RookName(listing[i])
  {
    seq(|listing|, i requires 0 <= i < |listing| => NamedRook(RookName(listing[i]), listing[i]))
  }

  datatype Listed = Listed(namesakes: Namesakes, loads: seq<VersionedRook>)

  /** One iteration of the listing loop. */
  function AttachRook(prev: Listed, nr: NamedRook): (r: Result<Listed>)
    ensures r.Err? <==> nr.name.Err?
    ensures r.Ok? ==> r.value.namesakes.Keys == prev.namesakes.Keys + {nr.name.value}
    ensures r.Ok? ==> r.value.namesakes[nr.name.value].latestLinkedRook == Some(nr.rook)
    ensures r.Ok? ==> forall n :: n in prev.namesakes && n != nr.name.value ==>
              r.value.namesakes[n] == prev.namesakes[n]
    ensures r.Ok? && nr.name.value !in prev.namesakes ==>
              r.value.namesakes[nr.name.value] == Namesake(nr.name.value, LoadedFromRepo(nr.rook), NoBookOneRook, Some(nr.rook))
              && r.value.loads == prev.loads + [nr.rook]
    ensures r.Ok? && nr.name.value in prev.namesakes ==>
              var before := prev.namesakes[nr.name.value];
              var after := r.value.namesakes[nr.name.value];
              after.status == before.status
              && after.name == before.name
              && after.book == (if ReloadsContent(before.status) then LoadedFromRepo(nr.rook) else before.book)
              && r.value.loads == prev.loads + (if ReloadsContent(before.status) then [nr.rook] else [])
  {
    match nr.name
    case Err(k) => Err(k)
    case Ok(n) =>
      if n !in prev.namesakes then
        Ok(Listed(prev.namesakes[n := Namesake(n, LoadedFromRepo(nr.rook), NoBookOneRook, Some(nr.rook))],
                  prev.loads + [nr.rook]))
      else
        var existing := prev.namesakes[n];
        if ReloadsContent(existing.status) then
          Ok(Listed(prev.namesakes[n := existing.(book := LoadedFromRepo(nr.rook), latestLinkedRook := Some(nr.rook))],
                    prev.loads + [nr.rook]))
        else
          Ok(Listed(prev.namesakes[n := existing.(latestLinkedRook := Some(nr.rook))], prev.loads))
  }

  /** The listing loop over the repository's books, in order. */
  function MergeListing(ns: Namesakes, listing: seq<NamedRook>): (r: Result<Listed>)
    ensures r.Ok? ==> ns.Keys <= r.value.namesakes.Keys
    ensures r.Ok? ==> forall n :: n in ns ==> r.value.namesakes[n].status == ns[n].status
    ensures r.Ok? ==> forall rook :: rook in r.value.loads ==> exists i :: 0 <= i < |listing| && listing[i].rook == rook
    decreases |listing|
  {
    if |listing| == 0 then Ok(Listed(ns, []))
    else
      var init := listing[..|listing| - 1];
      assert forall i :: 0 <= i < |init| ==> init[i] == listing[i];
      match MergeListing(ns, init)
      case Err(k) => Err(k)
      case Ok(prev) => AttachRook(prev, listing[|listing| - 1])
  }

  /** The listing loop throws exactly when some listed path is not a notebook path. */
  lemma {:induction false} MergeListingFailsIff(ns: Namesakes, listing: seq<NamedRook>)
    ensures MergeListing(ns, listing).Err? <==> exists i :: 0 <= i < |listing| && listing[i].name.Err?
    decreases |listing|
  {
    if |listing| > 0 {
      var init := listing[..|listing| - 1];
      MergeListingFailsIff(ns, init);
      forall i | 0 <= i < |init| ensures init[i] == listing[i] { }
    }
  }

  /** Every listed rook ends up as the latest linked rook of its namesake. */
  lemma {:induction false} MergeListingAttachesRooks(ns: Namesakes, listing: seq<NamedRook>)
    requires MergeListing(ns, listing).Ok?
    ensures forall i :: 0 <= i < |listing| ==>
              listing[i].name.Ok? && listing[i].name.value in MergeListing(ns, listing).value.namesakes
              && MergeListing(ns, listing).value.namesakes[listing[i].name.value].latestLinkedRook.Some?
    decreases |listing|
  {
    if |listing| > 0 {
      var init := listing[..|listing| - 1];
      var last := listing[|listing| - 1];
      MergeListingUnfold(ns, listing);
      MergeListingAttachesRooks(ns, init);
      var prev := MergeListing(ns, init).value;
      var out := MergeListing(ns, listing).value;
      forall i | 0 <= i < |listing|
        ensures listing[i].name.Ok? && listing[i].name.value in out.namesakes
                && out.namesakes[listing[i].name.value].latestLinkedRook.Some?
      {
        if i < |init| {
          assert init[i] == listing[i];
        } else {
          assert i == |listing| - 1;
        }
      }
    }
  }

  /** A name that was not there before is NO_BOOK_ONE_ROOK, with a book loaded from the repository. */
  lemma {:induction false} MergeListingNewNamesLoaded(ns: Namesakes, listing: seq<NamedRook>)
    requires MergeListing(ns, listing).Ok?
    ensures var out := MergeListing(ns, listing).value;
            forall n :: n in out.namesakes && n !in ns ==>
              out.namesakes[n].status == NoBookOneRook && out.namesakes[n].book.LoadedFromRepo?
              && out.namesakes[n].book.rook in out.loads
    decreases |listing|
  {
    if |listing| > 0 {
      MergeListingNewNamesLoaded(ns, listing[..|listing| - 1]);
    }
  }

  /** A name that is not listed keeps its namesake unchanged. */
  lemma {:induction false} MergeListingUnlistedUnchanged(ns: Namesakes, listing: seq<NamedRook>)
    requires MergeListing(ns, listing).Ok?
    ensures var out := MergeListing(ns, listing).value.namesakes;
            forall n :: n in out && (forall i :: 0 <= i < |listing| ==> listing[i].name != Ok(n)) ==>
              n in ns && out[n] == ns[n]
    decreases |listing|
  {
    if |listing| > 0 {
      var init := listing[..|listing| - 1];
      MergeListingUnlistedUnchanged(ns, init);
      forall i | 0 <= i < |init| ensures init[i] == listing[i] { }
    }
  }

  /** A namesake the remote changed is reloaded from the listed rook of its name. */
  lemma {:induction false} MergeListingReloadsChanged(ns: Namesakes, listing: seq<NamedRook>, i: nat)
    requires MergeListing(ns, listing).Ok?
    requires i < |listing| && listing[i].name.Ok?
    requires listing[i].name.value in ns && ReloadsContent(ns[listing[i].name.value].status)
    ensures listing[i].rook in MergeListing(ns, listing).value.loads
    decreases |listing|
  {
    var init := listing[..|listing| - 1];
    var last := listing[|listing| - 1];
    MergeListingUnfold(ns, listing);
    var prev := MergeListing(ns, init).value;
    AttachRookKeepsLoads(prev, last);
    if i < |init| {
      assert init[i] == listing[i];
      MergeListingReloadsChanged(ns, init, i);
    } else {
      assert i == |listing| - 1;
      var n := last.name.value;
      assert n in prev.namesakes && prev.namesakes[n].status == ns[n].status;
    }
  }

  /** A successful listing is the listing of all but the last rook, then that rook attached. */
  lemma MergeListingUnfold(ns: Namesakes, listing: seq<NamedRook>)
    requires |listing| > 0 && MergeListing(ns, listing).Ok?
    ensures MergeListing(ns, listing[..|listing| - 1]).Ok?
    ensures MergeListing(ns, listing) == AttachRook(MergeListing(ns, listing[..|listing| - 1]).value, listing[|listing| - 1])
  {
  }

  /** Attaching a rook never drops a load already scheduled. */
  lemma AttachRookKeepsLoads(prev: Listed, nr: NamedRook)
    requires AttachRook(prev, nr).Ok?
    ensures prev.loads <= AttachRook(prev, nr).value.loads
  {
  }

  // ---------------------------------------------------------------------
  // Final check and persistence (GitRepo.java:453-467, 507-532)
  // ---------------------------------------------------------------------

  /** A namesake without a rook after the listing must be a remote deletion or a previous error. */
  predicate RooklessIsAllowed(ns: Namesake) {
    ns.latestLinkedRook.Some? || ns.status == RookNoLongerExists || ns.status == BookWithPreviousErrorAndNoLink
  }

  /** Statuses recorded as ERROR by the Git pass. */
  predicate IsGitError(s: BookSyncStatus) {
    s in {OnlyBookWithoutLinkAndMultipleRepos, RookNoLongerExists,
          BookWithPreviousErrorAndNoLink, ConflictPushedToConflictBranch}
  }

  /** Statuses whose link and synced-to rook are updated by the Git pass. */
  predicate UpdatesLinkAndSync(s: BookSyncStatus) {
    s in {OnlyBookWithoutLinkAndOneRepo, NoBookOneRook, BookWithLinkLocalModified,
          BookWithLinkAndRookModified, OnlyBookWithLink, ConflictPushedToConflictBranch}
  }

  /** What the pass writes for one book at the end. */
  datatype BookUpdate = BookUpdate(
    status: BookSyncStatus,
    action: ActionType,
    unlink: bool,                       // setLink(null) and removeBookSyncedTo
    linkAndSync: Option<VersionedRook>, // updateBookLinkAndSync(latestLinkedRook)
    clearModified: bool)                // updateBookIsModified(false)

  /** updateDataRepository for one namesake, preceded by the remote-deletion unlink. */
  function Persist(ns: Namesake): (u: BookUpdate)
    requires RooklessIsAllowed(ns)
    ensures u.status == ns.status && u.clearModified
    ensures u.action == Error <==> IsGitError(ns.status)
    ensures u.linkAndSync.Some? <==> UpdatesLinkAndSync(ns.status)
    ensures u.linkAndSync.Some? ==> u.linkAndSync == ns.latestLinkedRook
    ensures u.unlink <==> ns.latestLinkedRook.None? && ns.status == RookNoLongerExists
  {
    var action :=
      match ns.status
      case OnlyBookWithoutLinkAndMultipleRepos => Error
      case RookNoLongerExists => Error
      case BookWithPreviousErrorAndNoLink => Error
      case ConflictPushedToConflictBranch => Error
      case _ => Info;
    var link :=
      match ns.status
      case OnlyBookWithoutLinkAndOneRepo => ns.latestLinkedRook
      case NoBookOneRook => ns.latestLinkedRook
      case BookWithLinkLocalModified => ns.latestLinkedRook
      case BookWithLinkAndRookModified => ns.latestLinkedRook
      case OnlyBookWithLink => ns.latestLinkedRook
      case ConflictPushedToConflictBranch => ns.latestLinkedRook
      case _ => None;
    BookUpdate(ns.status, action, ns.latestLinkedRook.None? && ns.status == RookNoLongerExists, link, true)
  }

  /** The final loop: it throws when some namesake breaks the invariant, else persists all. */
  function PersistAll(ns: Namesakes): (r: Result<map<string, BookUpdate>>)
    ensures r.Err? <==> exists n :: n in ns && !RooklessIsAllowed(ns[n])
    ensures r.Err? ==> r.error == Runtime
    ensures r.Ok? ==> r.value.Keys == ns.Keys
    ensures r.Ok? ==> forall n :: n in ns ==> RooklessIsAllowed(ns[n]) && r.value[n] == Persist(ns[n])
  {
    if exists n :: n in ns && !RooklessIsAllowed(ns[n]) then Err(Runtime)
    else Ok(map n | n in ns :: Persist(ns[n]))
  }

  // ---------------------------------------------------------------------
  // The whole pass
  // ---------------------------------------------------------------------

  datatype PassResult = PassResult(
    steps: NetworkSteps,
    staged: seq<string>,
    linked: seq<int>,
    loads: seq<VersionedRook>,
    updates: map<string, BookUpdate>,
    state: Option<SyncStateType>)

  /**
   * Which loop handles the rebase diff: the code as written, or the
   * corrected loop that skips additions before parsing their path.
   */
  datatype DiffHandling = AsWritten | SkipAdditions

  function HandleDiff(handling: DiffHandling, ns: Namesakes, diff: seq<NamedEntry>): (r: Result<Namesakes>)
    ensures r.Ok? ==> SameButStatus(ns, r.value)
  {
    match handling
    case AsWritten => HandleRemoteChanges(ns, diff)
    case SkipAdditions => HandleRemoteChangesCorrected(ns, diff)
  }

  /** The namesakes after the network phase, or the exception that phase throws. */
  function AfterNetwork(handling: DiffHandling, ns: Namesakes, pushNeeded: bool, o: RemoteOutcomes): (r: Result<Namesakes>)
    ensures var steps := PlanNetwork(pushNeeded, o);
            && (steps.fetch && !o.fetchSucceeds ==> r == Err(IO))
            && (steps.conflictBranch ==> r == Ok(MarkConflicts(ns)))
            && (steps.handleDiff ==> r == HandleDiff(handling, ns, o.diff))
            && (!steps.rebase && !(steps.fetch && !o.fetchSucceeds) ==> r == Ok(ns))
    ensures r.Ok? ==> r.value.Keys == ns.Keys
  {
    var steps := PlanNetwork(pushNeeded, o);
    if steps.fetch && !o.fetchSucceeds then Err(IO)
    else if steps.handleDiff then HandleDiff(handling, ns, o.diff)
    else if steps.conflictBranch then Ok(MarkConflicts(ns))
    else Ok(ns)
  }

  /**
   * GitRepo.syncRepo. `listing` is the repository's book list after the
   * network phase, each rook with the name BookName.fromRook gives it (see
   * NameRooks); `handling` chooses the diff loop (AsWritten is the code).
   */
  function SyncRepo(handling: DiffHandling, books: seq<LocalBook>, repoId: int, repoCount: nat,
                    o: RemoteOutcomes, listing: seq<NamedRook>): (r: Result<PassResult>)
    ensures var pushNeeded := |ClassifyAll(books, repoId, repoCount).staged| > 0;
            && (pushNeeded && !o.stagingSucceeds ==> r == Err(IO))
            && (pushNeeded && o.stagingSucceeds && !o.commitSucceeds ==> r == Err(GitApi))
    ensures r.Ok? && |r.value.staged| > 0 ==> o.stagingSucceeds && o.commitSucceeds
    ensures r.Ok? ==> r.value.steps == PlanNetwork(|r.value.staged| > 0, o)
    ensures r.Ok? ==> (r.value.state == Some(FinishedWithConflicts) <==> r.value.steps.conflictBranch)
    ensures r.Ok? ==> r.value.state.None? || r.value.state == Some(FinishedWithConflicts)
    ensures r.Ok? ==> forall n :: n in r.value.updates ==> r.value.updates[n].clearModified
  {
    var local := ClassifyAll(books, repoId, repoCount);
    var pushNeeded := |local.staged| > 0;
    if pushNeeded && !o.stagingSucceeds then Err(IO)
    else if pushNeeded && !o.commitSucceeds then Err(GitApi)
    else
      var steps := PlanNetwork(pushNeeded, o);
      var afterNet :- AfterNetwork(handling, local.namesakes, pushNeeded, o);
      var listed :- MergeListing(afterNet, listing);
      var updates :- PersistAll(listed.namesakes);
      Ok(PassResult(steps, local.staged, local.linked, listed.loads, updates,
                    if steps.conflictBranch then Some(FinishedWithConflicts) else None))
  }

  /** Every local book the pass takes, and every listed notebook, gets a final update. */
  lemma SyncRepoUpdatesEveryBook(handling: DiffHandling, books: seq<LocalBook>, repoId: int, repoCount: nat,
                                 o: RemoteOutcomes, listing: seq<NamedRook>)
    requires SyncRepo(handling, books, repoId, repoCount, o, listing).Ok?
    ensures var updates := SyncRepo(handling, books, repoId, repoCount, o, listing).value.updates;
            && (forall i :: 0 <= i < |books| && Takes(books[i], repoId) ==> books[i].name in updates)
            && (forall i :: 0 <= i < |listing| ==> listing[i].name.Ok? && listing[i].name.value in updates)
  {
    var local := ClassifyAll(books, repoId, repoCount);
    ClassifyAllNamesakes(books, repoId, repoCount);
    var afterNet := AfterNetwork(handling, local.namesakes, |local.staged| > 0, o).value;
    var listed := MergeListing(afterNet, listing).value;
    MergeListingAttachesRooks(afterNet, listing);
    assert PersistAll(listed.namesakes).value.Keys == listed.namesakes.Keys;
    forall i | 0 <= i < |books| && Takes(books[i], repoId) ensures books[i].name in local.namesakes {
      assert LastTaken(books, books[i].name, repoId).Some?;
    }
  }

  /** A pass that stages nothing neither stages nor commits, so those calls cannot fail it. */
  lemma UnstagedPassIgnoresCommitFaults(handling: DiffHandling, books: seq<LocalBook>, repoId: int, repoCount: nat,
                                        o: RemoteOutcomes, listing: seq<NamedRook>)
    requires |ClassifyAll(books, repoId, repoCount).staged| == 0
    ensures SyncRepo(handling, books, repoId, repoCount, o, listing)
         == SyncRepo(handling, books, repoId, repoCount, o.(stagingSucceeds := true, commitSucceeds := true), listing)
  {
  }

  /** A local book linked to another repository changes nothing in the first loop. */
  lemma OtherRepoBookIsIgnored(books: seq<LocalBook>, b: LocalBook, repoId: int, repoCount: nat)
    requires b.linkRepoId.Some? && b.linkRepoId.value != repoId
    ensures ClassifyAll(books + [b], repoId, repoCount) == ClassifyAll(books, repoId, repoCount)
  {
    assert (books + [b])[..|books|] == books;
  }

  /**
   * As written, a pass whose rebase brings in a newly added remote file
   * fails with IllegalArgumentException, whatever else happens.
   */
  lemma SyncRepoFailsOnRemoteAddition(books: seq<LocalBook>, repoId: int, repoCount: nat,
                                      o: RemoteOutcomes, listing: seq<NamedRook>, diff: seq<DiffEntry>, i: nat)
    requires !o.pushSucceeds && o.fetchSucceeds && !o.headEqualsRemote && o.rebaseSucceeds
    requires o.diff == NameEntries(diff)
    requires i < |diff| && diff[i].changeType == Add && FollowsJGitConvention(diff[i])
    ensures SyncRepo(AsWritten, books, repoId, repoCount, o, listing).Err?
  {
    RemoteAdditionThrows(ClassifyAll(books, repoId, repoCount).namesakes, diff, i);
  }

  // ---------------------------------------------------------------------
  // Whole passes on small inputs
  // ---------------------------------------------------------------------

  /** The first loop on a single book. */
  lemma FirstLoopOnOneBook(b: LocalBook, repoId: int, repoCount: nat)
    requires Takes(b, repoId)
    ensures ClassifyAll([b], repoId, repoCount).namesakes == map[b.name := InitialNamesake(b, repoId, repoCount)]
    ensures ClassifyAll([b], repoId, repoCount).staged ==
            (if Stages(b, repoId) then [BookName.RepoRelativePathFromName(b.name)] else [])
  {
    assert [b][..0] == [];
  }

  /** A one-entry diff about the only book, reached through a successful rebase. */
  lemma NetworkWithOneEntry(x: Namesake, pushNeeded: bool, o: RemoteOutcomes, kind: ChangeType)
    requires PlanNetwork(pushNeeded, o).handleDiff
    requires o.diff == [NamedEntry(Ok(x.name), kind)] && (kind == Modify || kind == Delete)
    ensures AfterNetwork(AsWritten, map[x.name := x], pushNeeded, o) ==
            Ok(map[x.name := x.(status := StatusAfterChange(x.status, kind))])
  {
    OnlyBookEntry(x, kind);
    assert HandleDiff(AsWritten, map[x.name := x], o.diff) == HandleRemoteChanges(map[x.name := x], o.diff);
  }

  lemma OnlyBookEntry(x: Namesake, kind: ChangeType)
    requires kind == Modify || kind == Delete
    ensures HandleRemoteChanges(map[x.name := x], [NamedEntry(Ok(x.name), kind)]) ==
            Ok(map[x.name := x.(status := StatusAfterChange(x.status, kind))])
  {
    var ns := map[x.name := x];
    KnownBookEntry(ns, x.name, kind);
    UpdateOfSingleton(x.name, x, x.(status := StatusAfterChange(x.status, kind)));
  }

  lemma UpdateOfSingleton<K, V>(k: K, v: V, w: V)
    ensures map[k := v][k := w] == map[k := w]
    ensures map[k := v][k] == v
  {
  }

  /** A listing of one rook whose name is already known. */
  lemma ListingOfOneKnownRook(ns: Namesakes, n: string, rook: VersionedRook)
    requires n in ns
    ensures MergeListing(ns, [NamedRook(Ok(n), rook)]) ==
            Ok(if ReloadsContent(ns[n].status)
               then Listed(ns[n := ns[n].(book := LoadedFromRepo(rook), latestLinkedRook := Some(rook))], [rook])
               else Listed(ns[n := ns[n].(latestLinkedRook := Some(rook))], []))
  {
    var nr := NamedRook(Ok(n), rook);
    assert [nr][..0] == [];
    assert [] + [rook] == [rook];
  }

  /** The update Persist writes, described field by field. */
  predicate DescribesUpdate(x: Namesake, u: BookUpdate) {
    && u.status == x.status && u.clearModified
    && u.action == (if IsGitError(x.status) then Error else Info)
    && u.linkAndSync == (if UpdatesLinkAndSync(x.status) then x.latestLinkedRook else None)
    && u.unlink == (x.latestLinkedRook.None? && x.status == RookNoLongerExists)
  }

  lemma PersistOne(n: string, x: Namesake, u: BookUpdate)
    requires RooklessIsAllowed(x) && DescribesUpdate(x, u)
    ensures PersistAll(map[n := x]) == Ok(map[n := u])
  {
    assert Persist(x) == u;
    var m := map[n := x];
    assert !exists k :: k in m && !RooklessIsAllowed(m[k]);
    assert (map k | k in m :: Persist(m[k])) == map[n := Persist(x)];
  }

  /** The pass assembled from its phases, once each phase's outcome is known. */
  lemma SyncRepoFromPhases(handling: DiffHandling, books: seq<LocalBook>, repoId: int, repoCount: nat,
                           o: RemoteOutcomes, listing: seq<NamedRook>,
                           afterNet: Namesakes, listed: Listed, updates: map<string, BookUpdate>)
    requires var local := ClassifyAll(books, repoId, repoCount);
             && (|local.staged| > 0 ==> o.stagingSucceeds && o.commitSucceeds)
             && AfterNetwork(handling, local.namesakes, |local.staged| > 0, o) == Ok(afterNet)
    requires MergeListing(afterNet, listing) == Ok(listed)
    requires PersistAll(listed.namesakes) == Ok(updates)
    ensures var local := ClassifyAll(books, repoId, repoCount);
            var steps := PlanNetwork(|local.staged| > 0, o);
            var r := SyncRepo(handling, books, repoId, repoCount, o, listing);
            && r.Ok?
            && r.value.steps == steps
            && r.value.staged == local.staged
            && r.value.loads == listed.loads
            && r.value.updates == updates
            && r.value.state == if steps.conflictBranch then Some(FinishedWithConflicts) else None
  {
  }

  lemma ListingOfOne(ns: Namesakes, nr: NamedRook)
    ensures MergeListing(ns, [nr]) == AttachRook(Listed(ns, []), nr)
  {
    assert [nr][..0] == [];
  }

  lemma ListingOfTwo(ns: Namesakes, nr1: NamedRook, nr2: NamedRook)
    requires AttachRook(Listed(ns, []), nr1).Ok?
    ensures MergeListing(ns, [nr1, nr2]) == AttachRook(AttachRook(Listed(ns, []), nr1).value, nr2)
  {
    assert [nr1, nr2][..1] == [nr1];
    ListingOfOne(ns, nr1);
  }

  /** A listing of a known rook followed by an unknown one. */
  lemma ListingOfKnownThenNewRook(ns: Namesakes, n: string, mine: VersionedRook, m: string, added: VersionedRook)
    requires n in ns && m !in ns && n != m && !ReloadsContent(ns[n].status)
    ensures MergeListing(ns, [NamedRook(Ok(n), mine), NamedRook(Ok(m), added)]) ==
            Ok(Listed(ns[n := ns[n].(latestLinkedRook := Some(mine))]
                        [m := Namesake(m, LoadedFromRepo(added), NoBookOneRook, Some(added))], [added]))
  {
    var nr1 := NamedRook(Ok(n), mine);
    var nr2 := NamedRook(Ok(m), added);
    var first := Listed(ns[n := ns[n].(latestLinkedRook := Some(mine))], []);
    assert AttachRook(Listed(ns, []), nr1) == Ok(first);
    ListingOfTwo(ns, nr1, nr2);
    assert m !in first.namesakes;
    assert [] + [added] == [added];
    assert AttachRook(first, nr2) ==
           Ok(Listed(first.namesakes[m := Namesake(m, LoadedFromRepo(added), NoBookOneRook, Some(added))], [added]));
  }

  /** Two namesakes that both satisfy the final invariant are persisted one by one. */
  lemma PersistTwo(n: string, x: Namesake, u: BookUpdate, m: string, y: Namesake, v: BookUpdate)
    requires n != m && RooklessIsAllowed(x) && RooklessIsAllowed(y)
    requires DescribesUpdate(x, u) && DescribesUpdate(y, v)
    ensures PersistAll(map[n := x, m := y]) == Ok(map[n := u, m := v])
  {
    assert Persist(x) == u && Persist(y) == v;
    var ns := map[n := x, m := y];
    assert !exists k :: k in ns && !RooklessIsAllowed(ns[k]);
    assert (map k | k in ns :: Persist(ns[k])) == map[n := Persist(x), m := Persist(y)];
  }

  // Scenario: local edit and remote edit of the same book.

  predicate EditScenario(b: LocalBook, repoId: int, o: RemoteOutcomes, rook: VersionedRook) {
    && Takes(b, repoId) && b.isOutOfSync && o.stagingSucceeds && o.commitSucceeds
    && !o.pushSucceeds && o.fetchSucceeds && !o.headEqualsRemote && o.rebaseSucceeds
    && o.diff == [NamedEntry(Ok(b.name), Modify)]
  }

  lemma EditNetworkPhase(b: LocalBook, repoId: int, o: RemoteOutcomes, rook: VersionedRook)
    requires EditScenario(b, repoId, o, rook)
    ensures var local := ClassifyAll([b], repoId, 1);
            && local.staged == [BookName.RepoRelativePathFromName(b.name)]
            && PlanNetwork(|local.staged| > 0, o).secondPush
            && AfterNetwork(AsWritten, local.namesakes, |local.staged| > 0, o) ==
               Ok(map[b.name := Namesake(b.name, Local(b), ConflictBothBookAndRookModified, None)])
  {
    FirstLoopOnOneBook(b, repoId, 1);
    assert PlanNetwork(true, o).secondPush;
    var x := InitialNamesake(b, repoId, 1);
    assert x == Namesake(b.name, Local(b), BookWithLinkLocalModified, None);
    NetworkWithOneEntry(x, true, o, Modify);
  }

  lemma EditListingPhase(b: LocalBook, repoId: int, o: RemoteOutcomes, rook: VersionedRook)
    requires EditScenario(b, repoId, o, rook)
    ensures MergeListing(map[b.name := Namesake(b.name, Local(b), ConflictBothBookAndRookModified, None)], [NamedRook(Ok(b.name), rook)]) ==
            Ok(Listed(map[b.name := Namesake(b.name, LoadedFromRepo(rook), ConflictBothBookAndRookModified, Some(rook))], [rook]))
  {
    var n := b.name;
    var x := Namesake(n, Local(b), ConflictBothBookAndRookModified, None);
    ListingOfOneKnownRook(map[n := x], n, rook);
    UpdateOfSingleton(n, x, x.(book := LoadedFromRepo(rook), latestLinkedRook := Some(rook)));
  }

  /**
   * A book edited locally whose file the remote also modified: the push
   * fails, the rebase succeeds, and the book ends as
   * CONFLICT_BOTH_BOOK_AND_ROOK_MODIFIED, recorded as INFO without a link
   * update, and is reloaded from the repository.
   */
  lemma LocalAndRemoteEdit(b: LocalBook, repoId: int, o: RemoteOutcomes, rook: VersionedRook)
    requires EditScenario(b, repoId, o, rook)
    ensures var r := SyncRepo(AsWritten, [b], repoId, 1, o, [NamedRook(Ok(b.name), rook)]);
            && r.Ok?
            && r.value.staged == [BookName.RepoRelativePathFromName(b.name)]
            && r.value.steps.secondPush
            && r.value.updates == map[b.name := BookUpdate(ConflictBothBookAndRookModified, Info, false, None, true)]
            && r.value.loads == [rook]
  {
    var afterNet := map[b.name := Namesake(b.name, Local(b), ConflictBothBookAndRookModified, None)];
    EditNetworkPhase(b, repoId, o, rook);
    var listed, updates := EditPhases(b, repoId, o, rook);
    SyncRepoFromPhases(AsWritten, [b], repoId, 1, o, [NamedRook(Ok(b.name), rook)], afterNet, listed, updates);
  }

  lemma EditPhases(b: LocalBook, repoId: int, o: RemoteOutcomes, rook: VersionedRook)
    returns (listed: Listed, updates: map<string, BookUpdate>)
    requires EditScenario(b, repoId, o, rook)
    ensures MergeListing(map[b.name := Namesake(b.name, Local(b), ConflictBothBookAndRookModified, None)],
                         [NamedRook(Ok(b.name), rook)]) == Ok(listed)
    ensures listed.loads == [rook]
    ensures PersistAll(listed.namesakes) == Ok(updates)
    ensures updates == map[b.name := BookUpdate(ConflictBothBookAndRookModified, Info, false, None, true)]
  {
    var x := Namesake(b.name, LoadedFromRepo(rook), ConflictBothBookAndRookModified, Some(rook));
    var u := BookUpdate(ConflictBothBookAndRookModified, Info, false, None, true);
    listed := Listed(map[b.name := x], [rook]);
    updates := map[b.name := u];
    EditListingPhase(b, repoId, o, rook);
    PersistOne(b.name, x, u);
  }

  // Scenario: remote deletion of a clean linked book.

  predicate DeletionScenario(b: LocalBook, repoId: int, o: RemoteOutcomes) {
    && b.linkRepoId == Some(repoId) && b.hasSync && !b.isOutOfSync
    && o.fetchSucceeds && !o.headEqualsRemote && o.rebaseSucceeds
    && o.diff == [NamedEntry(Ok(b.name), Delete)]
  }

  lemma DeletionNetworkPhase(b: LocalBook, repoId: int, o: RemoteOutcomes)
    requires DeletionScenario(b, repoId, o)
    ensures var local := ClassifyAll([b], repoId, 1);
            && local.staged == []
            && AfterNetwork(AsWritten, local.namesakes, |local.staged| > 0, o) ==
               Ok(map[b.name := Namesake(b.name, Local(b), RookNoLongerExists, None)])
  {
    FirstLoopOnOneBook(b, repoId, 1);
    var x := InitialNamesake(b, repoId, 1);
    assert x == Namesake(b.name, Local(b), NoChange, None);
    NetworkWithOneEntry(x, false, o, Delete);
  }

  /**
   * A clean linked book whose file the remote deleted: the book ends as
   * ROOK_NO_LONGER_EXISTS, recorded as ERROR, and is unlinked.
   */
  lemma RemoteDeletion(b: LocalBook, repoId: int, o: RemoteOutcomes)
    requires DeletionScenario(b, repoId, o)
    ensures var r := SyncRepo(AsWritten, [b], repoId, 1, o, []);
            && r.Ok?
            && r.value.staged == []
            && r.value.updates == map[b.name := BookUpdate(RookNoLongerExists, Error, true, None, true)]
  {
    DeletionNetworkPhase(b, repoId, o);
    var x := Namesake(b.name, Local(b), RookNoLongerExists, None);
    var u := BookUpdate(RookNoLongerExists, Error, true, None, true);
    PersistOne(b.name, x, u);
    SyncRepoFromPhases(AsWritten, [b], repoId, 1, o, [], map[b.name := x], Listed(map[b.name := x], []), map[b.name := u]);
  }

  // Scenario: the rebase fails with a locally modified book.

  predicate ConflictScenario(b: LocalBook, repoId: int, o: RemoteOutcomes, rook: VersionedRook) {
    && Takes(b, repoId) && b.isOutOfSync && b.isModified && o.stagingSucceeds && o.commitSucceeds
    && !o.pushSucceeds && o.fetchSucceeds && !o.headEqualsRemote && !o.rebaseSucceeds
  }

  lemma ConflictNetworkPhase(b: LocalBook, repoId: int, o: RemoteOutcomes, rook: VersionedRook)
    requires ConflictScenario(b, repoId, o, rook)
    ensures var local := ClassifyAll([b], repoId, 1);
            && |local.staged| > 0
            && AfterNetwork(AsWritten, local.namesakes, |local.staged| > 0, o) ==
               Ok(map[b.name := Namesake(b.name, Local(b), ConflictPushedToConflictBranch, None)])
  {
    FirstLoopOnOneBook(b, repoId, 1);
    var x := InitialNamesake(b, repoId, 1);
    assert x == Namesake(b.name, Local(b), BookWithLinkLocalModified, None);
    MarkConflictsOfOne(x);
  }

  lemma MarkConflictsOfOne(x: Namesake)
    requires IsModified(x.book)
    ensures MarkConflicts(map[x.name := x]) == map[x.name := x.(status := ConflictPushedToConflictBranch)]
  {
  }

  lemma ConflictListingPhase(b: LocalBook, repoId: int, o: RemoteOutcomes, rook: VersionedRook)
    requires ConflictScenario(b, repoId, o, rook)
    ensures MergeListing(map[b.name := Namesake(b.name, Local(b), ConflictPushedToConflictBranch, None)], [NamedRook(Ok(b.name), rook)]) ==
            Ok(Listed(map[b.name := Namesake(b.name, Local(b), ConflictPushedToConflictBranch, Some(rook))], []))
  {
    var n := b.name;
    var x := Namesake(n, Local(b), ConflictPushedToConflictBranch, None);
    ListingOfOneKnownRook(map[n := x], n, rook);
    UpdateOfSingleton(n, x, x.(latestLinkedRook := Some(rook)));
  }

  /**
   * When the rebase fails, a modified book is pushed to the conflict branch:
   * it is recorded as ERROR with its link updated, and the pass reports
   * FINISHED_WITH_CONFLICTS.
   */
  lemma FailedRebaseMarksConflict(b: LocalBook, repoId: int, o: RemoteOutcomes, rook: VersionedRook)
    requires ConflictScenario(b, repoId, o, rook)
    ensures var r := SyncRepo(AsWritten, [b], repoId, 1, o, [NamedRook(Ok(b.name), rook)]);
            && r.Ok?
            && r.value.state == Some(FinishedWithConflicts)
            && r.value.updates == map[b.name := BookUpdate(ConflictPushedToConflictBranch, Error, false, Some(rook), true)]
  {
    ConflictNetworkPhase(b, repoId, o, rook);
    ConflictListingPhase(b, repoId, o, rook);
    var x := Namesake(b.name, Local(b), ConflictPushedToConflictBranch, Some(rook));
    var u := BookUpdate(ConflictPushedToConflictBranch, Error, false, Some(rook), true);
    PersistOne(b.name, x, u);
    SyncRepoFromPhases(AsWritten, [b], repoId, 1, o, [NamedRook(Ok(b.name), rook)],
                       map[b.name := Namesake(b.name, Local(b), ConflictPushedToConflictBranch, None)],
                       Listed(map[b.name := x], []), map[b.name := u]);
  }

  // Scenario: a remote addition, with additions skipped.

  predicate AdditionScenario(b: LocalBook, repoId: int, o: RemoteOutcomes,
                             mine: VersionedRook, added: VersionedRook, addedName: string) {
    && b.linkRepoId == Some(repoId) && b.hasSync && !b.isOutOfSync
    && addedName != b.name
    && o.fetchSucceeds && !o.headEqualsRemote && o.rebaseSucceeds
    && o.diff == [NamedEntry(Err(IllegalArgument), Add)]
  }

  lemma AdditionNetworkPhase(b: LocalBook, repoId: int, o: RemoteOutcomes,
                             mine: VersionedRook, added: VersionedRook, addedName: string)
    requires AdditionScenario(b, repoId, o, mine, added, addedName)
    ensures var local := ClassifyAll([b], repoId, 1);
            && local.staged == []
            && AfterNetwork(SkipAdditions, local.namesakes, |local.staged| > 0, o) ==
               Ok(map[b.name := Namesake(b.name, Local(b), NoChange, None)])
  {
    FirstLoopOnOneBook(b, repoId, 1);
    CorrectedIgnoresAdditions(map[b.name := Namesake(b.name, Local(b), NoChange, None)], o.diff);
  }

  lemma AdditionListingPhase(b: LocalBook, repoId: int, o: RemoteOutcomes,
                             mine: VersionedRook, added: VersionedRook, addedName: string)
    requires AdditionScenario(b, repoId, o, mine, added, addedName)
    ensures MergeListing(map[b.name := Namesake(b.name, Local(b), NoChange, None)], [NamedRook(Ok(b.name), mine), NamedRook(Ok(addedName), added)]) ==
            Ok(Listed(map[b.name := Namesake(b.name, Local(b), NoChange, Some(mine)),
                          addedName := Namesake(addedName, LoadedFromRepo(added), NoBookOneRook, Some(added))],
                      [added]))
  {
    var n := b.name;
    var ns := map[n := Namesake(n, Local(b), NoChange, None)];
    ListingOfKnownThenNewRook(ns, n, mine, addedName, added);
    UpdateOfSingleton(n, ns[n], ns[n].(latestLinkedRook := Some(mine)));
  }

  /**
   * With additions skipped, a clean linked book and a newly added remote
   * file sync: the book keeps NO_CHANGE, the new file is loaded as
   * NO_BOOK_ONE_ROOK and linked.
   */
  lemma CorrectedPassLoadsRemoteAddition(b: LocalBook, repoId: int, o: RemoteOutcomes,
                                         mine: VersionedRook, added: VersionedRook, addedName: string)
    requires AdditionScenario(b, repoId, o, mine, added, addedName)
    ensures var r := SyncRepo(SkipAdditions, [b], repoId, 1, o, [NamedRook(Ok(b.name), mine), NamedRook(Ok(addedName), added)]);
            && r.Ok?
            && r.value.updates == map[b.name := BookUpdate(NoChange, Info, false, None, true),
                                      addedName := BookUpdate(NoBookOneRook, Info, false, Some(added), true)]
            && r.value.loads == [added]
  {
    AdditionNetworkPhase(b, repoId, o, mine, added, addedName);
    AdditionListingPhase(b, repoId, o, mine, added, addedName);
    var x := Namesake(b.name, Local(b), NoChange, Some(mine));
    var y := Namesake(addedName, LoadedFromRepo(added), NoBookOneRook, Some(added));
    var u := BookUpdate(NoChange, Info, false, None, true);
    var v := BookUpdate(NoBookOneRook, Info, false, Some(added), true);
    PersistTwo(b.name, x, u, addedName, y, v);
    SyncRepoFromPhases(SkipAdditions, [b], repoId, 1, o, [NamedRook(Ok(b.name), mine), NamedRook(Ok(addedName), added)],
                       map[b.name := Namesake(b.name, Local(b), NoChange, None)],
                       Listed(map[b.name := x, addedName := y], [added]),
                       map[b.name := u, addedName := v]);
  }

  // ---------------------------------------------------------------------
  // Listing filter (GitRepo.getBooks, GitRepo.java:235-274)
  // ---------------------------------------------------------------------

  /**
   * The TreeWalk filter: a file is listed when no rule ignores it, it is a
   * supported notebook file, and every directory above it is entered (not
   * ignored, and subfolders are supported). `ignored(path, isDirectory)`
   * stands for the repository's ignore rules.
   */
  predicate PassesFilter(path: string, ignored: (string, bool) -> bool, subfolders: bool) {
    && (forall d :: d in AncestorDirs(path) ==> subfolders && !ignored(d, true))
    && !ignored(path, false)
    && BookName.IsSupportedFormatFileName(path)
  }

  function ListBooks(files: seq<string>, ignored: (string, bool) -> bool, subfolders: bool): (r: seq<string>)
    ensures forall p :: p in r <==> p in files && PassesFilter(p, ignored, subfolders)
    ensures forall p :: p in r ==> BookName.FromRepoRelativePath(p).Ok?
  {
    if |files| == 0 then []
    else
      var rest := ListBooks(files[1..], ignored, subfolders);
      if PassesFilter(files[0], ignored, subfolders) then
        BookName.SupportedParses(files[0]);
        [files[0]] + rest
      else rest
  }
}

=== FILE: git_working_copy.dfy ===
/**
 * GitFileSynchronizer: the clean-tree guards, the conditional commits, the
 * collision checks, push-result aggregation, and the rebase and merge aborts.
 *
 * The git working copy is a record of three path-to-content maps (the files
 * on disk, the index and the tree of HEAD), the directories on disk and the
 * commit log. Every JGit call that can fail is represented by a flag in
 * `Faults`; results the model cannot compute (what a merge or a rebase
 * produces, what a push reports) are inputs.
 */
module GitWorkingCopy {
  import opened Common

  datatype WorkingCopy = WorkingCopy(
    workTree: map<string, string>,  // files on disk: path -> content
    dirs: set<string>,              // directories on disk
    index: map<string, string>,     // the staging area
    head: map<string, string>,      // the tree of the current HEAD commit
    log: seq<string>)               // commit messages, oldest first

  /** Which JGit or file-system calls fail in a given run. */
  datatype Faults = Faults(
    status: bool,      // `git status` throws GitAPIException
    stage: bool,       // `git add` / `git rm` throws GitAPIException
    commit: bool,      // `git commit` throws GitAPIException
    createFile: bool,  // File.createNewFile returns false
    mkdirs: bool)      // File.mkdirs returns false

  const NoFaults := Faults(false, false, false, false, false)

  /** Every tracked file is on disk with its staged content. */
  predicate TreeMatchesIndex(w: WorkingCopy) {
    forall p :: p in w.index ==> p in w.workTree && w.workTree[p] == w.index[p]
  }

  /**
   * Status.hasUncommittedChanges: something is staged but not committed, or a
   * tracked file is missing or modified on disk. Untracked files do not count.
   */
  predicate HasUncommittedChanges(w: WorkingCopy) {
    w.index != w.head || !TreeMatchesIndex(w)
  }

  // ---------------------------------------------------------------------
  // Guards (GitFileSynchronizer.java:305-317)
  // ---------------------------------------------------------------------

  /** gitRepoIsClean: a status query that throws answers "not clean". */
  function GitRepoIsClean(w: WorkingCopy, f: Faults): (r: bool)
    ensures f.status ==> !r
    ensures !f.status ==> (r <==> w.index == w.head && TreeMatchesIndex(w))
  {
    !f.status && !HasUncommittedChanges(w)
  }

  /** ensureRepoIsClean: IOException unless the repository is clean. */
  function EnsureRepoIsClean(w: WorkingCopy, f: Faults): (r: Result<()>)
    ensures r.Err? <==> f.status || HasUncommittedChanges(w)
    ensures r.Err? ==> r.error == IO
  {
    if GitRepoIsClean(w, f) then Ok(()) else Err(IO)
  }

  // ---------------------------------------------------------------------
  // Index and commit primitives
  // ---------------------------------------------------------------------

  /** `git add <path>`: stage the file on disk; a path not on disk stages nothing. */
  function Add(w: WorkingCopy, path: string): (r: WorkingCopy)
    ensures r.workTree == w.workTree && r.head == w.head && r.log == w.log && r.dirs == w.dirs
    ensures path in w.workTree ==> r.index == w.index[path := w.workTree[path]]
    ensures path !in w.workTree ==> r.index == w.index
  {
    if path in w.workTree then w.(index := w.index[path := w.workTree[path]]) else w
  }

  /** `git rm <path>`: unstage the file and delete it from disk. */
  function Remove(w: WorkingCopy, path: string): (r: WorkingCopy)
    ensures path !in r.index && path !in r.workTree
    ensures forall p :: p != path ==> (p in r.index <==> p in w.index) && (p in r.workTree <==> p in w.workTree)
    ensures r.head == w.head && r.log == w.log
  {
    w.(index := w.index - {path}, workTree := w.workTree - {path})
  }

  /** `git commit`: HEAD takes the staged tree and the log grows by one message. */
  function Commit(w: WorkingCopy, message: string): (r: WorkingCopy)
    ensures r.head == w.index && r.index == w.index && r.workTree == w.workTree
    ensures r.log == w.log + [message]
  {
    w.(head := w.index, log := w.log + [message])
  }

  /**
   * `git reset --hard`: the index returns to HEAD, and so do the tracked files
   * on disk; a file staged but not in HEAD is deleted, an untracked file stays.
   */
  function ResetHard(w: WorkingCopy): (r: WorkingCopy)
    ensures r.head == w.head && r.log == w.log && r.index == w.head
    ensures forall p :: p in w.head ==> p in r.workTree && r.workTree[p] == w.head[p]
    ensures forall p :: p in w.workTree && p !in w.index && p !in w.head ==> p in r.workTree && r.workTree[p] == w.workTree[p]
  {
    var untracked := map p | p in w.workTree && p !in w.index && p !in w.head :: w.workTree[p];
    w.(index := w.head, workTree := untracked + w.head)
  }

  /** A hard reset always leaves a clean repository. */
  lemma ResetHardIsClean(w: WorkingCopy)
    ensures !HasUncommittedChanges(ResetHard(w))
    ensures GitRepoIsClean(ResetHard(w), NoFaults)
  {
  }

  /**
   * What a call leaves behind: the working copy as the call leaves it, and
   * what it returned or threw. An exception does not undo the files written,
   * the directories made or the paths staged before it was thrown.
   */
  datatype Outcome<+T> = Outcome(copy: WorkingCopy, result: Result<T>)

  /** commitCurrentIndex's message. */
  const SyncCommitMessage := "Orgzly repository sync"

  /** commitCurrentIndex (GitFileSynchronizer.java:228-232): commit unless clean. */
  function CommitCurrentIndex(w: WorkingCopy, f: Faults): (r: Outcome<()>)
    ensures GitRepoIsClean(w, f) ==> r == Outcome(w, Ok(()))
    ensures !GitRepoIsClean(w, f) && f.commit ==> r == Outcome(w, Err(GitApi))
    ensures !GitRepoIsClean(w, f) && !f.commit ==> r.result.Ok? && r.copy.head == w.index && r.copy.log == w.log + [SyncCommitMessage]
    ensures r.copy.index == w.index && r.copy.workTree == w.workTree && r.copy.dirs == w.dirs
  {
    if GitRepoIsClean(w, f) then Outcome(w, Ok(()))
    else if f.commit then Outcome(w, Err(GitApi))
    else Outcome(Commit(w, SyncCommitMessage), Ok(()))
  }

  /** Committing on a tree whose status query works leaves nothing staged behind. */
  lemma CommitCurrentIndexCleansStaging(w: WorkingCopy, f: Faults)
    requires CommitCurrentIndex(w, f).result.Ok?
    ensures CommitCurrentIndex(w, f).copy.index == CommitCurrentIndex(w, f).copy.head
  {
  }

  // ---------------------------------------------------------------------
  // Writing files (GitFileSynchronizer.java:205-271)
  // ---------------------------------------------------------------------

  /**
   * writeFileAndAddToIndex (214-226): create the file if needed, export the
   * book into it and stage it. No clean-tree guard, no commit, and no
   * directories are made: a new file in a missing directory cannot be
   * created. A failing `git add` leaves the exported file on disk, unstaged.
   */
  function WriteFileAndAddToIndex(w: WorkingCopy, f: Faults, path: string, content: string): (r: Outcome<()>)
    ensures r.result.Ok? <==> !CreateFails(w, f, path) && !f.stage
    ensures r.result.Err? ==> r.result.error == IO
    ensures r.copy.head == w.head && r.copy.log == w.log && r.copy.dirs == w.dirs
    ensures path !in w.workTree && '/' in path && ParentDir(path) !in w.dirs ==> r == Outcome(w, Err(IO))
    ensures path !in w.workTree && f.createFile ==> r == Outcome(w, Err(IO))
    ensures !CreateFails(w, f, path) ==> r.copy.workTree == w.workTree[path := content]
    ensures r.result.Ok? ==> r.copy.index == w.index[path := content]
    ensures r.result.Err? ==> r.copy.index == w.index
  {
    if CreateFails(w, f, path) then Outcome(w, Err(IO))
    else
      var written := w.(workTree := w.workTree[path := content]);
      if f.stage then Outcome(written, Err(IO)) else Outcome(Add(written, path), Ok(()))
  }

  /**
   * `destinationFile.exists() || destinationFile.createNewFile()` is false:
   * the file is absent and creating it fails, or it would go in a directory
   * that does not exist, where createNewFile throws IOException.
   */
  predicate CreateFails(w: WorkingCopy, f: Faults, path: string) {
    path !in w.workTree && (f.createFile || ('/' in path && ParentDir(path) !in w.dirs))
  }

  /**
   * Staging content that differs from HEAD dirties a clean repository, and
   * the commitCurrentIndex that follows then moves HEAD to that content.
   */
  lemma StagingChangedContentDirties(w: WorkingCopy, path: string, content: string)
    requires GitRepoIsClean(w, NoFaults)
    requires path !in w.head || w.head[path] != content
    ensures WriteFileAndAddToIndex(w, NoFaults, path, content).result.Ok? <==> !CreateFails(w, NoFaults, path)
    ensures !CreateFails(w, NoFaults, path) ==> !GitRepoIsClean(WriteFileAndAddToIndex(w, NoFaults, path, content).copy, NoFaults)
    ensures !CreateFails(w, NoFaults, path) ==>
              CommitCurrentIndex(WriteFileAndAddToIndex(w, NoFaults, path, content).copy, NoFaults).copy.head == w.head[path := content]
  {
    if CreateFails(w, NoFaults, path) {
      return;
    }
    var staged := WriteFileAndAddToIndex(w, NoFaults, path, content).copy;
    assert path in staged.index && staged.index[path] == content;
    assert staged.index != staged.head;
  }

  /** Staging the content HEAD already holds changes nothing, so there is nothing to commit. */
  lemma StagingSameContentKeepsClean(w: WorkingCopy, path: string)
    requires GitRepoIsClean(w, NoFaults)
    requires path in w.head
    ensures WriteFileAndAddToIndex(w, NoFaults, path, w.head[path]) == Outcome(w, Ok(()))
    ensures CommitCurrentIndex(WriteFileAndAddToIndex(w, NoFaults, path, w.head[path]).copy, NoFaults) == Outcome(w, Ok(()))
  {
    var content := w.head[path];
    assert w.workTree[path := content] == w.workTree;
    assert w.index[path := content] == w.index;
  }

  /**
   * A book staged under a new nested path whose directory is not there yet
   * is never written: the sync fails before anything is staged.
   */
  lemma NestedNewFileNeedsItsDirectory(w: WorkingCopy, content: string)
    requires "sub/x.org" !in w.workTree && "sub" !in w.dirs
    ensures WriteFileAndAddToIndex(w, NoFaults, "sub/x.org", content) == Outcome(w, Err(IO))
  {
    var p := "sub/x.org";
    assert p[3] == '/';
    var parent := ParentDir(p);
    assert forall i :: 0 <= i < |p| && i != 3 ==> p[i] != '/';
    assert |parent| == 3 && parent == p[..3] == "sub";
    assert CreateFails(w, NoFaults, p);
  }

  /** The message updateAndCommitFile commits with. */
  function UpdateMessage(path: string): string {
    "Orgzly update: " + path
  }

  /** The copy with `content` written to `path` and staged. */
  function Staged(w: WorkingCopy, path: string, content: string): WorkingCopy {
    Add(w.(workTree := w.workTree[path := content]), path)
  }

  /**
   * updateAndCommitFile (260-271): copy the content over the file, stage it,
   * and commit only if the repository is then not clean. An API failure of
   * either step becomes an IOException, with the copy (and, if only the
   * commit failed, the staging) left in place.
   */
  function UpdateAndCommitFile(w: WorkingCopy, f: Faults, path: string, content: string): (r: Outcome<()>)
    ensures r.result.Ok? <==> !f.stage && (GitRepoIsClean(Staged(w, path, content), f) || !f.commit)
    ensures r.result.Err? ==> r.result.error == IO
    ensures r.copy.workTree == w.workTree[path := content] && r.copy.dirs == w.dirs
    ensures f.stage ==> r.copy.index == w.index
    ensures !f.stage ==> r.copy.index == w.index[path := content]
    ensures r.result.Err? ==> r.copy.head == w.head && r.copy.log == w.log
    ensures r.copy.log == w.log ==> r.copy.head == w.head
    ensures r.result.Ok? ==> (r.copy.log == w.log + [UpdateMessage(path)] <==> !GitRepoIsClean(Staged(w, path, content), f))
    ensures r.copy.log != w.log ==> r.copy.head == r.copy.index
  {
    var copied := w.(workTree := w.workTree[path := content]);
    if f.stage then Outcome(copied, Err(IO))
    else
      var staged := Add(copied, path);
      if GitRepoIsClean(staged, f) then Outcome(staged, Ok(()))
      else if f.commit then Outcome(staged, Err(IO))
      else Outcome(Commit(staged, UpdateMessage(path)), Ok(()))
  }

  /**
   * Storing the content a clean repository already tracks at `path` changes
   * nothing and creates no commit.
   */
  lemma IdenticalContentMakesNoCommit(w: WorkingCopy, path: string)
    requires GitRepoIsClean(w, NoFaults)
    requires path in w.head
    ensures UpdateAndCommitFile(w, NoFaults, path, w.head[path]) == Outcome(w, Ok(()))
  {
    var content := w.head[path];
    assert w.workTree[path := content] == w.workTree;
    assert w.index[path := content] == w.index;
  }

  /** Storing new content over a clean repository always commits it. */
  lemma ChangedContentIsCommitted(w: WorkingCopy, path: string, content: string)
    requires GitRepoIsClean(w, NoFaults)
    requires path !in w.head || w.head[path] != content
    ensures UpdateAndCommitFile(w, NoFaults, path, content).result.Ok?
    ensures UpdateAndCommitFile(w, NoFaults, path, content).copy.log == w.log + [UpdateMessage(path)]
    ensures path in UpdateAndCommitFile(w, NoFaults, path, content).copy.head
    ensures UpdateAndCommitFile(w, NoFaults, path, content).copy.head[path] == content
  {
    var staged := Staged(w, path, content);
    assert path in staged.index && staged.index[path] == content;
    assert staged.index != staged.head;
  }

  /**
   * An update of a tracked file that throws leaves the new content on disk
   * without a commit, so the repository is dirty and the next update of the
   * file is refused.
   */
  lemma FailedUpdateLeavesRepositoryDirty(w: WorkingCopy, f: Faults, path: string, content: string, again: string)
    requires !HasUncommittedChanges(w)
    requires path in w.head && w.head[path] != content
    requires UpdateAndCommitFile(w, f, path, content).result.Err?
    ensures HasUncommittedChanges(UpdateAndCommitFile(w, f, path, content).copy)
    ensures var left := UpdateAndCommitFile(w, f, path, content).copy;
            UpdateAndCommitExistingFile(left, f, path, again) == Outcome(left, Err(IO))
  {
    var left := UpdateAndCommitFile(w, f, path, content).copy;
    assert path in left.workTree && left.workTree[path] == content;
    if f.stage {
      assert path in left.index && left.index[path] == w.head[path];
      assert !TreeMatchesIndex(left);
    } else {
      assert left.index[path] != left.head[path];
    }
  }

  /**
   * updateAndCommitExistingFile (205-212): clean tree required, and the file
   * must already exist.
   */
  function UpdateAndCommitExistingFile(w: WorkingCopy, f: Faults, path: string, content: string): (r: Outcome<()>)
    ensures !GitRepoIsClean(w, f) ==> r == Outcome(w, Err(IO))
    ensures GitRepoIsClean(w, f) && path !in w.workTree ==> r == Outcome(w, Err(FileNotFound))
    ensures GitRepoIsClean(w, f) && path in w.workTree ==> r == UpdateAndCommitFile(w, f, path, content)
  {
    match EnsureRepoIsClean(w, f)
    case Err(e) => Outcome(w, Err(e))
    case Ok(_) =>
      if path !in w.workTree then Outcome(w, Err(FileNotFound))
      else UpdateAndCommitFile(w, f, path, content)
  }

  /**
   * ensureDirectoryHierarchy (250-258): only for a path with a '/', make the
   * parent directory (and with it every missing ancestor) unless it exists.
   * A failing mkdirs is taken to have made nothing.
   */
  function EnsureDirectoryHierarchy(w: WorkingCopy, f: Faults, path: string): (r: Outcome<()>)
    ensures '/' !in path ==> r == Outcome(w, Ok(()))
    ensures r.result.Err? <==> '/' in path && ParentDir(path) !in w.dirs && f.mkdirs
    ensures r.result.Err? ==> r.result.error == IO && r.copy == w
    ensures r.copy.workTree == w.workTree && r.copy.index == w.index && r.copy.head == w.head && r.copy.log == w.log
    ensures w.dirs <= r.copy.dirs
    ensures r.result.Ok? && '/' in path ==> ParentDir(path) in r.copy.dirs
    ensures forall d :: d in r.copy.dirs && d !in w.dirs ==> d in AncestorDirs(path)
  {
    NoAncestorsIffNoSlash(path);
    if '/' !in path then Outcome(w, Ok(()))
    else
      var parent := ParentDir(path);
      if parent in w.dirs then Outcome(w, Ok(()))
      else if f.mkdirs then Outcome(w, Err(IO))
      else Outcome(w.(dirs := w.dirs + set d | d in AncestorDirs(path)), Ok(()))
  }

  /** The directory holding `path`: its longest proper ancestor. */
  function ParentDir(path: string): (r: string)
    requires '/' in path
    ensures r in AncestorDirs(path)
    ensures forall d :: d in AncestorDirs(path) ==> |d| <= |r|
  {
    NoAncestorsIffNoSlash(path);
    var ds := AncestorDirs(path);
    forall i | 0 <= i < |ds| - 1
      ensures |ds[i]| <= |ds[|ds| - 1]|
    {
      AncestorDirsOrdered(path, i, |ds| - 1);
    }
    ds[|ds| - 1]
  }

  /** The directories for `path` cannot be made: ensureDirectoryHierarchy throws. */
  predicate DirectoriesFail(w: WorkingCopy, f: Faults, path: string) {
    '/' in path && ParentDir(path) !in w.dirs && f.mkdirs
  }

  /**
   * addAndCommitNewFile (240-248): clean tree required, the file must not
   * exist yet; then the directories, then updateAndCommitFile. Directories
   * made and the file written stay behind when a later step throws.
   */
  function AddAndCommitNewFile(w: WorkingCopy, f: Faults, path: string, content: string): (r: Outcome<()>)
    ensures !GitRepoIsClean(w, f) ==> r == Outcome(w, Err(IO))
    ensures GitRepoIsClean(w, f) && path in w.workTree ==> r == Outcome(w, Err(IO))
    ensures '/' !in path && GitRepoIsClean(w, f) && path !in w.workTree ==> r == UpdateAndCommitFile(w, f, path, content)
    ensures r.result.Ok? ==> r.copy.workTree == w.workTree[path := content] && path !in w.workTree
    ensures GitRepoIsClean(w, f) && path !in w.workTree && !DirectoriesFail(w, f, path) ==>
              r.copy.workTree == w.workTree[path := content]
    ensures w.dirs <= r.copy.dirs && forall d :: d in r.copy.dirs && d !in w.dirs ==> d in AncestorDirs(path)
  {
    match EnsureRepoIsClean(w, f)
    case Err(e) => Outcome(w, Err(e))
    case Ok(_) =>
      if path in w.workTree then Outcome(w, Err(IO))
      else
        var made := EnsureDirectoryHierarchy(w, f, path);
        if made.result.Err? then made
        else UpdateAndCommitFile(made.copy, f, path, content)
  }

  /** On a clean repository a new file ends up committed with its content. */
  lemma NewFileIsCommitted(w: WorkingCopy, path: string, content: string)
    requires GitRepoIsClean(w, NoFaults) && path !in w.workTree
    ensures AddAndCommitNewFile(w, NoFaults, path, content).result.Ok?
    ensures path in AddAndCommitNewFile(w, NoFaults, path, content).copy.head
    ensures AddAndCommitNewFile(w, NoFaults, path, content).copy.head[path] == content
    ensures |AddAndCommitNewFile(w, NoFaults, path, content).copy.log| == |w.log| + 1
  {
    var withDirs := EnsureDirectoryHierarchy(w, NoFaults, path).copy;
    assert path !in withDirs.index;
    ChangedContentIsCommitted(withDirs, path, content);
  }

  /**
   * A new file whose staging throws stays on disk, untracked: the repository
   * still counts as clean, but the path exists, so adding it again is
   * refused whatever the retry's faults.
   */
  lemma FailedNewFileBlocksRetry(w: WorkingCopy, f: Faults, path: string, content: string, retry: Faults, again: string)
    requires GitRepoIsClean(w, f) && path !in w.workTree && f.stage
    requires !DirectoriesFail(w, f, path)
    ensures AddAndCommitNewFile(w, f, path, content).result == Err(IO)
    ensures path in AddAndCommitNewFile(w, f, path, content).copy.workTree
    ensures !HasUncommittedChanges(AddAndCommitNewFile(w, f, path, content).copy)
    ensures AddAndCommitNewFile(AddAndCommitNewFile(w, f, path, content).copy, retry, path, again).result.Err?
  {
    var left := AddAndCommitNewFile(w, f, path, content).copy;
    assert path !in w.index;
    assert left.index == w.index && left.head == w.head;
    assert TreeMatchesIndex(left) by {
      forall p | p in left.index ensures p in left.workTree && left.workTree[p] == left.index[p] {
        assert p != path;
      }
    }
  }

  // ---------------------------------------------------------------------
  // Push (GitFileSynchronizer.java:147-161)
  // ---------------------------------------------------------------------

  /** RemoteRefUpdate.Status (JGit). */
  datatype RefUpdateStatus =
    | NotAttempted | UpToDate | RejectedNonFastForward | RejectedNoDelete
    | RejectedRemoteChanged | RejectedOtherReason | NonExisting | AwaitingReport | RefOk

  /**
   * push: true iff the push call returns and every ref update of every push
   * result is OK. `results` is Err when the call throws GitAPIException.
   */
  method Push(results: Result<seq<seq<RefUpdateStatus>>>) returns (ok: bool)
    ensures ok <==> results.Ok? && forall i, j :: 0 <= i < |results.value| && 0 <= j < |results.value[i]| ==> results.value[i][j] == RefOk
  {
    if results.Err? {
      return false;
    }
    var rs := results.value;
    var i := 0;
    while i < |rs|
      invariant 0 <= i <= |rs|
      invariant forall a, b :: 0 <= a < i && 0 <= b < |rs[a]| ==> rs[a][b] == RefOk
    {
      var j := 0;
      while j < |rs[i]|
        invariant 0 <= j <= |rs[i]|
        invariant forall b :: 0 <= b < j ==> rs[i][b] == RefOk
      {
        if rs[i][j] != RefOk {
          return false;
        }
        j := j + 1;
      }
      i := i + 1;
    }
    return true;
  }

  // ---------------------------------------------------------------------
  // Rebase and merge (GitFileSynchronizer.java:122-141, 170-178)
  // ---------------------------------------------------------------------

  /** RebaseResult.Status (JGit), with its isSuccessful classification. */
  datatype RebaseStatus =
    | RebaseOk | RebaseAborted | Stopped | Edit | Failed | UncommittedChanges | Conflicts
    | RebaseUpToDate | RebaseFastForward | NothingToCommit | InteractivePrepared | StashApplyConflicts
  {
    predicate IsSuccessful() {
      RebaseOk? || RebaseUpToDate? || RebaseFastForward? || NothingToCommit? || StashApplyConflicts?
    }
  }

  datatype RebaseStep = RebaseStep(status: RebaseStatus, copy: WorkingCopy, aborted: bool)

  /**
   * tryRebaseOnFetchHead: `rebased` is the copy the rebase leaves behind; an
   * unsuccessful rebase is aborted, which restores the copy it started from.
   */
  function TryRebaseOnFetchHead(w: WorkingCopy, status: RebaseStatus, rebased: WorkingCopy): (r: RebaseStep)
    ensures r.status == status
    ensures r.aborted <==> !status.IsSuccessful()
    ensures r.aborted ==> r.copy == w
    ensures !r.aborted ==> r.copy == rebased
  {
    if status.IsSuccessful() then RebaseStep(status, rebased, false)
    else RebaseStep(status, w, true)
  }

  /**
   * JGit counts a rebase that applied but left stash conflicts, or had
   * nothing to do, as successful, so its copy is kept; a stopped,
   * conflicting or failed rebase is aborted back to the starting copy.
   */
  lemma RebaseStatusesThatAbort(w: WorkingCopy, rebased: WorkingCopy)
    ensures TryRebaseOnFetchHead(w, StashApplyConflicts, rebased) == RebaseStep(StashApplyConflicts, rebased, false)
    ensures TryRebaseOnFetchHead(w, RebaseUpToDate, rebased) == RebaseStep(RebaseUpToDate, rebased, false)
    ensures TryRebaseOnFetchHead(w, NothingToCommit, rebased) == RebaseStep(NothingToCommit, rebased, false)
    ensures TryRebaseOnFetchHead(w, Conflicts, rebased) == RebaseStep(Conflicts, w, true)
    ensures TryRebaseOnFetchHead(w, Stopped, rebased) == RebaseStep(Stopped, w, true)
    ensures TryRebaseOnFetchHead(w, Failed, rebased) == RebaseStep(Failed, w, true)
    ensures TryRebaseOnFetchHead(w, UncommittedChanges, rebased) == RebaseStep(UncommittedChanges, w, true)
  {
  }

  /** An aborted rebase leaves a clean repository clean, so the conflict-branch push sends the local HEAD. */
  lemma AbortedRebaseKeepsCleanHead(w: WorkingCopy, status: RebaseStatus, rebased: WorkingCopy)
    requires !HasUncommittedChanges(w)
    requires !status.IsSuccessful()
    ensures TryRebaseOnFetchHead(w, status, rebased).copy.head == w.head
    ensures !HasUncommittedChanges(TryRebaseOnFetchHead(w, status, rebased).copy)
  {
  }

  /** MergeResult.MergeStatus (JGit). */
  datatype MergeStatus =
    | MergeFastForward | FastForwardSquashed | AlreadyUpToDate | MergeFailed | Merged | MergedSquashed
    | MergedSquashedNotCommitted | Conflicting | MergeAborted | MergedNotCommitted | NotSupported | CheckoutConflict

  /**
   * doMerge: `merged` is the copy the merge leaves behind. A conflicting merge
   * drops the merge state and hard-resets to HEAD, and reports false; every
   * other status reports true.
   */
  function DoMerge(w: WorkingCopy, status: MergeStatus, merged: WorkingCopy): (r: (bool, WorkingCopy))
    ensures !r.0 <==> status == Conflicting
    ensures r.0 ==> r.1 == merged
    ensures !r.0 ==> r.1 == ResetHard(merged) && r.1.head == merged.head && !HasUncommittedChanges(r.1)
  {
    ResetHardIsClean(merged);
    if status == Conflicting then (false, ResetHard(merged)) else (true, merged)
  }

  /**
   * pull: clean tree first, then fetch (`fetched` is Err when the fetch throws,
   * which pull reports as IOException), then merge the remote branch. Only
   * the merge touches the working copy.
   */
  function Pull(w: WorkingCopy, f: Faults, fetched: Result<WorkingCopy>, status: MergeStatus, merged: WorkingCopy): (r: Outcome<bool>)
    ensures r.result.Err? <==> !GitRepoIsClean(w, f) || fetched.Err?
    ensures r.result.Err? ==> r.copy == w && r.result.error == IO
    ensures r.result.Ok? ==> (r.result.value, r.copy) == DoMerge(fetched.value, status, merged)
  {
    match EnsureRepoIsClean(w, f)
    case Err(e) => Outcome(w, Err(e))
    case Ok(_) =>
      if fetched.Err? then Outcome(w, Err(IO))
      else
        var m := DoMerge(fetched.value, status, merged);
        Outcome(m.1, Ok(m.0))
  }

  /** A conflicting merge after a clean fetch leaves HEAD and the tree as fetched. */
  lemma ConflictingPullRestoresFetchedCopy(w: WorkingCopy, fetchedCopy: WorkingCopy, merged: WorkingCopy)
    requires GitRepoIsClean(w, NoFaults) && GitRepoIsClean(fetchedCopy, NoFaults)
    requires merged.head == fetchedCopy.head
    requires forall p :: p in merged.workTree && p !in merged.index && p !in merged.head ==> p in fetchedCopy.workTree && p !in fetchedCopy.index && fetchedCopy.workTree[p] == merged.workTree[p]
    requires forall p :: p in fetchedCopy.workTree && p !in fetchedCopy.index ==> p in merged.workTree && p !in merged.index && p !in merged.head
    requires merged.dirs == fetchedCopy.dirs && merged.log == fetchedCopy.log
    ensures Pull(w, NoFaults, Ok(fetchedCopy), Conflicting, merged) == Outcome(fetchedCopy, Ok(false))
  {
    var reset := ResetHard(merged);
    assert reset.index == fetchedCopy.index;
    assert reset.workTree == fetchedCopy.workTree;
  }

  // ---------------------------------------------------------------------
  // Rename (GitFileSynchronizer.java:343-369)
  // ---------------------------------------------------------------------

  function RenameMessage(oldPath: string, newPath: string): string {
    "Orgzly: rename " + oldPath + " to " + newPath
  }

  /**
   * renameFileInRepo: clean tree, pull (false ends the rename), refuse an
   * existing destination, make its directories, copy the old file over and
   * stage it; only if that dirtied the repository is the old path removed and
   * the rename committed, and only then is the answer true. Copying a missing
   * old file throws FileNotFoundException. Whatever was done before a throw
   * stays done.
   */
  function RenameFileInRepo(w: WorkingCopy, f: Faults, oldPath: string, newPath: string,
                            fetched: Result<WorkingCopy>, status: MergeStatus, merged: WorkingCopy): (r: Outcome<bool>)
    ensures !GitRepoIsClean(w, f) || fetched.Err? ==> r == Outcome(w, Err(IO))
    ensures GitRepoIsClean(w, f) && fetched.Ok? && status == Conflicting ==> r == Outcome(ResetHard(merged), Ok(false))
    ensures r.result == Ok(true) ==> fetched.Ok? && status != Conflicting && newPath !in merged.workTree && oldPath in merged.workTree
    ensures r.result == Ok(true) ==> newPath in r.copy.head && r.copy.head[newPath] == merged.workTree[oldPath]
    ensures r.result == Ok(true) ==> oldPath !in r.copy.head && oldPath !in r.copy.workTree
    ensures r.result == Ok(true) ==> r.copy.log == merged.log + [RenameMessage(oldPath, newPath)]
    ensures GitRepoIsClean(w, f) && fetched.Ok? && status != Conflicting && r.result.Err? ==>
              r.copy.head == merged.head && r.copy.log == merged.log
    ensures GitRepoIsClean(w, f) && fetched.Ok? && status != Conflicting
            && newPath !in merged.workTree && oldPath in merged.workTree && !DirectoriesFail(merged, f, newPath) ==>
              newPath in r.copy.workTree && r.copy.workTree[newPath] == merged.workTree[oldPath]
  {
    match EnsureRepoIsClean(w, f)
    case Err(e) => Outcome(w, Err(e))
    case Ok(_) =>
      var pulled := Pull(w, f, fetched, status, merged);
      if pulled.result.Err? || !pulled.result.value then pulled
      else
        var copy := pulled.copy;
        if newPath in copy.workTree then Outcome(copy, Err(IO))
        else
          var made := EnsureDirectoryHierarchy(copy, f, newPath);
          if made.result.Err? then Outcome(made.copy, Err(made.result.error))
          else
            var withDirs := made.copy;
            if oldPath !in withDirs.workTree then Outcome(withDirs, Err(FileNotFound))
            else
              var copied := withDirs.(workTree := withDirs.workTree[newPath := withDirs.workTree[oldPath]]);
              if f.stage then Outcome(copied, Err(IO))
              else
                var staged := Add(copied, newPath);
                if GitRepoIsClean(staged, f) then Outcome(staged, Ok(false))
                else
                  var removed := Remove(staged, oldPath);
                  if f.commit then Outcome(removed, Err(IO))
                  else Outcome(Commit(removed, RenameMessage(oldPath, newPath)), Ok(true))
  }

  /** A rename over an existing destination is refused after the pull, and writes nothing more. */
  lemma RenameRefusesExistingTarget(w: WorkingCopy, f: Faults, oldPath: string, newPath: string, fetchedCopy: WorkingCopy, status: MergeStatus, merged: WorkingCopy)
    requires GitRepoIsClean(w, f) && status != Conflicting
    requires newPath in merged.workTree
    ensures RenameFileInRepo(w, f, oldPath, newPath, Ok(fetchedCopy), status, merged) == Outcome(merged, Err(IO))
  {
  }

  /**
   * Without faults, a rename of a present file to a fresh path after a clean
   * pull always commits: staging a new path always dirties the repository.
   */
  lemma RenameOfPresentFileCommits(w: WorkingCopy, oldPath: string, newPath: string, fetchedCopy: WorkingCopy, status: MergeStatus, merged: WorkingCopy)
    requires GitRepoIsClean(w, NoFaults) && status != Conflicting
    requires oldPath in merged.workTree && newPath !in merged.workTree
    requires GitRepoIsClean(merged, NoFaults)
    ensures RenameFileInRepo(w, NoFaults, oldPath, newPath, Ok(fetchedCopy), status, merged).result == Ok(true)
  {
    var withDirs := EnsureDirectoryHierarchy(merged, NoFaults, newPath).copy;
    var staged := Add(withDirs.(workTree := withDirs.workTree[newPath := withDirs.workTree[oldPath]]), newPath);
    assert newPath !in merged.index;
    assert newPath in staged.index;
    assert newPath !in staged.head;
  }

  /**
   * A rename whose commit throws has already deleted the old file and staged
   * the new one: the repository is left holding an uncommitted rename, so the
   * next guarded operation refuses to run.
   */
  lemma FailedRenameCommitLeavesRenameStaged(w: WorkingCopy, f: Faults, oldPath: string, newPath: string,
                                             fetchedCopy: WorkingCopy, status: MergeStatus, merged: WorkingCopy)
    requires GitRepoIsClean(w, f) && GitRepoIsClean(merged, f) && status != Conflicting
    requires f.commit && !f.stage && !f.mkdirs
    requires oldPath in merged.workTree && newPath !in merged.workTree
    ensures var r := RenameFileInRepo(w, f, oldPath, newPath, Ok(fetchedCopy), status, merged);
            && r.result == Err(IO)
            && oldPath !in r.copy.workTree && oldPath !in r.copy.index
            && newPath in r.copy.index && newPath !in r.copy.head
            && HasUncommittedChanges(r.copy)
  {
    var withDirs := EnsureDirectoryHierarchy(merged, f, newPath).copy;
    var staged := Add(withDirs.(workTree := withDirs.workTree[newPath := withDirs.workTree[oldPath]]), newPath);
    assert newPath !in merged.index;
    assert newPath in staged.index;
    assert newPath !in staged.head;
  }
}

=== FILE: mock_repo_store.dfy ===
/**
 * DbRepoBookRepository: the database behind the mock repository type, as a
 * map from a notebook's URL to its stored row. Android's Uri is left
 * uninterpreted: `uriPath` stands for `Uri.getPath()` of a URL string and
 * `withPath` for `repoUri.buildUpon().path(p).build().toString()`; a Uri
 * parsed from a string prints back as that string.
 */
module MockRepoStore {
  import opened Common
  import opened SyncTypes

  /** A stored notebook (db/entity/DbRepoBook), keyed by `url` in the store. */
  datatype DbRepoBook = DbRepoBook(repoUrl: string, url: string, revision: string, mtime: int, content: string, createdAt: int)

  type Store = map<string, DbRepoBook>

  /** Every row is stored under its own URL. */
  predicate Valid(s: Store) {
    forall u :: u in s ==> s[u].url == u
  }

  /** The rook getBooks reports for one row. */
  function RookOfRow(repoId: int, b: DbRepoBook, uriPath: string -> string): VersionedRook {
    VersionedRook(repoId, Mock, b.repoUrl, b.url, DropLeadingSlash(uriPath(b.url)), b.revision, b.mtime)
  }

  /**
   * getBooks (DbRepoBookRepository.kt:19-24): one rook per row of the repo,
   * its relative path the URL's path without one leading '/'.
   */
  function GetBooks(s: Store, repoId: int, repoUri: string, uriPath: string -> string): (r: set<VersionedRook>)
    ensures forall u :: u in s && s[u].repoUrl == repoUri ==> RookOfRow(repoId, s[u], uriPath) in r
    ensures forall v :: v in r ==> exists u :: u in s && s[u].repoUrl == repoUri && v == RookOfRow(repoId, s[u], uriPath)
  {
    set u | u in s && s[u].repoUrl == repoUri :: RookOfRow(repoId, s[u], uriPath)
  }

  /** Each listed rook is a mock rook of the repo whose path lost at most one '/'. */
  lemma GetBooksPaths(s: Store, repoId: int, repoUri: string, uriPath: string -> string, v: VersionedRook)
    requires v in GetBooks(s, repoId, repoUri, uriPath)
    ensures v.repoId == repoId && v.repoType == Mock && v.repoUri == repoUri
    ensures v.repoRelativePath == uriPath(v.uri) || "/" + v.repoRelativePath == uriPath(v.uri)
  {
    var u :| u in s && s[u].repoUrl == repoUri && v == RookOfRow(repoId, s[u], uriPath);
  }

  /**
   * retrieveBook (26-33): IOException without a row at repoUri plus path;
   * otherwise the row's content (written to the file) and its revision.
   */
  function RetrieveBook(s: Store, repoId: int, repoUri: string, path: string,
                        withPath: (string, string) -> string): (r: Result<(VersionedRook, string)>)
    ensures r.Err? <==> withPath(repoUri, path) !in s
    ensures r.Err? ==> r.error == IO
    ensures r.Ok? ==> r.value.1 == s[withPath(repoUri, path)].content
    ensures r.Ok? ==> r.value.0 == VersionedRook(repoId, Mock, repoUri, withPath(repoUri, path), path,
                                                 s[withPath(repoUri, path)].revision, s[withPath(repoUri, path)].mtime)
  {
    var url := withPath(repoUri, path);
    if url !in s then Err(IO)
    else Ok((VersionedRook(repoId, Mock, repoUri, url, path, s[url].revision, s[url].mtime), s[url].content))
  }

  /**
   * createBook (35-56): store the content under the rook's URL, replacing any
   * row there, and report the rook back with the caller's relative path.
   */
  function CreateBook(s: Store, repoId: int, vrook: VersionedRook, content: string, now: int): (r: (VersionedRook, Store))
    ensures r.0 == vrook.(repoId := repoId, repoType := Mock)
    ensures r.1 == s[vrook.uri := DbRepoBook(vrook.repoUri, vrook.uri, vrook.revision, vrook.mtime, content, now)]
  {
    var book := DbRepoBook(vrook.repoUri, vrook.uri, vrook.revision, vrook.mtime, content, now);
    (VersionedRook(repoId, Mock, book.repoUrl, book.url, vrook.repoRelativePath, book.revision, book.mtime), s[vrook.uri := book])
  }

  /** What createBook stores, retrieveBook gives back at the same place. */
  lemma CreateThenRetrieve(s: Store, repoId: int, vrook: VersionedRook, content: string, now: int,
                           withPath: (string, string) -> string)
    requires withPath(vrook.repoUri, vrook.repoRelativePath) == vrook.uri
    ensures var created := CreateBook(s, repoId, vrook, content, now);
      RetrieveBook(created.1, repoId, vrook.repoUri, vrook.repoRelativePath, withPath) == Ok((created.0, content))
  {
  }

  /** The revision renameBook gives a moved notebook. */
  function RenamedRevision(now: nat): (r: string)
    ensures StartsWith(r, "MockedRenamedRevision-")
    ensures |r| > |"MockedRenamedRevision-"|
  {
    "MockedRenamedRevision-" + NatToString(now)
  }

  /**
   * renameBook (58-77): IOException without a row at `from`; otherwise the
   * row moves to `to` with a fresh revision and mtime, keeping content and
   * repoUrl. The rook's relative path is the raw URI path, leading '/' kept.
   * The clock is read twice: `revisionMillis` names the revision and
   * `mtimeMillis` is the new mtime.
   *
   * The move is an update of the `from` row by its id, so it never removes
   * another row. A row already at `to` (other than `from` itself) clashes
   * with it on the URL, which identifies a row here as createBook's REPLACE
   * relies on; the update aborts with a runtime exception and nothing changes.
   */
  function RenameBook(s: Store, repoId: int, from: string, to: string, revisionMillis: nat, mtimeMillis: nat,
                      uriPath: string -> string): (r: Result<(VersionedRook, Store)>)
    ensures r.Err? <==> from !in s || (to in s && to != from)
    ensures r.Err? ==> r.error == (if from !in s then IO else Runtime)
    ensures r.Ok? ==> r.value.1.Keys == s.Keys - {from} + {to}
    ensures r.Ok? ==> var moved := r.value.1[to];
      && moved.url == to && moved.content == s[from].content && moved.repoUrl == s[from].repoUrl
      && StartsWith(moved.revision, "MockedRenamedRevision-") && moved.mtime == mtimeMillis
    ensures r.Ok? ==> forall u :: u in s && u != from ==> r.value.1[u] == s[u]
    ensures r.Ok? ==> r.value.0 == VersionedRook(repoId, Mock, s[from].repoUrl, to, uriPath(to), RenamedRevision(revisionMillis), mtimeMillis)
  {
    if from !in s then Err(IO)
    else if to in s && to != from then Err(Runtime)
    else
      var renamed := s[from].(url := to, revision := RenamedRevision(revisionMillis), mtime := mtimeMillis);
      Ok((VersionedRook(repoId, Mock, renamed.repoUrl, renamed.url, uriPath(renamed.url), renamed.revision, renamed.mtime),
          (s - {from})[to := renamed]))
  }

  /** Renaming onto another stored notebook's URL fails and leaves that notebook in place. */
  lemma RenameOntoStoredBookFails(s: Store, repoId: int, from: string, to: string, revisionMillis: nat, mtimeMillis: nat,
                                  uriPath: string -> string)
    requires from in s && to in s && from != to
    ensures RenameBook(s, repoId, from, to, revisionMillis, mtimeMillis, uriPath) == Err(Runtime)
  {
  }

  /**
   * Listing after a rename differs from the direct path: the rook renameBook
   * returns keeps the '/', the one getBooks lists for the same row drops it.
   */
  lemma RenamedRookPathKeepsSlash(s: Store, repoId: int, from: string, to: string, revisionMillis: nat, mtimeMillis: nat,
                                  uriPath: string -> string)
    requires from in s && (to !in s || to == from) && StartsWith(uriPath(to), "/")
    ensures var r := RenameBook(s, repoId, from, to, revisionMillis, mtimeMillis, uriPath).value;
      && RookOfRow(repoId, r.1[to], uriPath).repoRelativePath != r.0.repoRelativePath
      && "/" + RookOfRow(repoId, r.1[to], uriPath).repoRelativePath == r.0.repoRelativePath
  {
    var r := RenameBook(s, repoId, from, to, revisionMillis, mtimeMillis, uriPath).value;
    var listed := RookOfRow(repoId, r.1[to], uriPath).repoRelativePath;
    assert "/" + listed == uriPath(to);
    assert |listed| < |uriPath(to)|;
  }

  /** deleteBook (79-87): IOException when absent; otherwise one row deleted. */
  function DeleteBook(s: Store, uri: string): (r: Result<(int, Store)>)
    ensures r.Err? <==> uri !in s
    ensures r.Err? ==> r.error == IO
    ensures r.Ok? ==> r.value.0 == 1 && uri !in r.value.1 && r.value.1.Keys == s.Keys - {uri}
    ensures r.Ok? ==> forall u :: u in r.value.1 ==> r.value.1[u] == s[u]
  {
    if uri !in s then Err(IO) else Ok((1, s - {uri}))
  }

  /** Every operation keeps rows stored under their own URL. */
  lemma OperationsPreserveValid(s: Store, repoId: int, vrook: VersionedRook, content: string, now: nat, later: nat,
                                from: string, to: string, uriPath: string -> string)
    requires Valid(s)
    ensures Valid(CreateBook(s, repoId, vrook, content, now).1)
    ensures RenameBook(s, repoId, from, to, now, later, uriPath).Ok? ==> Valid(RenameBook(s, repoId, from, to, now, later, uriPath).value.1)
    ensures DeleteBook(s, from).Ok? ==> Valid(DeleteBook(s, from).value.1)
  {
  }
}

=== FILE: rook_dao.dfy ===
/**
 * RookDao.getOrInsert: the rooks table as a map from (repo id, rook URL id)
 * to the row stored under that pair. One row per pair is the table's unique
 * key; `nextId` is the next auto-increment row id.
 */
module RookDao {
  import opened Common

  datatype RookRow = RookRow(id: int, repoRelativePath: Option<string>)

  datatype RookTable = RookTable(rows: map<(int, int), RookRow>, nextId: int)

  /** Row ids are distinct and all below the auto-increment counter. */
  predicate Valid(t: RookTable) {
    && (forall k :: k in t.rows ==> t.rows[k].id < t.nextId)
    && (forall k1, k2 :: k1 in t.rows && k2 in t.rows && k1 != k2 ==> t.rows[k1].id != t.rows[k2].id)
  }

  /**
   * getOrInsert (RookDao.kt:12-22): an existing row with a path is returned
   * untouched; an existing row without one gets the given path under the same
   * id; otherwise a new row is inserted under a fresh id.
   */
  function GetOrInsert(t: RookTable, repoId: int, rookUrlId: int, path: Option<string>): (r: (int, RookTable))
    ensures (repoId, rookUrlId) in t.rows && t.rows[(repoId, rookUrlId)].repoRelativePath.Some? ==>
              r == (t.rows[(repoId, rookUrlId)].id, t)
    ensures (repoId, rookUrlId) in t.rows && t.rows[(repoId, rookUrlId)].repoRelativePath.None? ==>
              r.0 == t.rows[(repoId, rookUrlId)].id && r.1.nextId == t.nextId &&
              r.1.rows == t.rows[(repoId, rookUrlId) := RookRow(r.0, path)]
    ensures (repoId, rookUrlId) !in t.rows ==>
              r.0 == t.nextId && r.1.nextId == t.nextId + 1 &&
              r.1.rows == t.rows[(repoId, rookUrlId) := RookRow(t.nextId, path)]
  {
    var key := (repoId, rookUrlId);
    if key in t.rows then
      var row := t.rows[key];
      if row.repoRelativePath.Some? then (row.id, t)
      else (row.id, t.(rows := t.rows[key := RookRow(row.id, path)]))
    else
      (t.nextId, RookTable(t.rows[key := RookRow(t.nextId, path)], t.nextId + 1))
  }

  /**
   * getOrInsert never adds a second row for an existing pair, never rewrites a
   * row that already has a path, leaves every other pair alone, and returns
   * the id the table now holds for the pair.
   */
  lemma GetOrInsertKeepsRows(t: RookTable, repoId: int, rookUrlId: int, path: Option<string>)
    ensures var r := GetOrInsert(t, repoId, rookUrlId, path);
      && r.1.rows.Keys == t.rows.Keys + {(repoId, rookUrlId)}
      && r.1.rows[(repoId, rookUrlId)].id == r.0
      && (forall k :: k in t.rows && t.rows[k].repoRelativePath.Some? ==> r.1.rows[k] == t.rows[k])
      && (forall k :: k in t.rows && k != (repoId, rookUrlId) ==> r.1.rows[k] == t.rows[k])
  {
  }

  /** getOrInsert keeps the row ids distinct and below the counter. */
  lemma GetOrInsertPreservesValid(t: RookTable, repoId: int, rookUrlId: int, path: Option<string>)
    requires Valid(t)
    ensures Valid(GetOrInsert(t, repoId, rookUrlId, path).1)
  {
    var key := (repoId, rookUrlId);
    var t' := GetOrInsert(t, repoId, rookUrlId, path).1;
    forall k1, k2 | k1 in t'.rows && k2 in t'.rows && k1 != k2
      ensures t'.rows[k1].id != t'.rows[k2].id
    {
      if k1 == key && key !in t.rows {
        assert t.rows[k2].id < t.nextId;
      } else if k2 == key && key !in t.rows {
        assert t.rows[k1].id < t.nextId;
      } else if k1 == key {
        assert t'.rows[k1].id == t.rows[key].id;
      } else if k2 == key {
        assert t'.rows[k2].id == t.rows[key].id;
      }
    }
  }

  /** A second call with the same arguments returns the same id and writes nothing. */
  lemma GetOrInsertIdempotent(t: RookTable, repoId: int, rookUrlId: int, path: Option<string>)
    ensures var r := GetOrInsert(t, repoId, rookUrlId, path);
      GetOrInsert(r.1, repoId, rookUrlId, path) == r
  {
    var key := (repoId, rookUrlId);
    var r := GetOrInsert(t, repoId, rookUrlId, path);
    if path.None? && r.1.rows[key].repoRelativePath.None? {
      assert r.1.rows[key] == RookRow(r.0, path);
      assert r.1.rows[key := RookRow(r.0, path)] == r.1.rows;
    }
  }
}

=== FILE: sync_dispatch.dfy ===
/**
 * The repository-independent half of a sync (SyncUtils.kt): local and
 * remote notebooks are grouped by name, and each group's status is turned
 * into exactly one action -- nothing, unlink, load, or save (link first).
 */
module SyncDispatch {
  import opened Common
  import opened SyncTypes
  import BookName
  import GitSync

  /** A local notebook as the dispatcher reads it (db/entity/BookView). */
  datatype BookView = BookView(
    id: int,
    name: string,
    linkRepo: Option<Repo>,
    syncedTo: Option<VersionedRook>)

  /**
   * BookNamesake: a book name with its local notebook, the rooks found for it
   * and its computed status (null until updateStatus has run).
   */
  datatype BookNamesake = BookNamesake(
    name: string,
    book: Option<BookView>,
    rooks: seq<VersionedRook>,
    latestLinkedRook: Option<VersionedRook>,
    status: Option<BookSyncStatus>)

  // ---------------------------------------------------------------------
  // groupNotebooksByName (SyncUtils.kt:48-79)
  // ---------------------------------------------------------------------

  /** The book is linked to a repository of type GIT: the Git pass owns it. */
  predicate IsGitLinked(b: BookView) {
    b.linkRepo.Some? && b.linkRepo.value.repoType == Git
  }

  /** The local books handed to the grouping: every book not linked to a GIT repository, in order. */
  function LocalBooksToGroup(books: seq<BookView>): (r: seq<BookView>)
    ensures |r| <= |books|
    ensures forall b :: b in r <==> b in books && !IsGitLinked(b)
  {
    if |books| == 0 then []
    else
      var rest := LocalBooksToGroup(books[1..]);
      assert forall b :: b in books[1..] ==> b in books;
      assert forall b :: b in books ==> b == books[0] || b in books[1..];
      if IsGitLinked(books[0]) then rest else [books[0]] + rest
  }

  /** The filter keeps the relative order of the books it keeps. */
  lemma {:induction false} LocalBooksToGroupDistributes(a: seq<BookView>, b: seq<BookView>)
    ensures LocalBooksToGroup(a + b) == LocalBooksToGroup(a) + LocalBooksToGroup(b)
    decreases |a|
  {
    if |a| > 0 {
      var x, t := a[0], a[1..];
      var head, ft, fb := if IsGitLinked(x) then [] else [x], LocalBooksToGroup(t), LocalBooksToGroup(b);
      assert LocalBooksToGroup(a + b) == head + LocalBooksToGroup(t + b) by {
        assert a + b == [x] + (t + b);
        LocalBooksToGroupCons(x, t + b);
      }
      assert LocalBooksToGroup(a) == head + ft by {
        assert a == [x] + t;
        LocalBooksToGroupCons(x, t);
      }
      LocalBooksToGroupDistributes(t, b);
      assert head + (ft + fb) == (head + ft) + fb;
    } else {
      assert a + b == b;
    }
  }

  /** The filter decides the first book, then carries on with the rest. */
  lemma LocalBooksToGroupCons(x: BookView, t: seq<BookView>)
    ensures LocalBooksToGroup([x] + t) == (if IsGitLinked(x) then [] else [x]) + LocalBooksToGroup(t)
  {
    assert ([x] + t)[0] == x;
    assert ([x] + t)[1..] == t;
  }

  /** getVrooksFromRegularSyncRepos: the book lists of the regular repositories, concatenated in order. */
  function RegularRooks(lists: seq<seq<VersionedRook>>): (r: seq<VersionedRook>)
    ensures forall x :: x in r <==> exists i :: 0 <= i < |lists| && x in lists[i]
  {
    if |lists| == 0 then []
    else
      var rest := RegularRooks(lists[1..]);
      assert forall i :: 1 <= i < |lists| ==> lists[1..][i - 1] == lists[i];
      lists[0] + rest
  }

  /**
   * groupNotebooksByName. BookNamesake.getAll, createDummyBook and
   * BookNamesake.updateStatus are not part of this model: they are the
   * parameters `getAll`, `dummy` and `updateStatus`.
   */
  function GroupNotebooksByName(
    books: seq<BookView>, rookLists: seq<seq<VersionedRook>>, repoCount: nat,
    getAll: (seq<BookView>, seq<VersionedRook>) -> map<string, BookNamesake>,
    dummy: string -> BookView,
    updateStatus: (BookNamesake, nat) -> BookSyncStatus): (r: map<string, BookNamesake>)
    ensures r.Keys == getAll(LocalBooksToGroup(books), RegularRooks(rookLists)).Keys
    ensures forall n :: n in r ==> r[n].book.Some? && r[n].status.Some?
  {
    var grouped := getAll(LocalBooksToGroup(books), RegularRooks(rookLists));
    map n | n in grouped :: WithBookAndStatus(grouped[n], repoCount, dummy, updateStatus)
  }

  /** One iteration of the loop at SyncUtils.kt:70-76. */
  function WithBookAndStatus(ns: BookNamesake, repoCount: nat, dummy: string -> BookView,
                             updateStatus: (BookNamesake, nat) -> BookSyncStatus): (r: BookNamesake)
    ensures r.book == if ns.book.Some? then ns.book else Some(dummy(ns.name))
    ensures r == ns.(book := r.book, status := r.status)
    ensures r.status == Some(updateStatus(ns.(book := r.book), repoCount))
  {
    var withBook := if ns.book.None? then ns.(book := Some(dummy(ns.name))) else ns;
    withBook.(status := Some(updateStatus(withBook, repoCount)))
  }

  /** No GIT-linked local book reaches the grouping, and every other one does. */
  lemma GroupingSkipsGitBooks(books: seq<BookView>, b: BookView)
    ensures b in LocalBooksToGroup(books) <==> b in books && !IsGitLinked(b)
  {
  }

  /**
   * After grouping a namesake keeps its local book when it had one and is
   * given a dummy named after it otherwise; its rooks are untouched.
   */
  lemma GroupingKeepsOrCreatesBook(
    books: seq<BookView>, rookLists: seq<seq<VersionedRook>>, repoCount: nat,
    getAll: (seq<BookView>, seq<VersionedRook>) -> map<string, BookNamesake>,
    dummy: string -> BookView, updateStatus: (BookNamesake, nat) -> BookSyncStatus, n: string)
    requires n in getAll(LocalBooksToGroup(books), RegularRooks(rookLists))
    ensures var before := getAll(LocalBooksToGroup(books), RegularRooks(rookLists))[n];
            var after := GroupNotebooksByName(books, rookLists, repoCount, getAll, dummy, updateStatus)[n];
            && (before.book.Some? ==> after.book == before.book)
            && (before.book.None? ==> after.book == Some(dummy(before.name)))
            && after.rooks == before.rooks && after.latestLinkedRook == before.latestLinkedRook
  {
  }

  // ---------------------------------------------------------------------
  // syncNamesake (SyncUtils.kt:88-168)
  // ---------------------------------------------------------------------

  /** A side effect on the local store or a repository, in the order performed. */
  datatype Effect =
    | SetLink(bookId: int, link: Option<Repo>)
    | RemoveSyncedTo(bookId: int)
    | LoadFromRepo(rook: VersionedRook)
    | SaveToRepo(repo: Repo, path: string, bookId: int)

  /** The BookAction returned, with the argument passed to `status.msg(...)`, and the effects performed. */
  datatype Dispatch = Dispatch(action: ActionType, msgArg: Option<string>, effects: seq<Effect>)

  /** The twelve statuses the dispatcher reports as errors without touching anything (lines 100-111). */
  predicate IsReportedError(s: BookSyncStatus) {
    s in {BookWithoutLinkAndOneOrMoreRooksExist, DummyWithoutLinkAndMultipleRooks, NoBookMultipleRooks,
          OnlyBookWithoutLinkAndMultipleRepos, BookWithLinkAndRookExistsButLinkPointingToDifferentRook,
          ConflictBothBookAndRookModified, ConflictBookWithLinkAndRookButNeverSyncedBefore,
          ConflictLastSyncedRookAndLatestRookAreDifferent, RookAndVrookHaveDifferentRepos, OnlyDummy,
          ConflictStayingOnTemporaryBranch, BookWithPreviousErrorAndNoLink}
  }

  predicate LoadsFirstRook(s: BookSyncStatus) {
    s == NoBookOneRook || s == DummyWithoutLinkAndOneRook
  }

  predicate LoadsLatestLinkedRook(s: BookSyncStatus) {
    s == DummyWithLink || s == BookWithLinkAndRookModified
  }

  predicate SavesBook(s: BookSyncStatus) {
    s == OnlyBookWithoutLinkAndOneRepo || s == BookWithLinkLocalModified || s == OnlyBookWithLink
  }

  /** Statuses the `when` has a branch for. */
  predicate IsDispatched(s: BookSyncStatus) {
    s == NoChange || IsReportedError(s) || s == RookNoLongerExists
    || LoadsFirstRook(s) || LoadsLatestLinkedRook(s) || SavesBook(s)
  }

  predicate IsLoad(e: Effect) { e.LoadFromRepo? }
  predicate IsSave(e: Effect) { e.SaveToRepo? }

  /**
   * syncNamesake. `repos` is what getRepos() returns; `relativePath(repoUrl,
   * fileUri)` stands for BookName.getRepoRelativePath(Uri, Uri), which is not
   * part of this model. Ok(None) is the null action of a status the `when`
   * has no branch for; Err is the exception a `!!`, `rooks[0]` or
   * `iterator().next()` throws.
   */
  function SyncNamesake(ns: BookNamesake, repos: seq<Repo>, relativePath: (string, string) -> string)
    : (r: Result<Option<Dispatch>>)
    ensures ns.status.None? ==> r == Err(NullPointer)
    ensures ns.status.Some? && !IsDispatched(ns.status.value) ==> r == Ok(None)
    ensures r.Ok? && r.value.Some? ==> ns.status.Some? && IsDispatched(ns.status.value)
    ensures r.Ok? && r.value.Some? ==>
              (r.value.value.action == Error <==> IsReportedError(ns.status.value) || ns.status.value == RookNoLongerExists)
    ensures r.Ok? && r.value.Some? ==>
              (r.value.value.effects == [] <==> ns.status.value == NoChange || IsReportedError(ns.status.value))
    ensures r.Ok? && r.value.Some? ==>
              ((exists i :: 0 <= i < |r.value.value.effects| && IsLoad(r.value.value.effects[i]))
                 <==> LoadsFirstRook(ns.status.value) || LoadsLatestLinkedRook(ns.status.value))
    ensures r.Ok? && r.value.Some? ==>
              ((exists i :: 0 <= i < |r.value.value.effects| && IsSave(r.value.value.effects[i]))
                 <==> SavesBook(ns.status.value))
  {
    if ns.status.None? then Err(NullPointer)
    else
      var s := ns.status.value;
      if s == NoChange then Ok(Some(Dispatch(Info, None, [])))
      else if IsReportedError(s) then Ok(Some(Dispatch(Error, None, [])))
      else if s == RookNoLongerExists then
        if ns.book.None? then Err(NullPointer)
        else Ok(Some(Dispatch(Error, None, [SetLink(ns.book.value.id, None), RemoveSyncedTo(ns.book.value.id)])))
      else if LoadsFirstRook(s) then
        if |ns.rooks| == 0 then Err(NoSuchElement)
        else
          var d := Dispatch(Info, Some(ns.rooks[0].uri), [LoadFromRepo(ns.rooks[0])]);
          assert IsLoad(d.effects[0]);
          Ok(Some(d))
      else if LoadsLatestLinkedRook(s) then
        if ns.latestLinkedRook.None? then Err(NullPointer)
        else
          var d := Dispatch(Info, Some(ns.latestLinkedRook.value.uri), [LoadFromRepo(ns.latestLinkedRook.value)]);
          assert IsLoad(d.effects[0]);
          Ok(Some(d))
      else if s == OnlyBookWithoutLinkAndOneRepo then
        if |repos| == 0 then Err(NoSuchElement)
        else if ns.book.None? then Err(NullPointer)
        else
          var repo := repos[0];
          var path := BookName.RepoRelativePathFromName(ns.book.value.name);
          var d := Dispatch(Info, Some(repo.url), [SetLink(ns.book.value.id, Some(repo)), SaveToRepo(repo, path, ns.book.value.id)]);
          assert IsSave(d.effects[1]);
          Ok(Some(d))
      else if s == BookWithLinkLocalModified then
        if ns.book.None? || ns.book.value.linkRepo.None? || ns.book.value.syncedTo.None? then Err(NullPointer)
        else
          var repo := ns.book.value.linkRepo.value;
          var path := relativePath(repo.url, ns.book.value.syncedTo.value.uri);
          var d := Dispatch(Info, Some(repo.url), [SaveToRepo(repo, path, ns.book.value.id)]);
          assert IsSave(d.effects[0]);
          Ok(Some(d))
      else if s == OnlyBookWithLink then
        if ns.book.None? || ns.book.value.linkRepo.None? then Err(NullPointer)
        else
          var repo := ns.book.value.linkRepo.value;
          var path := BookName.RepoRelativePathFromName(ns.book.value.name);
          var d := Dispatch(Info, Some(repo.url), [SaveToRepo(repo, path, ns.book.value.id)]);
          assert IsSave(d.effects[0]);
          Ok(Some(d))
      else Ok(None)
  }

  /** NO_CHANGE: an INFO action and nothing else. */
  lemma NoChangeIsInfoOnly(ns: BookNamesake, repos: seq<Repo>, relativePath: (string, string) -> string)
    requires ns.status == Some(NoChange)
    ensures SyncNamesake(ns, repos, relativePath) == Ok(Some(Dispatch(Info, None, [])))
  {
  }

  /** Every reported error status is an ERROR action with no load, save or link change. */
  lemma ReportedErrorsTouchNothing(ns: BookNamesake, repos: seq<Repo>, relativePath: (string, string) -> string)
    requires ns.status.Some? && IsReportedError(ns.status.value)
    ensures SyncNamesake(ns, repos, relativePath) == Ok(Some(Dispatch(Error, None, [])))
  {
  }

  /** ROOK_NO_LONGER_EXISTS unlinks the book and forgets where it was synced to, then reports ERROR. */
  lemma VanishedRookUnlinks(ns: BookNamesake, repos: seq<Repo>, relativePath: (string, string) -> string)
    requires ns.status == Some(RookNoLongerExists) && ns.book.Some?
    ensures SyncNamesake(ns, repos, relativePath) ==
            Ok(Some(Dispatch(Error, None, [SetLink(ns.book.value.id, None), RemoveSyncedTo(ns.book.value.id)])))
  {
  }

  /** The two load cases read different rooks: the first one found, or the latest linked one. */
  lemma LoadsReadTheRightRook(ns: BookNamesake, repos: seq<Repo>, relativePath: (string, string) -> string)
    requires ns.status.Some?
    requires LoadsFirstRook(ns.status.value) ==> |ns.rooks| > 0
    requires LoadsLatestLinkedRook(ns.status.value) ==> ns.latestLinkedRook.Some?
    ensures LoadsFirstRook(ns.status.value) ==>
              SyncNamesake(ns, repos, relativePath) == Ok(Some(Dispatch(Info, Some(ns.rooks[0].uri), [LoadFromRepo(ns.rooks[0])])))
    ensures LoadsLatestLinkedRook(ns.status.value) ==>
              SyncNamesake(ns, repos, relativePath) ==
              Ok(Some(Dispatch(Info, Some(ns.latestLinkedRook.value.uri), [LoadFromRepo(ns.latestLinkedRook.value)])))
  {
  }

  /**
   * ONLY_BOOK_WITHOUT_LINK_AND_ONE_REPO links the book to the first
   * repository BEFORE saving it there as `name.org`.
   */
  lemma OneRepoLinksBeforeSaving(ns: BookNamesake, repos: seq<Repo>, relativePath: (string, string) -> string)
    requires ns.status == Some(OnlyBookWithoutLinkAndOneRepo) && ns.book.Some? && |repos| > 0
    ensures var r := SyncNamesake(ns, repos, relativePath);
            && r.Ok? && r.value.Some?
            && r.value.value.effects ==
               [SetLink(ns.book.value.id, Some(repos[0])),
                SaveToRepo(repos[0], ns.book.value.name + ".org", ns.book.value.id)]
  {
  }

  /** A locally modified linked book is saved to the path derived from where it was synced to. */
  lemma LocalModifiedSavesToSyncedPath(ns: BookNamesake, repos: seq<Repo>, relativePath: (string, string) -> string)
    requires ns.status == Some(BookWithLinkLocalModified)
    requires ns.book.Some? && ns.book.value.linkRepo.Some? && ns.book.value.syncedTo.Some?
    ensures var repo := ns.book.value.linkRepo.value;
            SyncNamesake(ns, repos, relativePath) ==
            Ok(Some(Dispatch(Info, Some(repo.url),
                             [SaveToRepo(repo, relativePath(repo.url, ns.book.value.syncedTo.value.uri), ns.book.value.id)])))
  {
  }

  /** Without a link, a locally modified or link-only book makes the dispatcher throw. */
  lemma SaveWithoutLinkThrows(ns: BookNamesake, repos: seq<Repo>, relativePath: (string, string) -> string)
    requires ns.status == Some(BookWithLinkLocalModified) || ns.status == Some(OnlyBookWithLink)
    requires ns.book.Some? && ns.book.value.linkRepo.None?
    ensures SyncNamesake(ns, repos, relativePath) == Err(NullPointer)
  {
  }

  /** The Git pass and the dispatcher differ on one status: a conflict is INFO there and ERROR here. */
  lemma ConflictBothIsErrorHereInfoInGit(ns: BookNamesake, repos: seq<Repo>, relativePath: (string, string) -> string,
                                         g: GitSync.Namesake)
    requires ns.status == Some(ConflictBothBookAndRookModified)
    requires g.status == ConflictBothBookAndRookModified && g.latestLinkedRook.Some?
    ensures SyncNamesake(ns, repos, relativePath).value.value.action == Error
    ensures GitSync.Persist(g).action == Info
  {
  }

  /** CONFLICT_PUSHED_TO_CONFLICT_BRANCH has no branch in the `when`: the action is null. */
  lemma ConflictPushedHasNoAction(ns: BookNamesake, repos: seq<Repo>, relativePath: (string, string) -> string)
    requires ns.status == Some(ConflictPushedToConflictBranch)
    ensures SyncNamesake(ns, repos, relativePath) == Ok(None)
  {
  }
}

=== FILE: sync_types.dfy ===
/**
 * Value types shared by the sync engine: the per-book sync status, the kind
 * of a book action, the repository types, remote notebook identities
 * (VersionedRook) and the overall sync states a worker run can end in.
 */
module SyncTypes {

  /**
   * BookSyncStatus. The enum declaration is not part of this model; these are
   * the constants referenced by GitRepo.java and SyncUtils.kt, one for one
   * (SCREAMING_CASE in the source, CamelCase here).
   */
  datatype BookSyncStatus =
    | NoChange
    | BookWithoutLinkAndOneOrMoreRooksExist
    | DummyWithoutLinkAndMultipleRooks
    | NoBookMultipleRooks
    | OnlyBookWithoutLinkAndMultipleRepos
    | BookWithLinkAndRookExistsButLinkPointingToDifferentRook
    | ConflictBothBookAndRookModified
    | ConflictBookWithLinkAndRookButNeverSyncedBefore
    | ConflictLastSyncedRookAndLatestRookAreDifferent
    | RookAndVrookHaveDifferentRepos
    | OnlyDummy
    | ConflictStayingOnTemporaryBranch
    | BookWithPreviousErrorAndNoLink
    | RookNoLongerExists
    | NoBookOneRook
    | DummyWithoutLinkAndOneRook
    | DummyWithLink
    | BookWithLinkAndRookModified
    | OnlyBookWithoutLinkAndOneRepo
    | BookWithLinkLocalModified
    | OnlyBookWithLink
    | ConflictPushedToConflictBranch

  /** BookAction.Type */
  datatype ActionType = Info | Error | Progress

  /** RepoType, as far as the modelled code names it. */
  datatype RepoType = Git | Mock | Webdav | OtherRepoType

  /** A remote notebook at a known revision (repos/VersionedRook). */
  datatype VersionedRook = VersionedRook(
    repoId: int,
    repoType: RepoType,
    repoUri: string,
    uri: string,
    repoRelativePath: string,
    revision: string,
    mtime: int)

  /** A configured repository (db/entity/Repo). */
  datatype Repo = Repo(id: int, repoType: RepoType, url: string)

  /** SyncState.Type, as far as the modelled code names it. */
  datatype SyncStateType =
    | Starting
    | AutoSyncNotStarted
    | FailedNoRepos
    | FailedNoConnection
    | FailedNoStoragePermission
    | FailedNoAlarmsPermission
    | FailedNoBooksFound
    | FailedException
    | Canceled
    | CollectingBooks
    | BooksCollected
    | BookStarted
    | BookEnded
    | Finished
    | FinishedWithConflicts
}

=== FILE: sync_worker.dfy ===
/**
 * SyncWorker: the precondition checks, the order of the two sync phases, the
 * per-notebook loop with its error isolation and cancellation, the failure
 * summary, and the mapping of the final state to the worker's result.
 *
 * Android services become inputs: the preferences, permissions and network
 * state are booleans in `Conditions`, `isStopped` is the index of the first
 * check that answers true, and what a phase produced (or threw) is a `Run`.
 */
module SyncWorker {
  import opened Common
  import opened SyncTypes
  import BookName
  import SyncDispatch

  /** An exception escaping a phase: coroutine cancellation or anything else. */
  datatype Thrown = Cancellation | Failure(kind: ErrorKind)

  /** What a phase produced: a value, or an exception. */
  datatype Run<+T> = Value(value: T) | Threw(thrown: Thrown)

  // ---------------------------------------------------------------------
  // checkConditions (SyncWorker.kt:141-200, 286-293)
  // ---------------------------------------------------------------------

  /**
   * The inputs checkConditions reads. `repoUris` are the URIs of all sync
   * repositories; `autoSyncSupported` and `connectionRequired` are what
   * RepoUtils answers for them; `reminders*` are the three reminder settings.
   */
  datatype Conditions = Conditions(
    autoSync: bool,
    repoUris: seq<string>,
    autoSyncSupported: bool,
    connectionRequired: bool,
    haveNetwork: bool,
    storageGranted: bool,
    sdkAtLeastS: bool,
    canScheduleExactAlarms: bool,
    remindersForDeadline: bool,
    remindersForScheduled: bool,
    remindersForEvents: bool)

  /** Some repository URI has the local-directory scheme. */
  predicate SomeDirectoryRepo(uris: seq<string>, directoryScheme: string) {
    exists i :: 0 <= i < |uris| && BookName.Scheme(uris[i]) == Some(directoryScheme)
  }

  /** reposRequireStoragePermission (286-293): stop at the first directory repository. */
  method ReposRequireStoragePermission(uris: seq<string>, directoryScheme: string) returns (r: bool)
    ensures r <==> SomeDirectoryRepo(uris, directoryScheme)
  {
    var i := 0;
    while i < |uris|
      invariant 0 <= i <= |uris|
      invariant forall k :: 0 <= k < i ==> BookName.Scheme(uris[k]) != Some(directoryScheme)
    {
      if BookName.Scheme(uris[i]) == Some(directoryScheme) {
        return true;
      }
      i := i + 1;
    }
    return false;
  }

  predicate AlarmsBlocked(c: Conditions) {
    c.sdkAtLeastS && !c.canScheduleExactAlarms &&
    (c.remindersForDeadline || c.remindersForScheduled || c.remindersForEvents)
  }

  /**
   * checkConditions: the first failing check in the source's order decides
   * the state; None lets the sync go ahead.
   */
  function CheckConditions(c: Conditions, directoryScheme: string): (r: Option<SyncStateType>)
    ensures r == Some(AutoSyncNotStarted) <==> c.autoSync && (|c.repoUris| == 0 || !c.autoSyncSupported)
    ensures r == Some(FailedNoRepos) <==> !c.autoSync && |c.repoUris| == 0
    ensures r == Some(FailedNoConnection) <==>
              |c.repoUris| > 0 && !(c.autoSync && !c.autoSyncSupported) && c.connectionRequired && !c.haveNetwork
    ensures r == Some(FailedNoStoragePermission) <==>
              |c.repoUris| > 0 && !(c.autoSync && !c.autoSyncSupported) && !(c.connectionRequired && !c.haveNetwork)
              && SomeDirectoryRepo(c.repoUris, directoryScheme) && !c.storageGranted
    ensures r == Some(FailedNoAlarmsPermission) <==>
              |c.repoUris| > 0 && !(c.autoSync && !c.autoSyncSupported) && !(c.connectionRequired && !c.haveNetwork)
              && !(SomeDirectoryRepo(c.repoUris, directoryScheme) && !c.storageGranted) && AlarmsBlocked(c)
    ensures r.Some? ==> r.value in {AutoSyncNotStarted, FailedNoRepos, FailedNoConnection, FailedNoStoragePermission, FailedNoAlarmsPermission}
  {
    if c.autoSync && (|c.repoUris| == 0 || !c.autoSyncSupported) then Some(AutoSyncNotStarted)
    else if |c.repoUris| == 0 then Some(FailedNoRepos)
    else if c.connectionRequired && !c.haveNetwork then Some(FailedNoConnection)
    else if SomeDirectoryRepo(c.repoUris, directoryScheme) && !c.storageGranted then Some(FailedNoStoragePermission)
    else if AlarmsBlocked(c) then Some(FailedNoAlarmsPermission)
    else None
  }

  /** With every check passing the sync goes ahead; storage is refused only for a directory repository. */
  lemma CheckConditionsPassesWhenAllowed(c: Conditions, directoryScheme: string)
    requires |c.repoUris| > 0 && (!c.autoSync || c.autoSyncSupported)
    requires !c.connectionRequired || c.haveNetwork
    requires c.storageGranted || !SomeDirectoryRepo(c.repoUris, directoryScheme)
    requires !AlarmsBlocked(c)
    ensures CheckConditions(c, directoryScheme).None?
  {
  }

  // ---------------------------------------------------------------------
  // tryDoWork and its phases (SyncWorker.kt:92-125, 202-210)
  // ---------------------------------------------------------------------

  /**
   * syncIntegrallySyncedRepos: run the repositories in order and stop at the
   * first that returns a state or throws. `runs[i]` is what repository i's
   * syncRepo does if it gets to run.
   */
  function SyncIntegrallySyncedRepos(runs: seq<Run<Option<SyncStateType>>>): (r: Run<Option<SyncStateType>>)
    ensures r == Value(None) <==> forall i :: 0 <= i < |runs| ==> runs[i] == Value(None)
    ensures r != Value(None) ==> exists i :: 0 <= i < |runs| && r == runs[i] && forall k :: 0 <= k < i ==> runs[k] == Value(None)
  {
    if |runs| == 0 then Value(None)
    else if runs[0] != Value(None) then runs[0]
    else
      var rest := SyncIntegrallySyncedRepos(runs[1..]);
      assert forall i :: 1 <= i < |runs| ==> runs[i] == runs[1..][i - 1];
      assert forall j :: (0 <= j < |runs[1..]| && rest == runs[1..][j] && (forall k :: 0 <= k < j ==> runs[1..][k] == Value(None))
        ==> rest == runs[j + 1] && forall k :: 0 <= k < j + 1 ==> runs[k] == Value(None));
      rest
  }

  /**
   * tryDoWork: the checks, then the integrally-synced repositories, then the
   * namesakes; the first state any of them returns ends the sync, and
   * FINISHED is reached only when none does. An exception propagates.
   */
  function TryDoWork(c: Conditions, directoryScheme: string, integral: seq<Run<Option<SyncStateType>>>,
                     namesakes: Run<Option<SyncStateType>>): (r: Run<SyncStateType>)
    ensures CheckConditions(c, directoryScheme).Some? ==> r == Value(CheckConditions(c, directoryScheme).value)
    ensures CheckConditions(c, directoryScheme).None? && SyncIntegrallySyncedRepos(integral).Threw? ==>
              r == Threw(SyncIntegrallySyncedRepos(integral).thrown)
    ensures CheckConditions(c, directoryScheme).None? && SyncIntegrallySyncedRepos(integral).Value?
            && SyncIntegrallySyncedRepos(integral).value.Some? ==>
              r == Value(SyncIntegrallySyncedRepos(integral).value.value)
    ensures CheckConditions(c, directoryScheme).None? && SyncIntegrallySyncedRepos(integral) == Value(None)
            && namesakes.Value? && namesakes.value.Some? ==>
              r == Value(namesakes.value.value)
    ensures CheckConditions(c, directoryScheme).None? && SyncIntegrallySyncedRepos(integral) == Value(None) && namesakes.Threw? ==>
              r == Threw(namesakes.thrown)
    ensures r == Value(Finished) <==>
              || CheckConditions(c, directoryScheme) == Some(Finished)
              || (CheckConditions(c, directoryScheme).None? && SyncIntegrallySyncedRepos(integral) == Value(Some(Finished)))
              || (CheckConditions(c, directoryScheme).None? && SyncIntegrallySyncedRepos(integral) == Value(None)
                  && (namesakes == Value(None) || namesakes == Value(Some(Finished))))
  {
    match CheckConditions(c, directoryScheme)
    case Some(s) => Value(s)
    case None =>
      match SyncIntegrallySyncedRepos(integral)
      case Threw(t) => Threw(t)
      case Value(Some(s)) => Value(s)
      case Value(None) =>
        match namesakes
        case Threw(t) => Threw(t)
        case Value(Some(s)) => Value(s)
        case Value(None) => Value(Finished)
  }

  /**
   * The phases read as one sequence: the checks, each integrally-synced
   * repository, then the namesakes. The first that throws or returns a state
   * decides; FINISHED when none does.
   */
  function FirstState(phases: seq<Run<Option<SyncStateType>>>): Run<SyncStateType> {
    if |phases| == 0 then Value(Finished)
    else match phases[0]
      case Threw(t) => Threw(t)
      case Value(Some(s)) => Value(s)
      case Value(None) => FirstState(phases[1..])
  }

  /** Phases after a prefix that decided nothing are read on; after a decided prefix they are never read. */
  lemma {:induction false} FirstStateAppend(a: seq<Run<Option<SyncStateType>>>, b: seq<Run<Option<SyncStateType>>>)
    ensures SyncIntegrallySyncedRepos(a) == Value(None) ==> FirstState(a + b) == FirstState(b)
    ensures SyncIntegrallySyncedRepos(a) != Value(None) ==> FirstState(a + b) == FirstState([SyncIntegrallySyncedRepos(a)])
  {
    if |a| == 0 {
      assert a + b == b;
    } else {
      assert (a + b)[0] == a[0];
      assert (a + b)[1..] == a[1..] + b;
      assert [a[0]][1..] == [];
      FirstStateAppend(a[1..], b);
    }
  }

  /** tryDoWork is the first decided phase of checks, integrally-synced repositories and namesakes. */
  lemma TryDoWorkIsFirstState(c: Conditions, directoryScheme: string, integral: seq<Run<Option<SyncStateType>>>,
                              namesakes: Run<Option<SyncStateType>>)
    ensures TryDoWork(c, directoryScheme, integral, namesakes)
         == FirstState([Value(CheckConditions(c, directoryScheme))] + integral + [namesakes])
  {
    var all := [Value(CheckConditions(c, directoryScheme))] + integral + [namesakes];
    assert all[1..] == integral + [namesakes];
    assert [namesakes][1..] == [];
    FirstStateAppend(integral, [namesakes]);
  }

  /**
   * Once an integrally-synced repository returns a state, the namesake phase
   * has no influence on the outcome.
   */
  lemma IntegralStateShortCircuits(c: Conditions, directoryScheme: string, integral: seq<Run<Option<SyncStateType>>>,
                                   n1: Run<Option<SyncStateType>>, n2: Run<Option<SyncStateType>>)
    requires SyncIntegrallySyncedRepos(integral) != Value(None)
    ensures TryDoWork(c, directoryScheme, integral, n1) == TryDoWork(c, directoryScheme, integral, n2)
  {
  }

  /** With all checks passed and nothing returned by either phase the sync is FINISHED. */
  lemma QuietSyncFinishes(c: Conditions, directoryScheme: string, integral: seq<Run<Option<SyncStateType>>>)
    requires CheckConditions(c, directoryScheme).None?
    requires forall i :: 0 <= i < |integral| ==> integral[i] == Value(None)
    ensures TryDoWork(c, directoryScheme, integral, Value(None)) == Value(Finished)
  {
  }

  // ---------------------------------------------------------------------
  // syncNamesakes (SyncWorker.kt:212-283)
  // ---------------------------------------------------------------------

  /** The last action a namesake's book is left with by the loop. */
  datatype Mark =
    | MarkedCanceled                                     // INFO "canceled"
    | Synced(dispatch: Option<SyncDispatch.Dispatch>)    // syncNamesake's action
    | MarkedError(kind: ErrorKind)                       // ERROR with the exception's message

  /**
   * The `k`-th isStopped query answers true: `stopAt` is the index of the
   * first query that does (None when the worker is never stopped), and a
   * stopped worker stays stopped.
   */
  predicate StoppedAt(stopAt: Option<nat>, k: nat) {
    stopAt.Some? && k >= stopAt.value
  }

  /**
   * The mark of the namesake whose stop query is the `k`-th: canceled if
   * stopped, otherwise the dispatcher's action, or ERROR if it threw.
   */
  function MarkOf(ns: SyncDispatch.BookNamesake, k: nat, stopAt: Option<nat>, repos: seq<Repo>,
                  relativePath: (string, string) -> string): (r: Mark)
    ensures StoppedAt(stopAt, k) <==> r == MarkedCanceled
    ensures r.MarkedError? <==> !StoppedAt(stopAt, k) && SyncDispatch.SyncNamesake(ns, repos, relativePath).Err?
  {
    if StoppedAt(stopAt, k) then MarkedCanceled
    else match SyncDispatch.SyncNamesake(ns, repos, relativePath)
      case Ok(d) => Synced(d)
      case Err(e) => MarkedError(e)
  }

  /**
   * syncNamesakes. `nonIntegralRepos` counts the repositories synced by
   * namesake; `grouped` is what groupAllNotebooksByName returned, in the map's
   * iteration order. The isStopped queries are numbered 0 (after collecting),
   * 1 to n (one per namesake) and n + 1 (after the loop). Returns the state
   * (None to go on) and the mark each namesake's book is left with.
   */
  method SyncNamesakes(nonIntegralRepos: nat, grouped: seq<SyncDispatch.BookNamesake>, stopAt: Option<nat>,
                       repos: seq<Repo>, relativePath: (string, string) -> string)
    returns (state: Option<SyncStateType>, marks: seq<Mark>)
    ensures nonIntegralRepos == 0 ==> state.None? && marks == []
    ensures nonIntegralRepos > 0 && StoppedAt(stopAt, 0) ==> state == Some(Canceled) && marks == []
    ensures nonIntegralRepos > 0 && !StoppedAt(stopAt, 0) && |grouped| == 0 ==> state == Some(FailedNoBooksFound) && marks == []
    ensures nonIntegralRepos > 0 && !StoppedAt(stopAt, 0) && |grouped| > 0 ==>
              && |marks| == |grouped|
              && (forall i :: 0 <= i < |grouped| ==> marks[i] == MarkOf(grouped[i], i + 1, stopAt, repos, relativePath))
              && (forall i, j :: 0 <= i <= j < |marks| && marks[i] == MarkedCanceled ==> marks[j] == MarkedCanceled)
              && (forall i :: 0 <= i < |marks| ==>
                    (marks[i].MarkedError? <==> !StoppedAt(stopAt, i + 1) && SyncDispatch.SyncNamesake(grouped[i], repos, relativePath).Err?))
              && (state == Some(Canceled) <==> StoppedAt(stopAt, |grouped| + 1))
              && (state.None? <==> !StoppedAt(stopAt, |grouped| + 1))
  {
    if nonIntegralRepos == 0 {
      return None, [];
    }
    if StoppedAt(stopAt, 0) {
      return Some(Canceled), [];
    }
    if |grouped| == 0 {
      return Some(FailedNoBooksFound), [];
    }
    marks := [];
    var i := 0;
    while i < |grouped|
      invariant 0 <= i <= |grouped|
      invariant |marks| == i
      invariant forall k :: 0 <= k < i ==> marks[k] == MarkOf(grouped[k], k + 1, stopAt, repos, relativePath)
    {
      // The stop query for this namesake, then syncNamesake with its exception caught.
      marks := marks + [MarkOf(grouped[i], i + 1, stopAt, repos, relativePath)];
      i := i + 1;
    }
    if StoppedAt(stopAt, |grouped| + 1) {
      state := Some(Canceled);
    } else {
      state := None;
    }
  }

  /** Once one namesake is marked canceled, every later one is too. */
  lemma CanceledIsSticky(grouped: seq<SyncDispatch.BookNamesake>, stopAt: Option<nat>, repos: seq<Repo>,
                         relativePath: (string, string) -> string, i: nat, j: nat)
    requires i <= j < |grouped|
    requires MarkOf(grouped[i], i + 1, stopAt, repos, relativePath) == MarkedCanceled
    ensures MarkOf(grouped[j], j + 1, stopAt, repos, relativePath) == MarkedCanceled
  {
  }

  /**
   * A namesake whose dispatch throws is the only one marked ERROR by that
   * throw: the mark of every other namesake does not depend on it.
   */
  lemma FailureIsIsolated(grouped: seq<SyncDispatch.BookNamesake>, j: nat, replacement: SyncDispatch.BookNamesake,
                          stopAt: Option<nat>, repos: seq<Repo>, relativePath: (string, string) -> string, i: nat)
    requires j < |grouped| && i < |grouped| && i != j
    ensures MarkOf(grouped[j := replacement][i], i + 1, stopAt, repos, relativePath)
         == MarkOf(grouped[i], i + 1, stopAt, repos, relativePath)
  {
  }

  // ---------------------------------------------------------------------
  // messageIfBooksFailed (SyncWorker.kt:127-139)
  // ---------------------------------------------------------------------

  /** Kotlin's Char.isWhitespace on the JVM: Java whitespace or a Unicode space separator. */
  predicate IsWhitespace(c: char) {
    var n := c as int;
    || n == 0x20 || 0x09 <= n <= 0x0D || 0x1C <= n <= 0x1F
    || n == 0xA0 || n == 0x1680 || 0x2000 <= n <= 0x200A
    || n == 0x2028 || n == 0x2029 || n == 0x202F || n == 0x205F || n == 0x3000
  }

  predicate AllWhitespace(s: string) {
    forall i :: 0 <= i < |s| ==> IsWhitespace(s[i])
  }

  /** Kotlin's String.trim(): drop leading and trailing whitespace. */
  function Trim(s: string): (r: string)
    ensures |r| == 0 <==> AllWhitespace(s)
    ensures |r| > 0 ==> !IsWhitespace(r[0]) && !IsWhitespace(r[|r| - 1])
  {
    var st := TrimStart(s);
    var r := TrimEnd(st);
    assert |r| == 0 ==> AllWhitespace(s) by {
      if |r| == 0 {
        assert |st| == 0;
        assert s[..|s|] == s;
      }
    }
    r
  }

  /** Trimming keeps one contiguous piece of the text and drops only whitespace around it. */
  lemma TrimKeepsInterior(s: string) returns (i: nat, j: nat)
    ensures i <= j <= |s| && Trim(s) == s[i..j]
    ensures AllWhitespace(s[..i]) && AllWhitespace(s[j..])
  {
    var st := TrimStart(s);
    var r := TrimEnd(st);
    i := |s| - |st|;
    j := i + |r|;
    assert r == st[..|r|];
    assert s[j..] == st[|r|..];
  }

  function TrimStart(s: string): (r: string)
    ensures |r| <= |s| && r == s[|s| - |r|..] && AllWhitespace(s[..|s| - |r|])
    ensures |r| > 0 ==> !IsWhitespace(r[0])
  {
    if |s| > 0 && IsWhitespace(s[0]) then
      var rest := TrimStart(s[1..]);
      assert s[..|s| - |rest|] == [s[0]] + s[1..][..|s[1..]| - |rest|];
      rest
    else s
  }

  function TrimEnd(s: string): (r: string)
    ensures |r| <= |s| && r == s[..|r|] && AllWhitespace(s[|r|..])
    ensures |r| > 0 ==> !IsWhitespace(r[|r| - 1])
  {
    if |s| > 0 && IsWhitespace(s[|s| - 1]) then
      var rest := TrimEnd(s[..|s| - 1]);
      assert s[|rest|..] == s[..|s| - 1][|rest|..] + [s[|s| - 1]];
      rest
    else s
  }

  /** A book with an error: its name and, if it has one, its last action's message. */
  datatype FailedBook = FailedBook(name: string, lastActionMessage: Option<string>)

  /** The line one book contributes: `name: message` and a newline, or nothing without a last action. */
  function FailureLine(b: FailedBook): string {
    match b.lastActionMessage
    case None => ""
    case Some(m) => b.name + ": " + m + "\n"
  }

  /** The lines messageIfBooksFailed builds, one `name: message` per book with a last action. */
  function FailureLines(books: seq<FailedBook>): (r: string)
    ensures (forall i :: 0 <= i < |books| ==> books[i].lastActionMessage.None?) ==> r == ""
  {
    if |books| == 0 then ""
    else FailureLine(books[0]) + FailureLines(books[1..])
  }

  /** The lines of two lists of books are the lines of each, in order. */
  lemma {:induction false} FailureLinesAppend(a: seq<FailedBook>, b: seq<FailedBook>)
    ensures FailureLines(a + b) == FailureLines(a) + FailureLines(b)
  {
    if |a| == 0 {
      assert a + b == b;
    } else {
      assert (a + b)[0] == a[0];
      assert (a + b)[1..] == a[1..] + b;
      FailureLinesAppend(a[1..], b);
    }
  }

  /**
   * Each book's line sits between the lines of the books before it and
   * those after it: `name: message` for a book with a last action, nothing
   * for one without.
   */
  lemma FailureLinesSplit(books: seq<FailedBook>, i: nat)
    requires i < |books|
    ensures FailureLines(books) == FailureLines(books[..i]) + FailureLine(books[i]) + FailureLines(books[i + 1..])
    ensures books[i].lastActionMessage.None? ==> FailureLine(books[i]) == ""
    ensures books[i].lastActionMessage.Some? ==>
              FailureLine(books[i]) == books[i].name + ": " + books[i].lastActionMessage.value + "\n"
  {
    var rest := books[i..];
    assert books == books[..i] + rest;
    FailureLinesAppend(books[..i], rest);
    assert rest[0] == books[i] && rest[1..] == books[i + 1..];
    assert FailureLines(rest) == FailureLine(books[i]) + FailureLines(books[i + 1..]);
  }

  /** messageIfBooksFailed: the trimmed lines, or None when nothing is left. */
  function MessageIfBooksFailed(books: seq<FailedBook>): (r: Option<string>)
    ensures r.None? <==> AllWhitespace(FailureLines(books))
    ensures r.Some? ==> |r.value| > 0 && !IsWhitespace(r.value[0])
    ensures r.Some? ==> r.value == Trim(FailureLines(books))
  {
    var t := Trim(FailureLines(books));
    if |t| == 0 then None else Some(t)
  }

  /**
   * There is a message exactly when some failed book has a last action: each
   * such line carries a ':' that trimming never removes.
   */
  lemma {:induction false} MessageIffSomeAction(books: seq<FailedBook>)
    ensures MessageIfBooksFailed(books).Some? <==> exists i :: 0 <= i < |books| && books[i].lastActionMessage.Some?
  {
    if exists i :: 0 <= i < |books| && books[i].lastActionMessage.Some? {
      var s := FailureLines(books);
      var k := ColonInLines(books);
      assert !IsWhitespace(s[k]);
    }
  }

  /** Some line carries a ':' when some book has a last action. */
  lemma {:induction false} ColonInLines(books: seq<FailedBook>) returns (k: nat)
    requires exists i :: 0 <= i < |books| && books[i].lastActionMessage.Some?
    ensures k < |FailureLines(books)| && FailureLines(books)[k] == ':'
  {
    var line := FailureLine(books[0]);
    assert FailureLines(books) == line + FailureLines(books[1..]);
    if books[0].lastActionMessage.Some? {
      k := |books[0].name|;
      assert line[k] == ':';
    } else {
      var i :| 0 <= i < |books| && books[i].lastActionMessage.Some?;
      assert books[1..][i - 1] == books[i];
      var k' := ColonInLines(books[1..]);
      k := |line| + k';
    }
  }

  /**
   * A single failed book: the message is `name: message`, its trailing
   * newline trimmed away.
   */
  lemma SingleFailureMessage(name: string, m: string)
    requires |name| > 0 && !IsWhitespace(name[0])
    requires |m| > 0 && !IsWhitespace(m[|m| - 1])
    ensures MessageIfBooksFailed([FailedBook(name, Some(m))]) == Some(name + ": " + m)
  {
    var books := [FailedBook(name, Some(m))];
    var body := name + ": " + m;
    assert FailureLines(books) == body + "\n" by {
      assert books[1..] == [];
    }
    assert body[0] == name[0] && body[|body| - 1] == m[|m| - 1];
    TrimDropsFinalNewline(body);
  }

  /** A text with no whitespace at either end, plus a newline, trims back to the text. */
  lemma TrimDropsFinalNewline(body: string)
    requires |body| > 0 && !IsWhitespace(body[0]) && !IsWhitespace(body[|body| - 1])
    ensures Trim(body + "\n") == body
  {
    var line := body + "\n";
    assert line[0] == body[0];
    assert TrimStart(line) == line;
    assert line[|line| - 1] == '\n' && line[..|line| - 1] == body;
    assert TrimEnd(line) == TrimEnd(body);
  }

  // ---------------------------------------------------------------------
  // doWork (SyncWorker.kt:44-70)
  // ---------------------------------------------------------------------

  /**
   * The worker's result: success or failure, the state it carries, and
   * whether all books were marked canceled.
   */
  datatype WorkResult = WorkResult(success: bool, state: SyncStateType, booksCanceled: bool)

  /**
   * doWork: cancellation becomes CANCELED (and marks every book canceled),
   * any other exception FAILED_EXCEPTION; the result is a failure exactly when
   * the state is one. SyncState.isFailure is not part of this model, so it is
   * the parameter `isFailure`.
   */
  function DoWork(run: Run<SyncStateType>, isFailure: SyncStateType -> bool): (r: WorkResult)
    ensures r.success <==> !isFailure(r.state)
    ensures run.Value? ==> r.state == run.value && !r.booksCanceled
    ensures run == Threw(Cancellation) ==> r.state == Canceled && r.booksCanceled
    ensures run.Threw? && run.thrown.Failure? ==> r.state == FailedException && !r.booksCanceled
  {
    var state := match run
      case Value(s) => s
      case Threw(Cancellation) => Canceled
      case Threw(Failure(_)) => FailedException;
    WorkResult(!isFailure(state), state, run == Threw(Cancellation))
  }
}

=== FILE: webdav.dfy ===
/**
 * WebdavRepo: the URL helpers, the directory hierarchy it creates before an
 * upload, the guards of storeBook and renameBook, and the getBooks filter.
 *
 * The WebDAV server is a set of existing URLs; Uri encoding and building are
 * inputs (`encoded`, `fileUrl`) because android.net.Uri is not part of this
 * model.
 */
module Webdav {
  import opened Common
  import BookName

  // ---------------------------------------------------------------------
  // toUrl (WebdavRepo.kt:282-284)
  // ---------------------------------------------------------------------

  /**
   * `replace("^(?:web)?dav(s?://)".toRegex(), "http$1")`: a leading dav://,
   * davs://, webdav:// or webdavs:// becomes http:// or https://.
   */
  function ToUrl(uri: string): (r: string)
    ensures StartsWith(uri, "dav://") ==> r == "http://" + uri[6..]
    ensures StartsWith(uri, "davs://") ==> r == "https://" + uri[7..]
    ensures StartsWith(uri, "webdav://") ==> r == "http://" + uri[9..]
    ensures StartsWith(uri, "webdavs://") ==> r == "https://" + uri[10..]
    ensures !HasDavScheme(uri) ==> r == uri
  {
    DavPrefixesDisjoint(uri);
    if StartsWith(uri, "dav://") then "http://" + uri[6..]
    else if StartsWith(uri, "davs://") then "https://" + uri[7..]
    else if StartsWith(uri, "webdav://") then "http://" + uri[9..]
    else if StartsWith(uri, "webdavs://") then "https://" + uri[10..]
    else uri
  }

  predicate HasDavScheme(uri: string) {
    StartsWith(uri, "dav://") || StartsWith(uri, "davs://") || StartsWith(uri, "webdav://") || StartsWith(uri, "webdavs://")
  }

  /** At most one of the four dav prefixes starts a string. */
  lemma DavPrefixesDisjoint(uri: string)
    ensures StartsWith(uri, "dav://") ==> !StartsWith(uri, "davs://")
    ensures StartsWith(uri, "dav://") || StartsWith(uri, "davs://") ==> !StartsWith(uri, "webdav://") && !StartsWith(uri, "webdavs://")
    ensures StartsWith(uri, "webdav://") ==> !StartsWith(uri, "webdavs://")
  {
    if StartsWith(uri, "dav://") {
      assert uri[3] == uri[..6][3] == ':';
      assert uri[0] == 'd';
    }
    if StartsWith(uri, "davs://") {
      assert uri[0] == uri[..7][0] == 'd';
    }
    if StartsWith(uri, "webdav://") {
      assert uri[6] == uri[..9][6] == ':';
    }
    if StartsWith(uri, "webdavs://") {
      assert uri[6] == uri[..10][6] == 's';
      assert uri[0] == uri[..10][0] == 'w';
    }
  }

  /** An http(s) URL has no dav scheme, so converting twice is converting once. */
  lemma ToUrlIdempotent(uri: string)
    ensures !HasDavScheme(ToUrl(uri))
    ensures ToUrl(ToUrl(uri)) == ToUrl(uri)
  {
    var r := ToUrl(uri);
    if HasDavScheme(uri) {
      assert r[0] == 'h';
      assert r[..4] == "http";
    }
  }

  /** The scheme is the only part toUrl touches: the rest of the URL survives. */
  lemma ToUrlKeepsRest(rest: string)
    ensures ToUrl("webdavs://" + rest) == "https://" + rest
    ensures ToUrl("davs://" + rest) == "https://" + rest
    ensures ToUrl("webdav://" + rest) == "http://" + rest
    ensures ToUrl("dav://" + rest) == "http://" + rest
  {
    assert ("webdavs://" + rest)[..10] == "webdavs://" && ("webdavs://" + rest)[10..] == rest;
    assert ("davs://" + rest)[..7] == "davs://" && ("davs://" + rest)[7..] == rest;
    assert ("webdav://" + rest)[..9] == "webdav://" && ("webdav://" + rest)[9..] == rest;
    assert ("dav://" + rest)[..6] == "dav://" && ("dav://" + rest)[6..] == rest;
  }

  // ---------------------------------------------------------------------
  // Relative paths (WebdavRepo.kt:273-280)
  // ---------------------------------------------------------------------

  /**
   * The intended reading of `replace(Regex("^$uri/"), "")`: drop one leading
   * `repoUri + "/"`, leave any other URL alone.
   */
  function RelativePath(repoUri: string, fullUrl: string): (r: string)
    ensures StartsWith(fullUrl, repoUri + "/") ==> repoUri + "/" + r == fullUrl
    ensures !StartsWith(fullUrl, repoUri + "/") ==> r == fullUrl
  {
    var prefix := repoUri + "/";
    if StartsWith(fullUrl, prefix) then fullUrl[|prefix|..] else fullUrl
  }

  /** Every URL under the repository has its relative path recovered exactly. */
  lemma RelativePathOfChild(repoUri: string, path: string)
    ensures RelativePath(repoUri, repoUri + "/" + path) == path
  {
    assert (repoUri + "/" + path)[..|repoUri + "/"|] == repoUri + "/";
  }

  /**
   * Characters with a regex meaning other than '.', '(' and ')'. The
   * as-written helper is modelled only for repository URIs free of them.
   */
  predicate IsOtherRegexMeta(c: char) {
    c == '\\' || c == '^' || c == '$' || c == '|' || c == '?' || c == '*' || c == '+'
    || c == '[' || c == ']' || c == '{' || c == '}'
  }

  /** Parentheses are balanced: never more closing than opening, equal at the end. */
  predicate Balanced(s: string) {
    BalancedFrom(s, 0)
  }

  /** Balanced once `depth` groups are already open. */
  predicate BalancedFrom(s: string, depth: nat) {
    if |s| == 0 then depth == 0
    else if s[0] == '(' then BalancedFrom(s[1..], depth + 1)
    else if s[0] == ')' then depth > 0 && BalancedFrom(s[1..], depth - 1)
    else BalancedFrom(s[1..], depth)
  }

  predicate ParenFree(s: string) {
    forall i :: 0 <= i < |s| ==> s[i] != '(' && s[i] != ')'
  }

  /** The pattern's characters once its groups are dissolved. */
  function DropParens(s: string): (r: string)
    ensures |r| <= |s|
    ensures forall c :: c in r <==> c in s && c != '(' && c != ')'
  {
    if |s| == 0 then []
    else (if s[0] == '(' || s[0] == ')' then [] else [s[0]]) + DropParens(s[1..])
  }

  /** A regex without quantifiers and alternation: '.' matches any character but a line terminator. */
  predicate PlainPatternMatchesAt(p: string, s: string)
  {
    |p| <= |s| && forall i :: 0 <= i < |p| ==> (if p[i] == '.' then !BookName.IsLineTerminator(s[i]) else s[i] == p[i])
  }

  /**
   * `fullUrl.replace(Regex("^$repoUri/"), "")` as written: the repository URI
   * is read as a regex. With no metacharacter beyond '.', '(' and ')', a group
   * only groups, so the pattern matches a prefix exactly when the URI with its
   * parentheses dropped matches with '.' as a wildcard; unbalanced parentheses
   * make Regex throw PatternSyntaxException (an IllegalArgumentException).
   */
  function RelativePathAsWritten(repoUri: string, fullUrl: string): (r: Result<string>)
    requires forall i :: 0 <= i < |repoUri| ==> !IsOtherRegexMeta(repoUri[i])
    ensures r.Err? <==> !Balanced(repoUri)
    ensures r.Err? ==> r.error == IllegalArgument
    ensures r.Ok? && PlainPatternMatchesAt(DropParens(repoUri) + "/", fullUrl) ==>
              |r.value| < |fullUrl| && fullUrl[|fullUrl| - |r.value|..] == r.value
    ensures r.Ok? && PlainPatternMatchesAt(DropParens(repoUri) + "/", fullUrl) ==>
              r.value == fullUrl[|DropParens(repoUri)| + 1..]
    ensures r.Ok? && !PlainPatternMatchesAt(DropParens(repoUri) + "/", fullUrl) ==> r.value == fullUrl
  {
    if !Balanced(repoUri) then Err(IllegalArgument)
    else
      var p := DropParens(repoUri) + "/";
      if PlainPatternMatchesAt(p, fullUrl) then Ok(fullUrl[|p|..]) else Ok(fullUrl)
  }

  /**
   * A '.' in the repository URI matches any character, so a URL that is not
   * under the repository loses a prefix anyway.
   */
  lemma DotMatchesOtherDirectory()
    ensures RelativePathAsWritten("a.b", "aXb/c.org") == Ok("c.org")
    ensures RelativePath("a.b", "aXb/c.org") == "aXb/c.org"
  {
    var uri := "a.b";
    ParenFreeSkipped(uri, "", 0);
    assert uri + "" == uri;
    DropParensOfParenFree(uri);
    var url := "aXb/c.org";
    assert PlainPatternMatchesAt(uri + "/", url) by {
      assert uri + "/" == "a.b/";
      assert url[0] == 'a' && url[1] == 'X' && url[2] == 'b' && url[3] == '/';
    }
    assert url[|uri + "/"|..] == "c.org";
    assert !StartsWith(url, uri + "/") by { assert url[1] != (uri + "/")[1]; }
  }

  /**
   * A group in the repository URI matches its content without the
   * parentheses, so a URL genuinely under the repository keeps its full form.
   */
  lemma GroupMissesOwnChild()
    ensures RelativePathAsWritten("n(1)", "n(1)/c.org") == Ok("n(1)/c.org")
    ensures RelativePath("n(1)", "n(1)/c.org") == "c.org"
  {
    var uri := "n(1)";
    var url := "n(1)/c.org";
    assert uri == "n" + "(1)";
    ParenFreeSkipped("n", "(1)", 0);
    assert "(1)"[1..] == "1)" && "1)"[1..] == ")" && ")"[1..] == "";
    assert Balanced(uri);
    assert DropParens(uri) == "n1" by {
      DropParensAppend("n", "(1)");
      assert "(1)"[1..] == "1)" && "1)"[1..] == ")" && ")"[1..] == "";
    }
    assert !PlainPatternMatchesAt("n1/", url) by { assert url[1] != '1'; }
    assert url[..|uri + "/"|] == uri + "/";
    assert url[|uri + "/"|..] == "c.org";
  }

  /** A URI with neither parentheses nor dots reads the same as a regex and as text. */
  lemma AsWrittenAgreesWithoutMetacharacters(repoUri: string, fullUrl: string)
    requires forall i :: 0 <= i < |repoUri| ==> !IsOtherRegexMeta(repoUri[i]) && repoUri[i] != '.' && repoUri[i] != '(' && repoUri[i] != ')'
    ensures RelativePathAsWritten(repoUri, fullUrl) == Ok(RelativePath(repoUri, fullUrl))
  {
    ParenFreeSkipped(repoUri, "", 0);
    assert repoUri + "" == repoUri;
    DropParensOfParenFree(repoUri);
    var p := repoUri + "/";
    if PlainPatternMatchesAt(p, fullUrl) {
      assert fullUrl[..|p|] == p;
    }
  }

  /** Characters without parentheses do not change the depth. */
  lemma {:induction false} ParenFreeSkipped(a: string, b: string, depth: nat)
    requires ParenFree(a)
    ensures BalancedFrom(a + b, depth) == BalancedFrom(b, depth)
    decreases |a|
  {
    if |a| > 0 {
      assert (a + b)[0] == a[0];
      assert (a + b)[1..] == a[1..] + b;
      ParenFreeSkipped(a[1..], b, depth);
    } else {
      assert a + b == b;
    }
  }

  lemma {:induction false} DropParensOfParenFree(s: string)
    requires ParenFree(s)
    ensures DropParens(s) == s
    decreases |s|
  {
    if |s| > 0 {
      DropParensOfParenFree(s[1..]);
      assert [s[0]] + s[1..] == s;
    }
  }

  lemma {:induction false} DropParensAppend(a: string, b: string)
    ensures DropParens(a + b) == DropParens(a) + DropParens(b)
    decreases |a|
  {
    if |a| > 0 {
      assert (a + b)[0] == a[0];
      assert (a + b)[1..] == a[1..] + b;
      DropParensAppend(a[1..], b);
    } else {
      assert a + b == b;
    }
  }

  // ---------------------------------------------------------------------
  // Directory hierarchy, storeBook and renameBook (WebdavRepo.kt:208-251)
  // ---------------------------------------------------------------------

  /**
   * The directory ensureDirectoryHierarchy visits for the '/' at position
   * `k`: joining the segments before it, in order, onto the repository URI.
   */
  function DirAt(repoUri: string, path: string, k: nat): string
    requires k <= |path|
  {
    repoUri + "/" + path[..k]
  }

  /**
   * ensureDirectoryHierarchy: walk the segments of `path` but the last and
   * create each directory the server does not have yet. Returns the created
   * directories in the order they were created.
   */
  method EnsureDirectoryHierarchy(repoUri: string, path: string, existing: set<string>) returns (created: seq<string>)
    ensures forall i :: 0 <= i < |created| ==> created[i] !in existing
    ensures forall i :: 0 <= i < |created| ==> exists k :: 0 <= k < |path| && path[k] == '/' && created[i] == DirAt(repoUri, path, k)
    ensures forall k :: 0 <= k < |path| && path[k] == '/' ==> DirAt(repoUri, path, k) in existing || DirAt(repoUri, path, k) in created
    ensures forall i, j :: 0 <= i < j < |created| ==> |created[i]| < |created[j]|
    ensures repoUri + "/" + path !in created
    ensures '/' !in path ==> created == []
  {
    created := [];
    ghost var positions: seq<nat> := [];
    var k := 0;
    while k < |path|
      invariant 0 <= k <= |path|
      invariant forall i :: 0 <= i < |created| ==> created[i] !in existing
      invariant |positions| == |created|
      invariant forall i :: 0 <= i < |created| ==> positions[i] < k && path[positions[i]] == '/' && created[i] == DirAt(repoUri, path, positions[i])
      invariant forall j :: 0 <= j < k && path[j] == '/' ==> DirAt(repoUri, path, j) in existing || DirAt(repoUri, path, j) in created
      invariant forall i, j :: 0 <= i < j < |created| ==> |created[i]| < |created[j]|
      invariant forall i :: 0 <= i < |created| ==> |created[i]| < |repoUri| + 1 + k
    {
      if path[k] == '/' {
        var dir := DirAt(repoUri, path, k);
        if dir !in existing {
          created := created + [dir];
          positions := positions + [k];
        }
      }
      k := k + 1;
    }
    if |created| > 0 {
      assert path[positions[0]] in path;
    }
  }

  /** The requests an upload or a rename sends, in order. */
  datatype Request = CreateDirectory(url: string) | Put(url: string) | Move(from: string, to: string)

  /**
   * storeBook: build the hierarchy only when the encoded name has a '/', then
   * upload. `encoded` is Uri.encode(fileName, "/") and `fileUrl` the URL
   * built from it.
   */
  method StoreBook(repoUri: string, encoded: string, fileUrl: string, existing: set<string>) returns (requests: seq<Request>)
    ensures |requests| > 0 && requests[|requests| - 1] == Put(fileUrl)
    ensures '/' !in encoded ==> requests == [Put(fileUrl)]
    ensures forall i :: 0 <= i < |requests| - 1 ==> requests[i].CreateDirectory? && requests[i].url !in existing
    ensures forall k :: 0 <= k < |encoded| && encoded[k] == '/' && DirAt(repoUri, encoded, k) !in existing ==>
              CreateDirectory(DirAt(repoUri, encoded, k)) in requests
  {
    var dirs: seq<string> := [];
    if '/' in encoded {
      dirs := EnsureDirectoryHierarchy(repoUri, encoded, existing);
    }
    requests := seq(|dirs|, i requires 0 <= i < |dirs| => CreateDirectory(dirs[i])) + [Put(fileUrl)];
    forall k | 0 <= k < |encoded| && encoded[k] == '/' && DirAt(repoUri, encoded, k) !in existing
      ensures CreateDirectory(DirAt(repoUri, encoded, k)) in requests
    {
      var i :| 0 <= i < |dirs| && dirs[i] == DirAt(repoUri, encoded, k);
      assert requests[i] == CreateDirectory(dirs[i]);
    }
  }

  /**
   * renameBook: refuse an existing destination before sending anything; then
   * the hierarchy when the new name has a '/', then the move. `encoded` is
   * the new relative path encoded, `oldUrl` and `newUrl` the two full URLs.
   */
  method RenameBook(repoUri: string, newName: string, encoded: string, oldUrl: string, newUrl: string, existing: set<string>)
    returns (r: Result<seq<Request>>)
    ensures r.Err? <==> newUrl in existing
    ensures r.Err? ==> r.error == IO
    ensures r.Ok? ==> |r.value| > 0 && r.value[|r.value| - 1] == Move(oldUrl, newUrl)
    ensures r.Ok? && '/' !in newName ==> r.value == [Move(oldUrl, newUrl)]
    ensures r.Ok? ==> forall i :: 0 <= i < |r.value| - 1 ==> r.value[i].CreateDirectory? && r.value[i].url !in existing
    ensures r.Ok? && '/' in newName ==>
              forall k :: 0 <= k < |encoded| && encoded[k] == '/' && DirAt(repoUri, encoded, k) !in existing ==>
                CreateDirectory(DirAt(repoUri, encoded, k)) in r.value
  {
    if newUrl in existing {
      return Err(IO);
    }
    var dirs: seq<string> := [];
    if '/' in newName {
      dirs := EnsureDirectoryHierarchy(repoUri, encoded, existing);
    }
    var requests := seq(|dirs|, i requires 0 <= i < |dirs| => CreateDirectory(dirs[i])) + [Move(oldUrl, newUrl)];
    if '/' in newName {
      forall k | 0 <= k < |encoded| && encoded[k] == '/' && DirAt(repoUri, encoded, k) !in existing
        ensures CreateDirectory(DirAt(repoUri, encoded, k)) in requests
      {
        var i :| 0 <= i < |dirs| && dirs[i] == DirAt(repoUri, encoded, k);
        assert requests[i] == CreateDirectory(dirs[i]);
      }
    }
    return Ok(requests);
  }

  // ---------------------------------------------------------------------
  // getBooks filter (WebdavRepo.kt:159-187)
  // ---------------------------------------------------------------------

  /** A listed WebDAV resource: its name (last segment), its full URL and its kind. */
  datatype Resource = Resource(name: string, fullUrl: string, isDirectory: bool)

  /** The repository URI reads as a regex whose only metacharacters are '.', '(' and ')'. */
  predicate ModelledPattern(repoUri: string) {
    forall i :: 0 <= i < |repoUri| ==> !IsOtherRegexMeta(repoUri[i])
  }

  /**
   * Whether getBooks keeps a resource: a supported notebook name and, from
   * Android O on, a relative path the repository's ignore rules do not
   * ignore. The relative path is the one getRelativePath computes.
   */
  predicate Kept(repoUri: string, res: Resource, ignored: (string, bool) -> bool, sdkAtLeastO: bool)
    requires ModelledPattern(repoUri)
    requires sdkAtLeastO ==> Balanced(repoUri)
  {
    && BookName.IsSupportedFormatFileName(res.name)
    && (sdkAtLeastO ==> !ignored(RelativePathAsWritten(repoUri, res.fullUrl).value, res.isDirectory))
  }

  /** One step of the mapNotNull: the relative path first (from Android O on), then the name and the ignore rules. */
  function Keep(repoUri: string, res: Resource, ignored: (string, bool) -> bool, sdkAtLeastO: bool): (r: Result<bool>)
    requires ModelledPattern(repoUri)
    ensures r.Err? <==> sdkAtLeastO && !Balanced(repoUri)
    ensures r.Err? ==> r.error == IllegalArgument
    ensures r.Ok? ==> (r.value <==> Kept(repoUri, res, ignored, sdkAtLeastO))
  {
    if sdkAtLeastO then
      match RelativePathAsWritten(repoUri, res.fullUrl)
      case Err(k) => Err(k)
      case Ok(path) => Ok(BookName.IsSupportedFormatFileName(res.name) && !ignored(path, res.isDirectory))
    else Ok(BookName.IsSupportedFormatFileName(res.name))
  }

  /**
   * The mapNotNull over the listing. From Android O on, each resource's
   * relative path is computed before its name is looked at, so a repository
   * URI that is not a valid regex makes the first resource throw.
   */
  function ListedBooks(repoUri: string, listing: seq<Resource>, ignored: (string, bool) -> bool, sdkAtLeastO: bool)
    : (r: Result<seq<Resource>>)
    requires ModelledPattern(repoUri)
    ensures r.Err? <==> sdkAtLeastO && |listing| > 0 && !Balanced(repoUri)
    ensures r.Err? ==> r.error == IllegalArgument
    ensures r.Ok? ==> |r.value| <= |listing|
    ensures r.Ok? ==> forall x :: x in r.value <==> x in listing && Kept(repoUri, x, ignored, sdkAtLeastO)
    decreases |listing|
  {
    if |listing| == 0 then Ok([])
    else
      var res := listing[0];
      match Keep(repoUri, res, ignored, sdkAtLeastO)
      case Err(k) => Err(k)
      case Ok(b) =>
        match ListedBooks(repoUri, listing[1..], ignored, sdkAtLeastO)
        case Err(k) => Err(k)
        case Ok(rest) =>
          assert forall x :: x in listing <==> x == res || x in listing[1..];
          Ok(if b then [res] + rest else rest)
  }

  /** The kept resources of a listing, in the listing's order, when no path computation can throw. */
  function KeptBooks(repoUri: string, listing: seq<Resource>, ignored: (string, bool) -> bool, sdkAtLeastO: bool)
    : seq<Resource>
    requires ModelledPattern(repoUri)
    requires sdkAtLeastO ==> Balanced(repoUri)
  {
    if |listing| == 0 then []
    else (if Kept(repoUri, listing[0], ignored, sdkAtLeastO) then [listing[0]] else [])
         + KeptBooks(repoUri, listing[1..], ignored, sdkAtLeastO)
  }

  /** When no path computation can throw, getBooks' mapNotNull is the in-order filter KeptBooks. */
  lemma {:induction false} ListedBooksIsKeptBooks(repoUri: string, listing: seq<Resource>,
                                                  ignored: (string, bool) -> bool, sdkAtLeastO: bool)
    requires ModelledPattern(repoUri)
    requires sdkAtLeastO ==> Balanced(repoUri)
    ensures ListedBooks(repoUri, listing, ignored, sdkAtLeastO) == Ok(KeptBooks(repoUri, listing, ignored, sdkAtLeastO))
    decreases |listing|
  {
    if |listing| > 0 {
      var rest := KeptBooks(repoUri, listing[1..], ignored, sdkAtLeastO);
      ListedBooksIsKeptBooks(repoUri, listing[1..], ignored, sdkAtLeastO);
      assert Keep(repoUri, listing[0], ignored, sdkAtLeastO) == Ok(Kept(repoUri, listing[0], ignored, sdkAtLeastO));
      assert [] + rest == rest;
    }
  }

  lemma {:induction false} KeptBooksDistributes(repoUri: string, a: seq<Resource>, b: seq<Resource>,
                                                ignored: (string, bool) -> bool, sdkAtLeastO: bool)
    requires ModelledPattern(repoUri)
    requires sdkAtLeastO ==> Balanced(repoUri)
    ensures KeptBooks(repoUri, a + b, ignored, sdkAtLeastO)
         == KeptBooks(repoUri, a, ignored, sdkAtLeastO) + KeptBooks(repoUri, b, ignored, sdkAtLeastO)
    decreases |a|
  {
    if |a| == 0 {
      assert a + b == b;
    } else {
      assert (a + b)[0] == a[0];
      assert (a + b)[1..] == a[1..] + b;
      KeptBooksDistributes(repoUri, a[1..], b, ignored, sdkAtLeastO);
    }
  }

  /** The books of a longer listing are those of its parts, in order: the filter keeps the listing's order. */
  lemma ListedBooksDistributes(repoUri: string, a: seq<Resource>, b: seq<Resource>,
                               ignored: (string, bool) -> bool, sdkAtLeastO: bool)
    requires ModelledPattern(repoUri)
    requires sdkAtLeastO ==> Balanced(repoUri)
    ensures ListedBooks(repoUri, a + b, ignored, sdkAtLeastO).Ok?
    ensures ListedBooks(repoUri, a + b, ignored, sdkAtLeastO).value
         == ListedBooks(repoUri, a, ignored, sdkAtLeastO).value + ListedBooks(repoUri, b, ignored, sdkAtLeastO).value
  {
    ListedBooksIsKeptBooks(repoUri, a + b, ignored, sdkAtLeastO);
    ListedBooksIsKeptBooks(repoUri, a, ignored, sdkAtLeastO);
    ListedBooksIsKeptBooks(repoUri, b, ignored, sdkAtLeastO);
    KeptBooksDistributes(repoUri, a, b, ignored, sdkAtLeastO);
  }

  /** A single resource is listed exactly when it is kept. */
  lemma ListedBooksOfOne(repoUri: string, res: Resource, ignored: (string, bool) -> bool, sdkAtLeastO: bool)
    requires ModelledPattern(repoUri)
    requires sdkAtLeastO ==> Balanced(repoUri)
    ensures ListedBooks(repoUri, [res], ignored, sdkAtLeastO)
         == Ok(if Kept(repoUri, res, ignored, sdkAtLeastO) then [res] else [])
  {
    var single := [res];
    assert single[0] == res && single[1..] == [];
    assert ListedBooks(repoUri, single[1..], ignored, sdkAtLeastO) == Ok([]);
    assert [res] + [] == [res];
  }

  /** What getBooks sends to the server and what it returns. */
  datatype BookListing = BookListing(requests: seq<Request>, books: Result<seq<Resource>>)

  /**
   * getBooks: create the repository's directory when the server lacks it,
   * then list it recursively and keep the notebooks. The directory is
   * created even when the listing then throws.
   */
  function GetBooks(repoUri: string, rootExists: bool, listing: seq<Resource>, ignored: (string, bool) -> bool,
                    sdkAtLeastO: bool): (r: BookListing)
    requires ModelledPattern(repoUri)
    ensures rootExists ==> r.requests == []
    ensures !rootExists ==> r.requests == [CreateDirectory(ToUrl(repoUri))]
    ensures r.books.Err? <==> sdkAtLeastO && |listing| > 0 && !Balanced(repoUri)
    ensures r.books.Err? ==> r.books.error == IllegalArgument
    ensures r.books.Ok? ==> forall x :: x in r.books.value ==> x in listing && BookName.IsSupportedFormatFileName(x.name)
    ensures r.books.Ok? ==> forall x :: x in r.books.value <==> x in listing && Kept(repoUri, x, ignored, sdkAtLeastO)
  {
    BookListing(if rootExists then [] else [CreateDirectory(ToUrl(repoUri))],
                ListedBooks(repoUri, listing, ignored, sdkAtLeastO))
  }

  /** Before Android O the ignore rules are not consulted, and nothing throws. */
  lemma OldAndroidIgnoresNothing(repoUri: string, rootExists: bool, listing: seq<Resource>,
                                 ignored: (string, bool) -> bool, other: (string, bool) -> bool)
    requires ModelledPattern(repoUri)
    ensures GetBooks(repoUri, rootExists, listing, ignored, false).books.Ok?
    ensures GetBooks(repoUri, rootExists, listing, ignored, false) == GetBooks(repoUri, rootExists, listing, other, false)
  {
    OldListingIgnoresNothing(repoUri, listing, ignored, other);
  }

  lemma {:induction false} OldListingIgnoresNothing(repoUri: string, listing: seq<Resource>,
                                                    ignored: (string, bool) -> bool, other: (string, bool) -> bool)
    requires ModelledPattern(repoUri)
    ensures ListedBooks(repoUri, listing, ignored, false) == ListedBooks(repoUri, listing, other, false)
    decreases |listing|
  {
    if |listing| > 0 {
      OldListingIgnoresNothing(repoUri, listing[1..], ignored, other);
    }
  }

  /** From Android O on, a repository URI with an unbalanced '(' makes getBooks throw, after creating the directory. */
  lemma UnbalancedUriBreaksListing(res: Resource, ignored: (string, bool) -> bool)
    ensures var r := GetBooks("n(1", false, [res], ignored, true);
            && r.requests == [CreateDirectory("n(1")]
            && r.books == Err(IllegalArgument)
  {
    var uri := "n(1";
    assert uri == "n" + "(1";
    ParenFreeSkipped("n", "(1", 0);
    assert "(1"[1..] == "1" && "1"[1..] == "";
    assert !Balanced(uri);
  }
}
